=== FILE: README.md ===
# WoT Mod Assistant core, modelled in Dafny

The model covers the decision logic of the World of Tanks mod assistant. The
system has two halves. One is a C# console core, `ModManagerCore`. The other
is a Python GUI that runs the core as a subprocess and expects JSON answers:
an envelope as `modcore/manager.py` writes it, whose mods-list message holds
JSON-encoded records.

- **`ArgumentParser`** (`argumentparser.dfy`) models the core's command-line
  parser.
  - The option table holds each option's value pattern.
  - Validation of the flat token array follows the constructor's order: first
    the odd-length check, then for each pair the option, then the value.
  - Options and their aliases map to `ArgumentType`.
  - `CallHelp` produces the help texts.
  - The value patterns are `.*`, `.*|all` or a two-word alternation, and
    `Regex.IsMatch` is unanchored. Matching is therefore modelled exactly, as
    a left-to-right scan for a start position where some branch matches.
- **`ModManager`** (`modmanager.dfy`) models the core's package store over an
  abstract snapshot of the mods root.
  - The snapshot holds the subdirectory paths and the files of each folder.
    Each file is a name plus the entries of its extracted archive, already
    parsed.
  - `GetGameVersionFoldersSorted` and `GetNewestGameVersionFolder` build the
    version-folder index.
  - `GetInstalledMods` builds the listing: enabled then disabled packages,
    with the file-name fallback for packages without `meta.xml`.
  - `InstallMod` makes the install decision: the three rejections, the first
    same-name record, and the version comparison with the dots removed.
- **`ModMeta`** (`modmeta.dfy`) models the C# `ModInfo`.
  - It covers the property defaults, the six- and seven-argument
    constructors and the `meta.xml` constructor.
  - The `meta.xml` constructor tests presence with `//key` but reads direct
    children only, and the last duplicate wins.
  - It also covers `ToString`.
- **`PyMod`** (`pymod.dfy`) models the Python `ModInfo.__init__`. The first
  child element wins, `wgid` fills `ModID`, and a parse error is swallowed.
  Lemmas pin down where the two readers disagree.
- **`Xml`** (`xml.dfy`) holds the element tree both readers work on, and the
  queries they use on it.
- **`Envelope`** (`envelope.dfy`) models `modcore/manager.py`: the numeric
  `ErrorCode` and `ActionCode` values, and `Output.get_full_json`.
- **`Json`** (`json.dfy`) models `json.dumps` with Python's default settings
  and the strict `json.loads` scanner. It proves that decoding the encoder's
  output gives the value back, and it states a decoded object's dict
  semantics.
- **`Invoker`** (`invoker.dfy`) models the GUI's client of the core.
  - The request methods build option/value pairs, and `invoke` prefixes them
    with the executable path and "-o json".
  - `__parse_mod`, `__parse_mods_list` and `parse_response` decode the
    answers, with Python's `KeyError`, `TypeError` and `JSONDecodeError`
    modelled as results.
  - The protocol is proved consistent end to end: every command line the GUI
    builds passes the core's validation and reads back as the same request.
    An envelope decodes to its fields, and a mods list wrapped in an envelope
    decodes to the same records.
- **`Strings`** (`strings.dfy`) and **`Wrappers`** (`wrappers.dfy`) provide
  the shared helpers:
  - substring and suffix tests;
  - `Replace(".", "")`;
  - `Path.GetFileName`;
  - ordinal string order, with an insertion sort proved to give the unique
    ascending permutation;
  - `Option` and `Result`.

Behaviour of the code worth noting:

- `InstallMod` moves the package file rather than copying it.
- A version folder is any subdirectory path that contains neither "config"
  nor "temp". Nothing checks that the name looks like a version.
- The C# `meta.xml` reader has no fallback for malformed XML: the exception
  escapes.
- An enabled package without `meta.xml` is listed with `IsEnabled` false,
  because its fallback uses the six-argument constructor.

## Model

| member | source | states |
|---|---|---|
| `ArgumentParser.AllTypesComplete` | ModManagerCore/ArgumentParser.cs:17-54 | The enumeration has twelve distinct members, listed in declaration order, and every type is among them. |
| `ArgumentParser.IsMatchFrom` | ModManagerCore/ArgumentParser.cs:109 | The unanchored search from position i succeeds iff some branch of the pattern matches at some start j with i <= j <= len(v). |
| `ArgumentParser.AnyRunMatchesEverything` | ModManagerCore/ArgumentParser.cs:71-84 | A pattern with a `.*` branch matches every value, the empty value included. |
| `ArgumentParser.TwoWordsMatchSubstrings` | ModManagerCore/ArgumentParser.cs:73-87 | An alternation of two words a and b matches v iff a or b occurs in v as a substring. |
| `ArgumentParser.TableValueRules` | ModManagerCore/ArgumentParser.cs:69-88 | The free-text options accept every value. `--sudo`, `--set-all`, `-o` and `--mod-folder` accept exactly the values that contain one of their two words. |
| `ArgumentParser.SwitchCoversTable` | ModManagerCore/ArgumentParser.cs:119-139 | An option has a switch arm iff it is a key of the table, so the throwing `err2` arm cannot be reached after validation. |
| `ArgumentParser.Aliases` | ModManagerCore/ArgumentParser.cs:121-135 | `-h`/`--help`, `--shutdown`/`--exit`, `-l`/`--list` and `-i`/`--install` map to the same type. `--output` is not an option, even though its description names it; `-o` is. |
| `ArgumentParser.Validate` | ModManagerCore/ArgumentParser.cs:101-113 | No error iff every pair is OK. An error names the first failing pair, in input order: unknown option (err1) before a bad value. |
| `ArgumentParser.MapPairs` | ModManagerCore/ArgumentParser.cs:116-142 | Exactly len/2 arguments, by position: entry i is (args[2i], the type of args[2i], args[2i+1]). |
| `ArgumentParser.Parse` | ModManagerCore/ArgumentParser.cs:93-143 | An odd length fails with "Invalid argument list" before anything else. Success iff the length is even and every pair is OK. Otherwise the error belongs to the first bad pair. On success the arguments are positional, as in `MapPairs`. |
| `ArgumentParser.ParseExamples` | ModManagerCore/ArgumentParser.cs:95-112 | Worked instances: `["--help"]` is odd, `--output json` is an unknown option, `-o xml` is a rejected value, and `-o jsonx` is accepted because matching is unanchored. |
| `ArgumentParser.HelpLinesListsEach` | ModManagerCore/ArgumentParser.cs:154-158 | Every description in the list occurs in the joined text behind "\n> ". |
| `ArgumentParser.HelpAllListsEveryType` | ModManagerCore/ArgumentParser.cs:150-160 | The help for "all" is its header followed by the "\n> " lines of all twelve descriptions in declaration order, so every type appears, the hidden Sudo included. |
| `ArgumentParser.HelpTopicKeywords` | ModManagerCore/ArgumentParser.cs:162-188 | Exactly the seven keywords list, help, install, toggle, uninstall, move-to-new and set-all have a topic, and each keyword with "--" in front is an option of the very type its topic describes. |
| `ArgumentParser.HelpTopics` | ModManagerCore/ArgumentParser.cs:145-195 | A keyword's help is "Showing help for <v> command:\n" plus its type's description. Any other value except "all" gets "Invalid value for help argument". |
| `Strings.FindFromZeroIffContains` | ModManagerCore/ModManager.cs:56 | The left-to-right search finds an occurrence iff the word occurs in the string (`string.Contains`). |
| `Strings.RemoveChar` | ModManagerCore/ModManager.cs:168 | `Replace(".", "")` leaves no '.' and keeps the count of every other character. |
| `Strings.RemoveCharCons` | ModManagerCore/ModManager.cs:168 | `Replace(".", "")` works left to right and keeps the order of what it keeps: a leading '.' is dropped, any other leading character stays in front of the rest's result. |
| `Strings.FileName` | ModManagerCore/ModManager.cs:81 | `Path.GetFileName` gives a suffix of the path with no separator, preceded in the path by '/' whenever it is shorter than the path. |
| `Strings.FileNameKeepsSuffix` | ModManagerCore/ModManager.cs:138-172 | A path ending in ".wotmod" has a file name that ends in ".wotmod". |
| `Strings.StrLeTotal` | ModManagerCore/ModManager.cs:62 | Any two strings are comparable in ordinal order. |
| `Strings.StrLeTransitive` | ModManagerCore/ModManager.cs:62 | Ordinal order is transitive. |
| `Strings.StrLeAntisymmetric` | ModManagerCore/ModManager.cs:62 | Ordinal order is antisymmetric, so sorting has one answer. |
| `Strings.Sort` | ModManagerCore/ModManager.cs:62 | `List.Sort` returns an ascending permutation of its input. |
| `Strings.SortedPermutationUnique` | ModManagerCore/ModManager.cs:62 | Two ascending permutations of the same strings are equal, so the sorted list is determined by its contents. |
| `Strings.LastIsMaximum` | ModManagerCore/ModManager.cs:46 | The last element of an ascending list is its maximum. |
| `ModManager.KeepVersionFolders` | ModManagerCore/ModManager.cs:53-61 | The kept paths are exactly the enumerated paths containing neither "config" nor "temp", with their multiplicities. |
| `ModManager.VersionFoldersSorted` | ModManagerCore/ModManager.cs:49-64 | The result is ascending and is a permutation of the kept paths. |
| `ModManager.NewestVersionFolder` | ModManagerCore/ModManager.cs:43-47 | Fails iff no path is kept. Otherwise it returns a kept path that is at least every kept path in ordinal order. |
| `ModManager.NewestIsOrdinalNotNumeric` | ModManagerCore/ModManager.cs:43-64 | Of "1.9.0", "1.10.0" and a "config" folder, "1.9.0" is the newest. |
| `ModManager.WholePathIsTested` | ModManagerCore/ModManager.cs:56 | The exclusion looks at the whole path, so a game directory under ".../contemporary/..." hides its version folders. |
| `ModManager.FilesEndingWith` | ModManagerCore/ModManager.cs:72 | The enumeration keeps exactly the files whose names end in the suffix. |
| `ModManager.SuffixesDisjoint` | ModManagerCore/ModManager.cs:95 | No name ends in both ".wotmod" and ".wotmod.disabled", so the two loops list disjoint files. |
| `ModManager.Describe` | ModManagerCore/ModManager.cs:74-116 | A record carries its file name. It is enabled iff it comes from the enabled loop with a top-level `meta.xml`. Without `meta.xml` the record is the file-name fallback (version "0.0.0", "No description available"). A failure needs a `meta.xml`. |
| `ModManager.DescribeReadsMeta` | ModManagerCore/ModManager.cs:88-89 | With `meta.xml`, the record and the exception are the XML constructor's, with the loop's enabled flag. |
| `ModManager.DescribeAll` | ModManagerCore/ModManager.cs:72-93 | Success iff every file is readable. On success there is one record per file, in order. On failure the error is that of the first unreadable file. |
| `ModManager.GetInstalledMods` | ModManagerCore/ModManager.cs:66-120 | Success iff both loops can read every file. Records of `*.wotmod` files come first, then records of `*.wotmod.disabled` files, each in order, and each is the record `Describe` builds for its file in its pass. The length is the sum. Every disabled record is off, and an enabled record is on iff it had `meta.xml`. A failure carries the error of the first unreadable file, the enabled pass first. |
| `ModManager.MetaLessEnabledFileListedDisabled` | ModManagerCore/ModManager.cs:79-83 | An enabled package without `meta.xml` is listed as disabled, with name, package id and file name all set to the file name. |
| `ModManager.ParseInt32` | ModManagerCore/ModManager.cs:168 | `int.Parse` succeeds iff the text is a non-empty run of digits whose value fits in Int32, and then returns that value. |
| `ModManager.ParseInt32OfText` | ModManagerCore/ModManager.cs:168 | `int.Parse` reads back the decimal text of every value from 0 to Int32's maximum. |
| `ModManager.ParseInt32LeadingZero` | ModManagerCore/ModManager.cs:168 | A leading '0' never changes the parse of a non-empty text, so "0.9" with its dots dropped reads as 9. |
| `ModManager.CompareVersions` | ModManagerCore/ModManager.cs:166-190 | An upgrade iff both versions, with dots removed, parse and the installed one is smaller. Unreadable iff either fails to parse, and the catch turns that into "no". |
| `ModManager.SameVersionNeverUpgrades` | ModManagerCore/ModManager.cs:168 | Equal versions never install. |
| `ModManager.DotsDroppedBeforeComparing` | ModManagerCore/ModManager.cs:168 | "1.9.1" (191) counts as newer than "1.10" (110). |
| `ModManager.Decide` | ModManagerCore/ModManager.cs:161-192 | No same-name record iff no installed record has the candidate's name. Otherwise the first same-name record's version decides. |
| `ModManager.OnlyFirstSameNameDecides` | ModManagerCore/ModManager.cs:161-192 | Records after the first same-name one never change the decision. |
| `ModManager.DecideMatchesShouldInstall` | ModManagerCore/ModManager.cs:161-198 | The loop moves the file iff no record has the name, or the first that has it is older by the integer comparison. |
| `ModManager.NewestListing` | ModManagerCore/ModManager.cs:159 | Listing the newest folder succeeds iff a folder exists and its listing succeeds. |
| `ModManager.InstallMod` | ModManagerCore/ModManager.cs:128-199 | A missing source, a name not ending in ".wotmod" and a missing `meta.xml` are rejected in that order. After the checks, the result is defined iff the candidate and the listing can be read. It moves iff `ShouldInstall` holds, to newest + "/" + file name. `VersionUnreadable` means the first same-name version failed to parse. |
| `ModManager.InstalledPackageIsListed` | ModManagerCore/ModManager.cs:194-198 | After an install, listing the newest folder with the moved file shows the candidate's record, enabled. |
| `ModManager.ListingAfterMove` | ModManagerCore/ModManager.cs:172 | Whenever the checks pass and both reads succeed, the folder with the package added under its file name lists the candidate's record. |
| `ModManager.ListingWithOneMore` | ModManagerCore/ModManager.cs:72-93 | One more enabled package at the end of the enumeration keeps the listing readable and adds that package's record. |
| `ModManager.FilesEndingWithAppend` | ModManagerCore/ModManager.cs:72 | The enumeration of a folder with one more file is the old enumeration, plus the file when its name has the suffix. |
| `ModMeta.ConstructorFields` | ModManagerCore/ModMeta.cs:12-44 | The defaults are "unknown", "unknown", "unknown", "0.0", "", null and false. The six-argument constructor puts its third parameter into `PackageID` and leaves `IsEnabled` off. The seven-argument one also sets `IsEnabled`. |
| `ModMeta.FromXml` | ModManagerCore/ModMeta.cs:46-89 | Malformed text throws. Success iff every key that `//key` finds is a direct child. Otherwise it throws `KeyNotFound` for the first consulted key that is not a direct child. `ModID` stays "unknown". The enabled flag and file name come from the arguments. Each field is the last direct child's inner text, or the default when `//key` finds nothing. |
| `ModMeta.ToString` | ModManagerCore/ModMeta.cs:91-101 | Seven newline-terminated lines; the length is the sum of the line lengths plus 7. |
| `ModMeta.ToStringLines` | ModManagerCore/ModMeta.cs:91-101 | When no field holds a newline, the text splits back into exactly the seven labelled lines "Mod Name: " + name, "Mod ID: " + id, … in that order. |
| `ModMeta.SplitJoinLines` | ModManagerCore/ModMeta.cs:91-101 | Splitting newline-terminated lines that hold no newline gives the lines back. |
| `ModMeta.RootNamedKeyThrows` | ModManagerCore/ModMeta.cs:65-69 | A `name` that is only the document root is found by `//name` but is no direct child, so the constructor throws. |
| `ModMeta.LastDuplicateWins` | ModManagerCore/ModMeta.cs:56-59 | Of two `<name>` children, the second one is read. |
| `Xml.ChildDictLastWins` | ModManagerCore/ModMeta.cs:56-59 | The dictionary's keys are exactly the names of the root's children. The entry for a name is the inner text of the last child with that name. |
| `Xml.ChildIsDescendant` | ModManagerCore/ModMeta.cs:103-108 | A direct child named `key` is also found by the descendant search `//key`. |
| `Xml.Find` | ModManagerGUI/modcore/mod.py:55-56 | `find(key)` returns nothing iff no child element has that tag. Otherwise it returns the first such child. |
| `PyMod.PyModInfo` | ModManagerGUI/modcore/mod.py:4-42 | The enabled flag and file name are always the arguments. Without a document, or with one that fails to parse, every field is its argument. With a document, each of name, version, id, description and wgid sets its field from the first child with that tag, and a missing child leaves the field at its argument. |
| `PyMod.OverrideIsFirstChild` | ModManagerGUI/modcore/mod.py:26-39 | One override step yields the first child's leading text, or the current value when no child has the tag. |
| `PyMod.DefaultsWithoutXml` | ModManagerGUI/modcore/mod.py:4-19 | The keyword defaults are "unknown", "unknown", "unknown", "0.0", "", None and False. |
| `PyMod.ReadersDisagreeOnDuplicates` | ModManagerGUI/modcore/mod.py:26-27 | With two `<name>` children, the Python reader takes the first and the C# reader the last. |
| `PyMod.ReadersDisagreeOnWgid` | ModManagerGUI/modcore/mod.py:38-39 | Only the Python reader fills `ModID` from `<wgid>`. |
| `PyMod.ReadersDisagreeOnMalformed` | ModManagerGUI/modcore/mod.py:41-42 | Malformed XML leaves the Python record at its arguments, where the C# constructor throws. |
| `Envelope.ErrorFromValue` | ModManagerGUI/modcore/manager.py:5-8 | `ErrorCode(n)` exists iff 0 <= n < 3, and it has value n. |
| `Envelope.ErrorCodeValues` | ModManagerGUI/modcore/manager.py:5-8 | Every member's value is in 0..2 and gives that member back, so the values are distinct. |
| `Envelope.ActionFromValue` | ModManagerGUI/modcore/manager.py:10-18 | `ActionCode(n)` exists iff 0 <= n < 8, and it has value n. |
| `Envelope.ActionCodeValues` | ModManagerGUI/modcore/manager.py:10-18 | Each member's value is its position in declaration order and gives the member back. |
| `Envelope.GetFullJson` | ModManagerGUI/modcore/manager.py:26-32 | The text is ASCII. It decodes to an object whose keys are exactly message, errorCode and actionCode. The message is unchanged and both codes are their numeric values. |
| `Envelope.EnvelopeKeys` | ModManagerGUI/modcore/manager.py:28-32 | The dict literal has the three keys, in order, with the message and both code values. |
| `Json.DumpsAscii` | ModManagerGUI/modcore/manager.py:28 | `json.dumps` with `ensure_ascii` writes non-empty printable ASCII for every float-free value. |
| `Json.LoadsDumps` | ModManagerGUI/invoker.py:47 | `json.loads(json.dumps(v)) == v` for every float-free value. |
| `Json.Get` | ModManagerGUI/invoker.py:48-50 | A key is missing iff no member has it. Otherwise the value is that of the last member with the key, since a later duplicate overwrites. |
| `Json.Keys` | ModManagerGUI/invoker.py:55 | Iterating a dict yields each key of the object once, in order of first occurrence. |
| `Json.GetUnique` | ModManagerGUI/invoker.py:38-44 | When a member's key is unique, subscripting gives that member's value. |
| `Invoker.Subscript` | ModManagerGUI/invoker.py:48-50 | A non-dict raises `TypeError`. A dict gives the last value for the key, or raises `KeyError`. |
| `Invoker.LoadsValue` | ModManagerGUI/invoker.py:52 | Only a string can be decoded. It succeeds iff its text is JSON, with that value. |
| `Invoker.Iterate` | ModManagerGUI/invoker.py:55 | Iteration yields a list's elements, a string's characters and a dict's distinct keys. Anything else raises `TypeError`. |
| `Invoker.ReadKeys` | ModManagerGUI/invoker.py:38-44 | Succeeds iff every key is present, with the values in key order. Otherwise it raises `KeyError` for the first missing key. |
| `Invoker.ParseModSpec` | ModManagerGUI/invoker.py:36-44 | `__parse_mod` raises on decode errors and non-dicts. It succeeds iff all seven keys are present. ModName goes to `name`, ModID to `wgid` and PackageID to `pckid`, then the rest in order. Otherwise it raises for the first missing key. |
| `Invoker.ParseModOfObject` | ModManagerGUI/invoker.py:36-44 | A record in the seven-key encoding `__parse_mod` expects parses back to the same `Mod`. |
| `Invoker.Collect` | ModManagerGUI/invoker.py:54-56 | The loop succeeds iff every step does, with the values in order. Otherwise it stops at the first exception. |
| `Invoker.ParseMods` | ModManagerGUI/invoker.py:54-56 | The loop over the message succeeds iff `__parse_mod` succeeds on every element, giving one record per element in order. Otherwise it raises the exception of the first element that fails. |
| `Invoker.ParseModsList` | ModManagerGUI/invoker.py:46-57 | Undecodable output raises `JSONDecodeError` and a non-dict `TypeError`. Missing keys raise `KeyError` in the order message, errorCode, actionCode. It succeeds iff all three keys are present and the message decodes, iterates and parses element by element. The result is then the parsed records with the errorCode and actionCode values. |
| `Invoker.ParseModsOfObjects` | ModManagerGUI/invoker.py:54-56 | Records encoded one by one parse back into the same list. |
| `Invoker.ModsListRoundTrip` | ModManagerGUI/invoker.py:46-57 | A mods list wrapped by `get_full_json` decodes to the same records and the two code values. |
| `Invoker.ParseResponse` | ModManagerGUI/invoker.py:60-66 | Non-JSON output comes back whole with codes -1 and -1. A non-dict raises `TypeError`. A dict succeeds iff it has all three keys and then returns their values. Otherwise it raises `KeyError` for the first missing key. |
| `Invoker.ParseResponseOfEnvelope` | ModManagerGUI/invoker.py:60-66 | `parse_response(get_full_json(o))` is (message, errorCode value, actionCode value). |
| `Invoker.ArgList` | ModManagerGUI/invoker.py:68-130 | Every request builds exactly one option/value pair, except that `get_mod_folders` raises iff the keyword is not "newest" or "all". |
| `Invoker.Invoke` | ModManagerGUI/invoker.py:133-138 | The executable path comes first. With `json_output`, "-o" and "json" follow at positions 1 and 2 and the arguments start at 3. Without it, the arguments follow the path directly, unchanged. |
| `Invoker.ValueAccepted` | ModManagerGUI/invoker.py:96-130 | Every pair a request builds is in the core's table, and its value matches the option's pattern. |
| `Invoker.CommandLineParses` | ModManagerGUI/invoker.py:68-138 | Every command line the GUI builds passes the core's parser as two arguments: "-o json" and one that reads back as the request. `get_mod("all")` reads back as the full listing. |
| `Invoker.GetModAllIsListAll` | ModManagerGUI/invoker.py:73-75 | `get_mod("all")` sends the same command line as `get_mods_list()`. |

## Left out

- **Process and file I/O:** the Qt GUI, the HTTP client, configuration files, the interactive first-run prompt and the subprocess launch are not modelled. They are plumbing around the logic above. A response is the text the core printed.
- **Dispatch and descriptions:** the console dispatch in `Program.cs` is left out; it only calls `InstallMod`. The reflection in `EnumHelper.cs` is replaced by a fixed description per argument type.
- **Failures of foreign operations:**
  - Zip extraction and XML parsing are inputs: an archive is its parsed entries, and a document is a tree or `Malformed`.
  - Extraction failures, and `File.Move` onto an existing file, are not modelled.
  - A successful install is modelled by the folder listing with the package appended.
- **Operations without an implementation:** toggle, uninstall, set-all, move-to-new and the folder listing exist only as option strings and GUI calls, so they are modelled as command lines only.
- Sorting: `List<string>.Sort` uses .NET's culture-sensitive comparison; the model uses ordinal code-point order.
- `int.Parse`: only digits are modelled. Leading or trailing whitespace and a sign make it fail here, where .NET would accept them.
- **Path separators:** only '/' separates directories. Windows `\` separators are not modelled.
- **`bytes` versus `str`:** `invoke` returns the bytes of `popen.stdout.read()`, and `json.loads` decodes them; the model treats the output as already-decoded text. Two visible consequences are therefore not modelled. On output that is not JSON, `parse_response` returns `str(output_json)`, the bytes repr `"b'...'"`, where the model returns the text itself. Output that is not valid UTF-8 raises `UnicodeDecodeError`, which the `except json.JSONDecodeError` does not catch.
- **The C# core's console output:** `Program.cs` prints a plain-text banner and fixed messages, treats `-o` as an unknown command, and nothing in the C# core serialises a `ModInfo` to JSON. The JSON side of the protocol is therefore modelled as the envelope `modcore/manager.py` writes and the record encoding `invoker.py` expects; against the C# core as given, every answer takes the non-JSON path of `parse_response`.
- `ModManager.HasTopLevelMeta`: the descriptor is found only under the exact entry name `meta.xml`. On Windows, `File.Exists` is case-insensitive, so an archive storing `META.XML` is read through the XML constructor there, where the model gives it the file-name fallback record.
- `ModManager.InstallMod`: the `.wotmod` suffix test is modelled as an ordinal comparison. `modPath.EndsWith(".wotmod")` without a `StringComparison` compares by the current culture, which skips ignorable code points, so a path ending in ".wotmod" followed by a soft hyphen passes the check in .NET and is rejected as not a package here.
- `ModManager.FilesEndingWith`: suffix matching is case-sensitive, as `Directory.EnumerateFiles` does on Linux. On Windows the pattern `*.wotmod` matches case-insensitively, so `A.WOTMOD` is listed there and not by the model.
- **Floats and surrogates in `Json`:**
  - Floats are kept as their lexemes and excluded from the round-trip lemmas.
  - A lone surrogate escape is refused by the decoder, where Python accepts it.
  - Python's limits on integer digits and on recursion depth are not modelled.
- **`__str__` and `__repr__`:** `Mod.__repr__` and the Python `ModInfo.__str__` only format text for display and are not modelled.
- **The `Succeeded` name:** `ErrorCode.Success` is called `Succeeded` here, because `Success` is the constructor of `Result`.
- `ModMeta.ToStringLines`: the round trip holds only for fields without a newline; a description spanning several lines prints as more than seven lines.
- **`get_mod`'s exception:** `get_mod` creates an `Exception` but never raises it. It is modelled as the `--list <pckid>` request it sends.

=== FILE: argumentparser.dfy ===
/**
 * The core's command-line parser: the option table with the value pattern
 * of every option, validation of the flat token array, the mapping of
 * options (and their aliases) to argument types, and the help texts.
 */
module ArgumentParser {
  import opened Wrappers
  import opened Strings

  /** `ArgumentType`, in declaration order. */
  datatype ArgumentType =
    | Help | Sudo | Shutdown | About | List | Install
    | Toggle | Uninstall | MoveToNew | SetAll | Output | ModFolders

  /** The `[Description]` attribute of every argument type. */
  function Description(t: ArgumentType): string
  {
    match t
    case Help => "--help [all,keyword]: Help message."
    case Sudo => "[hidden]Sudo command."
    case Shutdown => "--exit [any]: Exits and clears cache."
    case About => "--about [any]: About message."
    case List => "--list [all,keyword]: List mods: (all) shows all mods, or enter search term."
    case Install => "--install [path]: Install mod. needs the path to the mod package file."
    case Toggle => "--toggle [pack_id]: Toggle mod active / inactive, needs the package ID."
    case Uninstall => "--uninstall [pack_id]: Uninstall mod, needs the package ID."
    case MoveToNew => "--move-to-new [pack_id, all]: Move mods from previous version to the newest game version, needs: package ID, or: all to move all"
    case SetAll => "--set-all [enabled,disabled]: Set all mods to active / inactive, allowed values: enabled, disabled"
    case Output => "--output [json,default]: Set output format for console, allowed values: json, default"
    case ModFolders => "--mod-folder [newest,all]: Get the paths to the mod folders, allowed values: newest, all"
  }

  /** `Enum.GetValues(typeof(ArgumentType))`: every type, in declaration order. */
  const AllTypes: seq<ArgumentType> :=
    [Help, Sudo, Shutdown, About, List, Install, Toggle, Uninstall, MoveToNew, SetAll, Output, ModFolders]

  /** The twelve types are listed once each, and every type is listed. */
  lemma AllTypesComplete(t: ArgumentType)
    ensures |AllTypes| == 12
    ensures t in AllTypes
    ensures forall i, j :: 0 <= i < j < |AllTypes| ==> AllTypes[i] != AllTypes[j]
  {
  }

  // ---------------------------------------------------------------------------
  // Value patterns
  // ---------------------------------------------------------------------------

  /** One branch of a regular expression in the table: `.*` or a plain word. */
  datatype Branch = AnyRun | Word(w: string)

  /** An alternation of branches, `b1|b2|...`. */
  datatype Pattern = Alternation(branches: seq<Branch>)

  /** `Regex.IsMatch` for one branch tried at start position `i` of `v`. */
  predicate BranchMatchesAt(b: Branch, v: string, i: nat)
    requires i <= |v|
  {
    match b
    case AnyRun => true
    case Word(w) => OccursAt(v, w, i)
  }

  predicate SomeBranchMatchesAt(p: Pattern, v: string, i: nat)
    requires i <= |v|
  {
    exists k :: 0 <= k < |p.branches| && BranchMatchesAt(p.branches[k], v, i)
  }

  /**
   * `Regex.IsMatch(v, p)`: the pattern is unanchored, so the engine tries
   * every start position from left to right until one matches.
   */
  function IsMatchFrom(p: Pattern, v: string, i: nat): (r: bool)
    requires i <= |v|
    ensures r <==> exists j :: i <= j <= |v| && SomeBranchMatchesAt(p, v, j)
    decreases |v| - i
  {
    if SomeBranchMatchesAt(p, v, i) then true
    else if i == |v| then false
    else IsMatchFrom(p, v, i + 1)
  }

  predicate IsMatch(p: Pattern, v: string)
  {
    IsMatchFrom(p, v, 0)
  }

  /** `.*` (alone or as a branch) matches every value, the empty one included. */
  lemma AnyRunMatchesEverything(p: Pattern, v: string)
    requires AnyRun in p.branches
    ensures IsMatch(p, v)
  {
    var k :| 0 <= k < |p.branches| && p.branches[k] == AnyRun;
    assert SomeBranchMatchesAt(p, v, 0);
  }

  /** A two-word alternation matches exactly the values containing one of the words. */
  lemma {:induction false} TwoWordsMatchSubstrings(a: string, b: string, v: string)
    ensures IsMatch(Alternation([Word(a), Word(b)]), v) <==> Contains(v, a) || Contains(v, b)
  {
    var p := Alternation([Word(a), Word(b)]);
    if IsMatch(p, v) {
      var j :| 0 <= j <= |v| && SomeBranchMatchesAt(p, v, j);
      var k :| 0 <= k < 2 && BranchMatchesAt(p.branches[k], v, j);
      if k == 0 { assert OccursAt(v, a, j); } else { assert OccursAt(v, b, j); }
    }
    if Contains(v, a) {
      var j :| 0 <= j <= |v| - |a| && OccursAt(v, a, j);
      assert BranchMatchesAt(p.branches[0], v, j);
      assert SomeBranchMatchesAt(p, v, j);
    } else if Contains(v, b) {
      var j :| 0 <= j <= |v| - |b| && OccursAt(v, b, j);
      assert BranchMatchesAt(p.branches[1], v, j);
      assert SomeBranchMatchesAt(p, v, j);
    }
  }

  /**
   * `argumentFormat`: every accepted option with its value pattern
   * (`.*`, `.*|all`, or a two-word alternation).
   */
  const ArgumentFormat: map<string, Pattern> := map[
    "-h" := Alternation([AnyRun]),
    "--help" := Alternation([AnyRun]),
    "--sudo" := Alternation([Word("true"), Word("false")]),
    "--shutdown" := Alternation([AnyRun]),
    "--exit" := Alternation([AnyRun]),
    "--about" := Alternation([AnyRun]),
    "-l" := Alternation([AnyRun, Word("all")]),
    "--list" := Alternation([AnyRun, Word("all")]),
    "--install" := Alternation([AnyRun]),
    "-i" := Alternation([AnyRun]),
    "--toggle" := Alternation([AnyRun]),
    "--uninstall" := Alternation([AnyRun]),
    "--move-to-new" := Alternation([AnyRun]),
    "--set-all" := Alternation([Word("enabled"), Word("disabled")]),
    "-o" := Alternation([Word("json"), Word("default")]),
    "--mod-folder" := Alternation([Word("newest"), Word("all")])
  ]

  /** The `args[i] switch` expression; `None` is its throwing `_` arm. */
  function TypeOf(option: string): Option<ArgumentType>
  {
    match option
    case "-h" => Some(Help)
    case "--help" => Some(Help)
    case "--sudo" => Some(Sudo)
    case "--shutdown" => Some(Shutdown)
    case "--exit" => Some(Shutdown)
    case "--about" => Some(About)
    case "-l" => Some(List)
    case "--list" => Some(List)
    case "-i" => Some(Install)
    case "--install" => Some(Install)
    case "--toggle" => Some(Toggle)
    case "--uninstall" => Some(Uninstall)
    case "--move-to-new" => Some(MoveToNew)
    case "--set-all" => Some(SetAll)
    case "-o" => Some(Output)
    case "--mod-folder" => Some(ModFolders)
    case _ => None
  }

  /**
   * The switch covers exactly the table's keys, so its throwing arm (err2)
   * is unreachable after validation.
   */
  lemma SwitchCoversTable(option: string)
    ensures option in ArgumentFormat <==> TypeOf(option).Some?
  {
  }

  /**
   * Every value of the option kinds that take free text is accepted; the
   * keyword options accept exactly the values containing one of their words.
   */
  lemma TableValueRules(option: string, v: string)
    requires option in ArgumentFormat
    ensures option !in {"--sudo", "--set-all", "-o", "--mod-folder"} ==> IsMatch(ArgumentFormat[option], v)
    ensures option == "--sudo" ==> (IsMatch(ArgumentFormat[option], v) <==> Contains(v, "true") || Contains(v, "false"))
    ensures option == "--set-all" ==> (IsMatch(ArgumentFormat[option], v) <==> Contains(v, "enabled") || Contains(v, "disabled"))
    ensures option == "-o" ==> (IsMatch(ArgumentFormat[option], v) <==> Contains(v, "json") || Contains(v, "default"))
    ensures option == "--mod-folder" ==> (IsMatch(ArgumentFormat[option], v) <==> Contains(v, "newest") || Contains(v, "all"))
  {
    var p := ArgumentFormat[option];
    if option in {"--sudo", "--set-all", "-o", "--mod-folder"} {
      assert p.branches[0].Word? && p.branches[1].Word? && |p.branches| == 2;
      TwoWordsMatchSubstrings(p.branches[0].w, p.branches[1].w, v);
    } else {
      assert p.branches[0] == AnyRun;
      AnyRunMatchesEverything(p, v);
    }
  }

  /** The aliases, and `--output` not being an option despite its description. */
  lemma Aliases()
    ensures TypeOf("-h") == TypeOf("--help") == Some(Help)
    ensures TypeOf("--shutdown") == TypeOf("--exit") == Some(Shutdown)
    ensures TypeOf("-l") == TypeOf("--list") == Some(List)
    ensures TypeOf("-i") == TypeOf("--install") == Some(Install)
    ensures "--output" !in ArgumentFormat && TypeOf("-o") == Some(Output)
  {
  }

  // ---------------------------------------------------------------------------
  // Validation and mapping
  // ---------------------------------------------------------------------------

  /** `Argument`: an option as typed, its type, and its value. */
  datatype Argument = Argument(option: string, kind: ArgumentType, value: string)

  /** The `ArgumentException`s the constructor throws. */
  datatype ParseError =
    | OddLength                       // "Invalid argument list"
    | UnknownOption(option: string)   // "Invalid argument (err1): <option>"
    | InvalidValue(option: string)    // "Invalid value for argument: <option>"

  /** The exception message of each error. */
  function ErrorMessage(e: ParseError): string
  {
    match e
    case OddLength => "Invalid argument list"
    case UnknownOption(o) => "Invalid argument (err1): " + o
    case InvalidValue(o) => "Invalid value for argument: " + o
  }

  /** Pair `i` of the token array: the option `args[2i]` and the value `args[2i + 1]`. */
  predicate PairOk(args: seq<string>, i: nat)
    requires 2 * i + 1 < |args|
  {
    args[2 * i] in ArgumentFormat && IsMatch(ArgumentFormat[args[2 * i]], args[2 * i + 1])
  }

  /** The error the first loop raises for pair `i`, which it finds not OK. */
  function PairError(args: seq<string>, i: nat): ParseError
    requires 2 * i + 1 < |args|
  {
    if args[2 * i] !in ArgumentFormat then UnknownOption(args[2 * i]) else InvalidValue(args[2 * i])
  }

  lemma PairShift(args: seq<string>, i: nat)
    requires |args| >= 2 && 2 * i + 3 < |args|
    ensures PairOk(args[2..], i) == PairOk(args, i + 1)
    ensures PairError(args[2..], i) == PairError(args, i + 1)
  {
    assert args[2..][2 * i] == args[2 * (i + 1)];
    assert args[2..][2 * i + 1] == args[2 * (i + 1) + 1];
  }

  /**
   * The first validation loop: the first pair, in input order, whose option
   * is not in the table (err1) or whose value fails its pattern.
   */
  function Validate(args: seq<string>): (e: Option<ParseError>)
    requires |args| % 2 == 0
    ensures e.None? <==> forall i :: 0 <= i < |args| / 2 ==> PairOk(args, i)
    ensures e.Some? ==> exists i :: 0 <= i < |args| / 2 && !PairOk(args, i) && e.value == PairError(args, i)
                                    && forall k :: 0 <= k < i ==> PairOk(args, k)
    decreases |args|
  {
    if |args| == 0 then None
    else if !PairOk(args, 0) then Some(PairError(args, 0))
    else
      var rest := args[2..];
      var e := Validate(rest);
      forall i | 0 <= i < |rest| / 2 ensures PairOk(rest, i) == PairOk(args, i + 1) {
        PairShift(args, i);
      }
      if e.None? then
        assert forall i :: 0 <= i < |args| / 2 ==> PairOk(args, i) by {
          forall i | 0 <= i < |args| / 2 ensures PairOk(args, i) {
            if i > 0 { assert PairOk(rest, i - 1); }
          }
        }
        e
      else
        var i :| 0 <= i < |rest| / 2 && !PairOk(rest, i) && e.value == PairError(rest, i)
                 && forall k :: 0 <= k < i ==> PairOk(rest, k);
        PairShift(args, i);
        assert forall k :: 0 <= k < i + 1 ==> PairOk(args, k) by {
          forall k | 0 <= k < i + 1 ensures PairOk(args, k) {
            if k > 0 { assert PairOk(rest, k - 1); }
          }
        }
        e
  }

  /**
   * The second loop: every pair turned into an `Argument`. The type lookup
   * cannot fail once every option is known to be in the table.
   */
  function MapPairs(args: seq<string>): (r: seq<Argument>)
    requires |args| % 2 == 0
    requires forall i :: 0 <= i < |args| / 2 ==> PairOk(args, i)
    ensures |r| == |args| / 2
    ensures forall i :: 0 <= i < |r| ==>
      r[i].option == args[2 * i] && r[i].value == args[2 * i + 1] && Some(r[i].kind) == TypeOf(args[2 * i])
  {
    assert forall i :: 0 <= i < |args| / 2 ==> TypeOf(args[2 * i]).Some? by {
      forall i | 0 <= i < |args| / 2 ensures TypeOf(args[2 * i]).Some? {
        assert PairOk(args, i);
        SwitchCoversTable(args[2 * i]);
      }
    }
    seq(|args| / 2, i requires 0 <= i < |args| / 2 =>
      Argument(args[2 * i], TypeOf(args[2 * i]).value, args[2 * i + 1]))
  }

  /**
   * `new ArgumentParser(args)`: the odd-length check first, then the
   * validation loop, then `ValidArguments`.
   */
  function Parse(args: seq<string>): (r: Result<seq<Argument>, ParseError>)
    ensures |args| % 2 != 0 ==> r == Failure(OddLength)
    ensures r.Success? <==> |args| % 2 == 0 && forall i :: 0 <= i < |args| / 2 ==> PairOk(args, i)
    ensures r.Failure? && |args| % 2 == 0 ==>
      exists i :: 0 <= i < |args| / 2 && !PairOk(args, i) && r.error == PairError(args, i)
                  && forall k :: 0 <= k < i ==> PairOk(args, k)
    ensures r.Success? ==> |r.value| == |args| / 2
    ensures r.Success? ==> forall i :: 0 <= i < |r.value| ==>
      && r.value[i].option == args[2 * i]
      && r.value[i].value == args[2 * i + 1]
      && Some(r.value[i].kind) == TypeOf(args[2 * i])
  {
    if |args| % 2 != 0 then Failure(OddLength)
    else
      match Validate(args)
      case Some(e) => Failure(e)
      case None => Success(MapPairs(args))
  }

  /** Worked instances: an odd list, an unknown option, a rejected value, an accepted pair. */
  lemma ParseExamples()
    ensures Parse(["--help"]) == Failure(OddLength)
    ensures Parse(["--output", "json"]) == Failure(UnknownOption("--output"))
    ensures Parse(["-o", "xml"]) == Failure(InvalidValue("-o"))
    ensures Parse(["-o", "jsonx"]) == Success([Argument("-o", Output, "jsonx")])
  {
    UnknownOptionExample();
    RejectedValueExample();
    AcceptedValueExample();
  }

  lemma UnknownOptionExample()
    ensures Parse(["--output", "json"]) == Failure(UnknownOption("--output"))
  {
    assert !PairOk(["--output", "json"], 0);
  }

  lemma RejectedValueExample()
    ensures Parse(["-o", "xml"]) == Failure(InvalidValue("-o"))
  {
    assert !Contains("xml", "json") && !Contains("xml", "default");
    TwoWordsMatchSubstrings("json", "default", "xml");
    assert !PairOk(["-o", "xml"], 0);
  }

  lemma AcceptedValueExample()
    ensures Parse(["-o", "jsonx"]) == Success([Argument("-o", Output, "jsonx")])
  {
    assert OccursAt("jsonx", "json", 0);
    TwoWordsMatchSubstrings("json", "default", "jsonx");
    var args := ["-o", "jsonx"];
    assert PairOk(args, 0);
    var r := Parse(args);
    assert r.Success? && |r.value| == 1;
    assert r.value[0].option == "-o" && r.value[0].value == "jsonx";
    assert Some(r.value[0].kind) == TypeOf("-o") == Some(Output);
    assert r.value == [Argument("-o", Output, "jsonx")];
  }

  // ---------------------------------------------------------------------------
  // Help
  // ---------------------------------------------------------------------------

  /** The keywords `CallHelp` accepts besides "all", with the type each describes. */
  function HelpTopic(value: string): Option<ArgumentType>
  {
    match value
    case "list" => Some(List)
    case "help" => Some(Help)
    case "install" => Some(Install)
    case "toggle" => Some(Toggle)
    case "uninstall" => Some(Uninstall)
    case "move-to-new" => Some(MoveToNew)
    case "set-all" => Some(SetAll)
    case _ => None
  }

  /** The descriptions of all types, in declaration order. */
  function AllDescriptions(): (ds: seq<string>)
    ensures |ds| == |AllTypes|
    ensures forall i :: 0 <= i < |ds| ==> ds[i] == Description(AllTypes[i])
  {
    seq(|AllTypes|, i requires 0 <= i < |AllTypes| => Description(AllTypes[i]))
  }

  /** "\n> " and each of the descriptions `ds`, in order. */
  function HelpLines(ds: seq<string>): string
  {
    if |ds| == 0 then "" else "\n> " + ds[0] + HelpLines(ds[1..])
  }

  /** `CallHelp(value)`. */
  function CallHelp(value: string): string
  {
    if value == "all" then "Showing help for all commands:\n" + HelpLines(AllDescriptions())
    else match HelpTopic(value)
      case Some(t) => "Showing help for " + value + " command:\n" + Description(t)
      case None => "Invalid value for help argument"
  }

  /** Every description in `ds` occurs in `HelpLines(ds)`, behind "\n> ". */
  lemma {:induction false} HelpLinesListsEach(ds: seq<string>, k: nat)
    requires k < |ds|
    ensures Contains(HelpLines(ds), "\n> " + ds[k])
    decreases |ds|
  {
    if k == 0 {
      ContainsPrefix("\n> " + ds[0], HelpLines(ds[1..]));
      assert HelpLines(ds) == ("\n> " + ds[0]) + HelpLines(ds[1..]);
    } else {
      HelpLinesListsEach(ds[1..], k - 1);
      ContainsShift("\n> " + ds[0], HelpLines(ds[1..]), "\n> " + ds[k]);
      assert HelpLines(ds) == ("\n> " + ds[0]) + HelpLines(ds[1..]);
    }
  }

  /**
   * The help for "all" is its header followed by one "\n> "-line per type,
   * in declaration order, so it lists every type, hidden `Sudo` included.
   */
  lemma HelpAllListsEveryType(t: ArgumentType)
    ensures CallHelp("all") == "Showing help for all commands:\n" + HelpLines(AllDescriptions())
    ensures Contains(CallHelp("all"), "\n> " + Description(t))
  {
    AllTypesComplete(t);
    var k :| 0 <= k < |AllTypes| && AllTypes[k] == t;
    HeaderListsEach("Showing help for all commands:\n", AllDescriptions(), k);
  }

  /** A header in front of the help lines keeps every description in the text. */
  lemma HeaderListsEach(header: string, ds: seq<string>, k: nat)
    requires k < |ds|
    ensures Contains(header + HelpLines(ds), "\n> " + ds[k])
  {
    HelpLinesListsEach(ds, k);
    ContainsShift(header, HelpLines(ds), "\n> " + ds[k]);
  }

  /**
   * Exactly seven keywords besides "all" have a help topic, and each one is
   * the long option of the type it describes, without its leading "--".
   */
  lemma HelpTopicKeywords(value: string)
    ensures value in {"list", "help", "install", "toggle", "uninstall", "move-to-new", "set-all"} <==> HelpTopic(value).Some?
    ensures HelpTopic(value).Some? ==> TypeOf("--" + value) == HelpTopic(value)
  {
    if value == "list" { assert "--" + value == "--list"; }
    else if value == "help" { assert "--" + value == "--help"; }
    else if value == "install" { assert "--" + value == "--install"; }
    else if value == "toggle" { assert "--" + value == "--toggle"; }
    else if value == "uninstall" { assert "--" + value == "--uninstall"; }
    else if value == "move-to-new" { assert "--" + value == "--move-to-new"; }
    else if value == "set-all" { assert "--" + value == "--set-all"; }
  }

  /**
   * A keyword topic gets its header and the topic's description; every other
   * value but "all" gets the fixed rejection text.
   */
  lemma HelpTopics(value: string)
    ensures HelpTopic(value).Some? ==>
      CallHelp(value) == "Showing help for " + value + " command:\n" + Description(HelpTopic(value).value)
    ensures value != "all" && HelpTopic(value).None? ==> CallHelp(value) == "Invalid value for help argument"
  {
    assert HelpTopic("all").None?;
  }
}

=== FILE: envelope.dfy ===
/**
 * The response envelope the GUI side uses (`modcore/manager.py`): the
 * numeric error and action codes, and `Output.get_full_json`, a JSON object
 * with exactly the keys "message", "errorCode" and "actionCode".
 */
module Envelope {
  import opened Wrappers
  import opened Json

  /** `ErrorCode`; `Succeeded` is the member named `Success` (the name is taken by `Result`). */
  datatype ErrorCode = Succeeded | FilesystemFailed | ModNotFound

  /** `ErrorCode.value`. */
  function ErrorValue(e: ErrorCode): int
  {
    match e
    case Succeeded => 0
    case FilesystemFailed => 1
    case ModNotFound => 2
  }

  /** `ErrorCode(n)`: the member with value `n`; `None` where Python raises `ValueError`. */
  function ErrorFromValue(n: int): (r: Option<ErrorCode>)
    ensures r.Some? <==> 0 <= n < 3
    ensures r.Some? ==> ErrorValue(r.value) == n
  {
    if n == 0 then Some(Succeeded)
    else if n == 1 then Some(FilesystemFailed)
    else if n == 2 then Some(ModNotFound)
    else None
  }

  /** The values are 0, 1 and 2, and each member is recovered from its value. */
  lemma ErrorCodeValues(e: ErrorCode)
    ensures 0 <= ErrorValue(e) < 3
    ensures ErrorFromValue(ErrorValue(e)) == Some(e)
  {
  }

  /** `ActionCode`, in declaration order. */
  datatype ActionCode = Install | Uninstall | Toggle | MoveToNew | SetAll | List | GetFolders | Setup

  /** The members in declaration order. */
  const AllActions: seq<ActionCode> := [Install, Uninstall, Toggle, MoveToNew, SetAll, List, GetFolders, Setup]

  /** `ActionCode.value`. */
  function ActionValue(a: ActionCode): int
  {
    match a
    case Install => 0
    case Uninstall => 1
    case Toggle => 2
    case MoveToNew => 3
    case SetAll => 4
    case List => 5
    case GetFolders => 6
    case Setup => 7
  }

  /** `ActionCode(n)`: the member with value `n`; `None` where Python raises `ValueError`. */
  function ActionFromValue(n: int): (r: Option<ActionCode>)
    ensures r.Some? <==> 0 <= n < 8
    ensures r.Some? ==> ActionValue(r.value) == n
  {
    if 0 <= n < 8 then Some(AllActions[n]) else None
  }

  /** The value of each member is its position in declaration order, so the values are distinct. */
  lemma ActionCodeValues(a: ActionCode)
    ensures 0 <= ActionValue(a) < 8 && AllActions[ActionValue(a)] == a
    ensures ActionFromValue(ActionValue(a)) == Some(a)
  {
  }

  /** `Output`. */
  datatype Output = Output(message: string, errorCode: ErrorCode, actionCode: ActionCode)

  /** The dict `get_full_json` serializes, keys in insertion order. */
  function EnvelopeJson(o: Output): Json
  {
    JObject([("message", JString(o.message)),
             ("errorCode", JInt(ErrorValue(o.errorCode))),
             ("actionCode", JInt(ActionValue(o.actionCode)))])
  }

  /**
   * `get_full_json`: ASCII text that decodes to an object with exactly the
   * three keys, the message unchanged and both codes as their numbers.
   */
  function GetFullJson(o: Output): (r: string)
    ensures Ascii(r)
    ensures Loads(r).Some? && Loads(r).value.JObject?
    ensures var ms := Loads(r).value.members;
      && Keys(ms) == ["message", "errorCode", "actionCode"]
      && Get(ms, "message") == Some(JString(o.message))
      && Get(ms, "errorCode") == Some(JInt(ErrorValue(o.errorCode)))
      && Get(ms, "actionCode") == Some(JInt(ActionValue(o.actionCode)))
  {
    var v := EnvelopeJson(o);
    assert Plain(v) by { assert MemberPlain(v.members[0]); }
    DumpsAscii(v);
    LoadsDumps(v);
    EnvelopeKeys(o);
    Dumps(v)
  }

  lemma EnvelopeKeys(o: Output)
    ensures var ms := EnvelopeJson(o).members;
      && Keys(ms) == ["message", "errorCode", "actionCode"]
      && Get(ms, "message") == Some(JString(o.message))
      && Get(ms, "errorCode") == Some(JInt(ErrorValue(o.errorCode)))
      && Get(ms, "actionCode") == Some(JInt(ActionValue(o.actionCode)))
  {
    var ms := EnvelopeJson(o).members;
    assert ms[..1][..0] == [];
    assert Keys(ms[..1]) == ["message"];
    assert ms[..2][..1] == ms[..1];
    assert Keys(ms[..2]) == ["message", "errorCode"] by {
      assert ms[..2][1].0 !in ["message"];
    }
    assert ms[..3] == ms;
    assert ms[2].0 !in ["message", "errorCode"];
  }
}

=== FILE: invoker.dfy ===
/**
 * The GUI's client of the core (`invoker.py`): the argument lists it sends,
 * and the decoding of the answers it expects back: a JSON envelope as
 * `modcore/manager.py` writes it, including the mods list whose message is
 * a JSON list of JSON-encoded mod records.
 * Running the process is not modelled: a response is the text it printed.
 */
module Invoker {
  import opened Wrappers
  import opened Strings
  import opened Json
  import Envelope
  import AP = ArgumentParser

  // ---------------------------------------------------------------------------
  // Python operations on decoded values
  // ---------------------------------------------------------------------------

  /** The exceptions the decoding code lets through. */
  datatype PyError =
    | DecodeError         // json.JSONDecodeError
    | KeyError(key: string)
    | TypeError           // subscripting, decoding or iterating the wrong kind of value

  /**
   * `v[key]` with a string key: a dict gives the value of the last member
   * with that key (a later duplicate overwrites), a missing key raises
   * `KeyError`, and any other value raises `TypeError`.
   */
  function Subscript(v: Json, key: string): (r: Result<Json, PyError>)
    ensures !v.JObject? ==> r == Failure(TypeError)
    ensures v.JObject? ==> (r.Success? <==> KeyIn(v.members, key))
    ensures v.JObject? && r.Failure? ==> r.error == KeyError(key)
    ensures r.Success? ==> exists i :: 0 <= i < |v.members| && v.members[i] == (key, r.value)
                                       && !KeyIn(v.members[i + 1..], key)
  {
    match v
    case JObject(ms) =>
      (match Get(ms, key)
       case Some(x) => Success(x)
       case None => Failure(KeyError(key)))
    case _ => Failure(TypeError)
  }

  /** `json.loads(x)` on a decoded value: only a string can be decoded. */
  function LoadsValue(x: Json): (r: Result<Json, PyError>)
    ensures !x.JString? ==> r == Failure(TypeError)
    ensures x.JString? ==> (r.Success? <==> Loads(x.s).Some?)
    ensures x.JString? && r.Success? ==> Loads(x.s) == Some(r.value)
    ensures x.JString? && r.Failure? ==> r.error == DecodeError
  {
    match x
    case JString(s) => (match Loads(s) case Some(v) => Success(v) case None => Failure(DecodeError))
    case _ => Failure(TypeError)
  }

  /** `json.loads(text)` on the text the core printed. */
  function LoadsText(text: string): (r: Result<Json, PyError>)
  {
    match Loads(text)
    case Some(v) => Success(v)
    case None => Failure(DecodeError)
  }

  /**
   * `for x in v`: the elements of a list, the one-character strings of a
   * string, the keys of a dict (each once, in first-occurrence order);
   * anything else is not iterable.
   */
  function Iterate(v: Json): (r: Result<seq<Json>, PyError>)
    ensures r.Failure? <==> !(v.JArray? || v.JString? || v.JObject?)
    ensures r.Failure? ==> r.error == TypeError
    ensures v.JArray? ==> r == Success(v.items)
    ensures v.JString? ==>
      (r.Success? && |r.value| == |v.s| && forall i :: 0 <= i < |v.s| ==> r.value[i] == JString([v.s[i]]))
    ensures v.JObject? ==>
      (r.Success? && |r.value| == |Keys(v.members)|
       && forall i :: 0 <= i < |r.value| ==> r.value[i] == JString(Keys(v.members)[i]))
  {
    match v
    case JArray(items) => Success(items)
    case JString(s) => Success(seq(|s|, i requires 0 <= i < |s| => JString([s[i]])))
    case JObject(ms) =>
      var ks := Keys(ms);
      Success(seq(|ks|, i requires 0 <= i < |ks| => JString(ks[i])))
    case _ => Failure(TypeError)
  }

  // ---------------------------------------------------------------------------
  // Mod records
  // ---------------------------------------------------------------------------

  /** `Mod`: the fields hold whatever the decoded record held; nothing checks their types. */
  datatype Mod = Mod(name: Json, wgid: Json, pckid: Json, version: Json, desc: Json,
                     localfilename: Json, isenabled: Json)

  /** The keys `__parse_mod` reads, in the order it reads them. */
  const ModKeys: seq<string> := ["ModName", "ModID", "PackageID", "Version", "Description", "LocalFileName", "IsEnabled"]

  /** Every key before position `n` of `keys` is present. */
  predicate KeysBefore(ms: seq<(string, Json)>, keys: seq<string>, n: nat)
    requires n <= |keys|
  {
    forall j :: 0 <= j < n ==> KeyIn(ms, keys[j])
  }

  /**
   * `d[k]` for each key of `keys` in turn, as a call's arguments are
   * evaluated: the values, or the `KeyError` of the first missing key.
   */
  function ReadKeys(ms: seq<(string, Json)>, keys: seq<string>): (r: Result<seq<Json>, PyError>)
    ensures r.Success? <==> KeysBefore(ms, keys, |keys|)
    ensures r.Success? ==> |r.value| == |keys| && forall j :: 0 <= j < |keys| ==> Get(ms, keys[j]) == Some(r.value[j])
    ensures r.Failure? ==> exists n :: 0 <= n < |keys| && KeysBefore(ms, keys, n) && !KeyIn(ms, keys[n])
                                       && r.error == KeyError(keys[n])
  {
    if |keys| == 0 then Success([])
    else
      var v :- Subscript(JObject(ms), keys[0]);
      var vs :- ReadKeys(ms, keys[1..]);
      assert forall j :: 0 < j < |keys| ==> keys[1..][j - 1] == keys[j];
      Success([v] + vs)
  }

  /**
   * `__parse_mod(jstr)`: decode the text, then read the seven keys in
   * order; ModName becomes `name`, ModID `wgid`, PackageID `pckid`.
   */
  function ParseMod(jstr: Json): Result<Mod, PyError>
  {
    var jmod :- LoadsValue(jstr);
    if !jmod.JObject? then Failure(TypeError)
    else
      var f :- ReadKeys(jmod.members, ModKeys);
      Success(Mod(f[0], f[1], f[2], f[3], f[4], f[5], f[6]))
  }

  /**
   * What `__parse_mod` does with each kind of input: decode errors and
   * non-dicts raise, a dict with all seven keys gives the record with each
   * field read from its key, and otherwise the first missing key raises.
   */
  lemma ParseModSpec(jstr: Json)
    ensures LoadsValue(jstr).Failure? ==> ParseMod(jstr) == Failure(LoadsValue(jstr).error)
    ensures LoadsValue(jstr).Success? && !LoadsValue(jstr).value.JObject? ==> ParseMod(jstr) == Failure(TypeError)
    ensures LoadsValue(jstr).Success? && LoadsValue(jstr).value.JObject? ==>
      var ms := LoadsValue(jstr).value.members;
      var r := ParseMod(jstr);
      && (r.Success? <==> KeysBefore(ms, ModKeys, 7))
      && (r.Success? ==>
            && Some(r.value.name) == Get(ms, "ModName")
            && Some(r.value.wgid) == Get(ms, "ModID")
            && Some(r.value.pckid) == Get(ms, "PackageID")
            && Some(r.value.version) == Get(ms, "Version")
            && Some(r.value.desc) == Get(ms, "Description")
            && Some(r.value.localfilename) == Get(ms, "LocalFileName")
            && Some(r.value.isenabled) == Get(ms, "IsEnabled"))
      && (r.Failure? ==> exists n :: 0 <= n < 7 && KeysBefore(ms, ModKeys, n) && !KeyIn(ms, ModKeys[n])
                                     && r.error == KeyError(ModKeys[n]))
  {
    if LoadsValue(jstr).Success? && LoadsValue(jstr).value.JObject? {
      var ms := LoadsValue(jstr).value.members;
      var f := ReadKeys(ms, ModKeys);
      if f.Success? {
        assert Get(ms, ModKeys[0]) == Some(f.value[0]);
        assert Get(ms, ModKeys[1]) == Some(f.value[1]);
        assert Get(ms, ModKeys[2]) == Some(f.value[2]);
        assert Get(ms, ModKeys[3]) == Some(f.value[3]);
        assert Get(ms, ModKeys[4]) == Some(f.value[4]);
        assert Get(ms, ModKeys[5]) == Some(f.value[5]);
        assert Get(ms, ModKeys[6]) == Some(f.value[6]);
      }
    }
  }

  /**
   * A loop that stops at the first raised exception: all the values when
   * nothing raised, otherwise the exception of the first failure.
   */
  function Collect<T>(rs: seq<Result<T, PyError>>): (r: Result<seq<T>, PyError>)
    ensures r.Success? <==> forall i :: 0 <= i < |rs| ==> rs[i].Success?
    ensures r.Success? ==> |r.value| == |rs| && forall i :: 0 <= i < |rs| ==> rs[i] == Success(r.value[i])
    ensures r.Failure? ==> exists i :: 0 <= i < |rs| && rs[i] == Failure(r.error)
                                       && forall k :: 0 <= k < i ==> rs[k].Success?
  {
    if |rs| == 0 then Success([])
    else
      var x :- rs[0];
      var xs :- Collect(rs[1..]);
      assert forall i :: 0 < i < |rs| ==> rs[1..][i - 1] == rs[i];
      Success([x] + xs)
  }

  /** The loop of `__parse_mods_list`: every element parsed in order, the first failure propagated. */
  function ParseMods(items: seq<Json>): (r: Result<seq<Mod>, PyError>)
    ensures r.Success? <==> forall i :: 0 <= i < |items| ==> ParseMod(items[i]).Success?
    ensures r.Success? ==> |r.value| == |items| && forall i :: 0 <= i < |items| ==> ParseMod(items[i]) == Success(r.value[i])
    ensures r.Failure? ==> exists i :: 0 <= i < |items| && ParseMod(items[i]) == Failure(r.error)
                                       && forall k :: 0 <= k < i ==> ParseMod(items[k]).Success?
  {
    var rs := seq(|items|, i requires 0 <= i < |items| => ParseMod(items[i]));
    assert forall i :: 0 <= i < |items| ==> rs[i] == ParseMod(items[i]);
    Collect(rs)
  }

  /**
   * `__parse_mods_list(output)`: decode the envelope, read message,
   * errorCode and actionCode in that order, decode the message, and parse
   * every element it iterates over as a mod record.
   */
  function ParseModsList(output: string): (r: Result<(seq<Mod>, Json, Json), PyError>)
    ensures Loads(output).None? ==> r == Failure(DecodeError)
    ensures Loads(output).Some? && !Loads(output).value.JObject? ==> r == Failure(TypeError)
    ensures Loads(output).Some? && Loads(output).value.JObject? ==>
      var ms := Loads(output).value.members;
      && (!KeyIn(ms, "message") ==> r == Failure(KeyError("message")))
      && (KeyIn(ms, "message") && !KeyIn(ms, "errorCode") ==> r == Failure(KeyError("errorCode")))
      && (KeyIn(ms, "message") && KeyIn(ms, "errorCode") && !KeyIn(ms, "actionCode") ==>
            r == Failure(KeyError("actionCode")))
    ensures r.Success? <==>
      && Loads(output).Some? && Loads(output).value.JObject?
      && MessageParses(Loads(output).value.members)
      && KeyIn(Loads(output).value.members, "errorCode") && KeyIn(Loads(output).value.members, "actionCode")
    ensures r.Success? ==>
      var ms := Loads(output).value.members;
      && r.value.0 == ParseMods(Iterate(LoadsValue(Get(ms, "message").value).value).value).value
      && Some(r.value.1) == Get(ms, "errorCode")
      && Some(r.value.2) == Get(ms, "actionCode")
  {
    var parent :- LoadsText(output);
    var messageRaw :- Subscript(parent, "message");
    var errcode :- Subscript(parent, "errorCode");
    var actioncode :- Subscript(parent, "actionCode");
    var message :- LoadsValue(messageRaw);
    var modstrs :- Iterate(message);
    var mods :- ParseMods(modstrs);
    Success((mods, errcode, actioncode))
  }

  /**
   * The message of the dict is present, decodes, is iterable, and each of
   * its elements parses as a mod record.
   */
  predicate MessageParses(ms: seq<(string, Json)>)
  {
    && KeyIn(ms, "message")
    && LoadsValue(Get(ms, "message").value).Success?
    && Iterate(LoadsValue(Get(ms, "message").value).value).Success?
    && ParseMods(Iterate(LoadsValue(Get(ms, "message").value).value).value).Success?
  }

  /**
   * `parse_response(output)`: text that is not JSON comes back whole with
   * both codes -1; otherwise the three envelope fields, where a missing key
   * or a value that is not a dict raises.
   */
  function ParseResponse(output: string): (r: Result<(Json, Json, Json), PyError>)
    ensures Loads(output).None? ==> r == Success((JString(output), JInt(-1), JInt(-1)))
    ensures Loads(output).Some? && !Loads(output).value.JObject? ==> r == Failure(TypeError)
    ensures Loads(output).Some? && Loads(output).value.JObject? ==>
      var ms := Loads(output).value.members;
      && (r.Success? <==> KeyIn(ms, "message") && KeyIn(ms, "errorCode") && KeyIn(ms, "actionCode"))
      && (r.Success? ==> Some(r.value.0) == Get(ms, "message") && Some(r.value.1) == Get(ms, "errorCode")
                         && Some(r.value.2) == Get(ms, "actionCode"))
      && (r.Failure? ==> r.error == (if !KeyIn(ms, "message") then KeyError("message")
                                     else if !KeyIn(ms, "errorCode") then KeyError("errorCode")
                                     else KeyError("actionCode")))
  {
    match Loads(output)
    case None => Success((JString(output), JInt(-1), JInt(-1)))
    case Some(parent) =>
      var message :- Subscript(parent, "message");
      var errcode :- Subscript(parent, "errorCode");
      var actioncode :- Subscript(parent, "actionCode");
      Success((message, errcode, actioncode))
  }

  /** An envelope written with `get_full_json` comes back as its message and its two code values. */
  lemma ParseResponseOfEnvelope(o: Envelope.Output)
    ensures ParseResponse(Envelope.GetFullJson(o))
         == Success((JString(o.message), JInt(Envelope.ErrorValue(o.errorCode)), JInt(Envelope.ActionValue(o.actionCode))))
  {
  }

  // ---------------------------------------------------------------------------
  // The command lines sent to the core
  // ---------------------------------------------------------------------------

  /** The requests `ModManagerCore` (the GUI class) sends. */
  datatype Request =
    | GetModsList
    | GetMod(pckid: string)
    | InstallMod(filename: string)
    | UninstallMod(pckid: string)
    | MoveMods(keyword: string)
    | GetModFolders(keyword: string)
    | ToggleMod(pckid: string)
    | SetAllMods(enable: bool)

  /**
   * The option/value pair each request method builds; `None` where
   * `get_mod_folders` raises before invoking, for a keyword other than
   * "newest" and "all".
   */
  function ArgList(req: Request): (r: Option<seq<string>>)
    ensures r.None? <==> req.GetModFolders? && req.keyword !in ["newest", "all"]
    ensures r.Some? ==> |r.value| == 2
  {
    match req
    case GetModsList => Some(["--list", "all"])
    case GetMod(pckid) => Some(["--list", pckid])
    case InstallMod(filename) => Some(["--install", filename])
    case UninstallMod(pckid) => Some(["--uninstall", pckid])
    case MoveMods(keyword) => Some(["--move-to-new", keyword])
    case GetModFolders(keyword) => if keyword in ["newest", "all"] then Some(["--mod-folder", keyword]) else None
    case ToggleMod(pckid) => Some(["--toggle", pckid])
    case SetAllMods(enable) => Some(["--set-all", if enable then "enabled" else "disabled"])
  }

  /** `invoke(args, json_output)`: the executable path, then "-o json" when asked, then the arguments. */
  function Invoke(path: string, args: seq<string>, jsonOutput: bool := true): (r: seq<string>)
    ensures |r| == 1 + (if jsonOutput then 2 else 0) + |args| && r[0] == path
    ensures jsonOutput ==> r[1] == "-o" && r[2] == "json" && r[3..] == args
    ensures !jsonOutput ==> r[1..] == args
  {
    [path] + (if jsonOutput then ["-o", "json"] else []) + args
  }

  /**
   * The request a parsed argument stands for: the inverse of `ArgList` on
   * what the core's parser returns.
   */
  function RequestOf(a: AP.Argument): Option<Request>
  {
    match a.kind
    case List => if a.value == "all" then Some(GetModsList) else Some(GetMod(a.value))
    case Install => Some(InstallMod(a.value))
    case Uninstall => Some(UninstallMod(a.value))
    case MoveToNew => Some(MoveMods(a.value))
    case ModFolders => Some(GetModFolders(a.value))
    case Toggle => Some(ToggleMod(a.value))
    case SetAll =>
      if a.value == "enabled" then Some(SetAllMods(true))
      else if a.value == "disabled" then Some(SetAllMods(false))
      else None
    case _ => None
  }

  /** `get_mod("all")` sends the very same command line as `get_mods_list()`. */
  function Canonical(req: Request): Request
  {
    if req == GetMod("all") then GetModsList else req
  }

  /**
   * Every command line the GUI builds passes the core's validation, and the
   * core reads back "-o json" and the request (with `get_mod("all")` read as
   * the full listing).
   */
  lemma CommandLineParses(path: string, req: Request)
    requires ArgList(req).Some?
    ensures var argv := Invoke(path, ArgList(req).value);
      && argv[0] == path
      && AP.Parse(argv[1..]).Success?
      && |AP.Parse(argv[1..]).value| == 2
      && AP.Parse(argv[1..]).value[0] == AP.Argument("-o", AP.Output, "json")
      && RequestOf(AP.Parse(argv[1..]).value[1]) == Some(Canonical(req))
  {
    var pair := ArgList(req).value;
    var args := Invoke(path, pair)[1..];
    assert args == ["-o", "json", pair[0], pair[1]];
    OutputJsonAccepted();
    ValueAccepted(req);
    assert AP.PairOk(args, 0) && AP.PairOk(args, 1);
    TwoPairs(args);
    RequestOfPair(req);
  }

  /** "-o json" passes the core's validation. */
  lemma OutputJsonAccepted()
    ensures "-o" in AP.ArgumentFormat && AP.IsMatch(AP.ArgumentFormat["-o"], "json")
  {
    ContainsPrefix("json", "");
    assert "json" + "" == "json";
    AP.TableValueRules("-o", "json");
  }

  /** Two valid pairs parse into their two arguments, in order. */
  lemma TwoPairs(args: seq<string>)
    requires |args| == 4 && AP.PairOk(args, 0) && AP.PairOk(args, 1)
    ensures var r := AP.Parse(args);
      && r.Success? && |r.value| == 2
      && r.value[0].option == args[0] && r.value[0].value == args[1] && Some(r.value[0].kind) == AP.TypeOf(args[0])
      && r.value[1].option == args[2] && r.value[1].value == args[3] && Some(r.value[1].kind) == AP.TypeOf(args[2])
  {
    assert forall i :: 0 <= i < |args| / 2 ==> AP.PairOk(args, i);
  }

  /** Reading back the argument a request's pair parses to gives the request. */
  lemma RequestOfPair(req: Request)
    requires ArgList(req).Some?
    ensures var pair := ArgList(req).value;
      forall k :: Some(k) == AP.TypeOf(pair[0]) ==> RequestOf(AP.Argument(pair[0], k, pair[1])) == Some(Canonical(req))
  {
  }

  /** The pair a request builds is in the core's option table and its value matches the option's pattern. */
  lemma ValueAccepted(req: Request)
    requires ArgList(req).Some?
    ensures var pair := ArgList(req).value;
      pair[0] in AP.ArgumentFormat && AP.IsMatch(AP.ArgumentFormat[pair[0]], pair[1])
  {
    var pair := ArgList(req).value;
    assert pair[0] in AP.ArgumentFormat;
    if req.SetAllMods? {
      assert Contains(pair[1], pair[1]) by { ContainsPrefix(pair[1], ""); assert pair[1] + "" == pair[1]; }
    } else if req.GetModFolders? {
      assert Contains(pair[1], pair[1]) by { ContainsPrefix(pair[1], ""); assert pair[1] + "" == pair[1]; }
    }
    AP.TableValueRules(pair[0], pair[1]);
  }

  /** `get_mod("all")` and `get_mods_list()` are indistinguishable to the core. */
  lemma GetModAllIsListAll(path: string)
    ensures Invoke(path, ArgList(GetMod("all")).value) == Invoke(path, ArgList(GetModsList).value)
  {
  }

  // ---------------------------------------------------------------------------
  // The mods list, end to end
  // ---------------------------------------------------------------------------

  /** One mod record in the encoding `__parse_mod` expects: the seven keys in the order it reads them. */
  function ModObject(m: Mod): Json
  {
    JObject([("ModName", m.name), ("ModID", m.wgid), ("PackageID", m.pckid), ("Version", m.version),
             ("Description", m.desc), ("LocalFileName", m.localfilename), ("IsEnabled", m.isenabled)])
  }

  /** No field holds a float. */
  predicate ModPlain(m: Mod)
  {
    Plain(m.name) && Plain(m.wgid) && Plain(m.pckid) && Plain(m.version) && Plain(m.desc)
    && Plain(m.localfilename) && Plain(m.isenabled)
  }

  /** The message of a mods-list response: a JSON list of JSON-encoded records. */
  function ModsMessage(mods: seq<Mod>): string
  {
    Dumps(JArray(ModItems(mods)))
  }

  /** The seven keys are distinct. */
  lemma ModKeysDistinct()
    ensures forall i, j :: 0 <= i < |ModKeys| && 0 <= j < |ModKeys| && i != j ==> ModKeys[i] != ModKeys[j]
  {
    forall i, j | 0 <= i < |ModKeys| && 0 <= j < |ModKeys| && i != j ensures ModKeys[i] != ModKeys[j] {
      if |ModKeys[i]| == |ModKeys[j]| {
        assert ModKeys[i][0] != ModKeys[j][0];
      }
    }
  }

  /** A record encoded as the GUI expects is parsed back into the same `Mod`. */
  lemma ParseModOfObject(m: Mod)
    requires ModPlain(m)
    ensures ParseMod(JString(Dumps(ModObject(m)))) == Success(m)
  {
    var v := ModObject(m);
    ModObjectDecodes(m);
    ReadModKeys(m);
    ParseModOfMembers(JString(Dumps(v)), v.members,
                      [m.name, m.wgid, m.pckid, m.version, m.desc, m.localfilename, m.isenabled]);
  }

  /** The text of an encoded record decodes back to the record's object. */
  lemma ModObjectDecodes(m: Mod)
    requires ModPlain(m)
    ensures LoadsValue(JString(Dumps(ModObject(m)))) == Success(ModObject(m))
  {
    ModObjectPlain(m);
    LoadsDumps(ModObject(m));
  }

  lemma ModObjectPlain(m: Mod)
    requires ModPlain(m)
    ensures Plain(ModObject(m))
  {
    var v := ModObject(m);
    forall i | 0 <= i < |v.members| ensures MemberPlain(v.members[i]) { }
  }

  /** The seven keys of a serialized record read back as its fields. */
  lemma ReadModKeys(m: Mod)
    ensures ReadKeys(ModObject(m).members, ModKeys)
         == Success([m.name, m.wgid, m.pckid, m.version, m.desc, m.localfilename, m.isenabled])
  {
    ModKeysDistinct();
    ReadDistinctKeys(ModObject(m).members, ModKeys,
                     [m.name, m.wgid, m.pckid, m.version, m.desc, m.localfilename, m.isenabled]);
  }

  /** Reading the keys of a dict whose keys are distinct gives its values, in order. */
  lemma ReadDistinctKeys(ms: seq<(string, Json)>, keys: seq<string>, vals: seq<Json>)
    requires |keys| == |ms| == |vals|
    requires forall j :: 0 <= j < |ms| ==> ms[j] == (keys[j], vals[j])
    requires forall i, j :: 0 <= i < |keys| && 0 <= j < |keys| && i != j ==> keys[i] != keys[j]
    ensures ReadKeys(ms, keys) == Success(vals)
  {
    forall j | 0 <= j < |keys| ensures Get(ms, keys[j]) == Some(vals[j]) {
      GetUnique(ms, j);
    }
    ReadKeysOfGets(ms, keys, vals);
  }

  /** Keys that are all present read as their values. */
  lemma ReadKeysOfGets(ms: seq<(string, Json)>, keys: seq<string>, vals: seq<Json>)
    requires |vals| == |keys|
    requires forall j :: 0 <= j < |keys| ==> Get(ms, keys[j]) == Some(vals[j])
    ensures ReadKeys(ms, keys) == Success(vals)
  {
    var r := ReadKeys(ms, keys);
    assert KeysBefore(ms, keys, |keys|) by {
      forall j | 0 <= j < |keys| ensures KeyIn(ms, keys[j]) {
        assert Get(ms, keys[j]).Some?;
      }
    }
    assert forall j :: 0 <= j < |keys| ==> r.value[j] == vals[j] by {
      forall j | 0 <= j < |keys| ensures r.value[j] == vals[j] {
        assert Get(ms, keys[j]) == Some(r.value[j]);
      }
    }
    assert r.value == vals;
  }

  /** A decoded dict whose seven keys read as `f` becomes the record of `f`. */
  lemma ParseModOfMembers(jstr: Json, ms: seq<(string, Json)>, f: seq<Json>)
    requires LoadsValue(jstr) == Success(JObject(ms))
    requires ReadKeys(ms, ModKeys) == Success(f) && |f| == 7
    ensures ParseMod(jstr) == Success(Mod(f[0], f[1], f[2], f[3], f[4], f[5], f[6]))
  {
  }

  /**
   * A mods list wrapped with `get_full_json` is decoded by
   * `__parse_mods_list` into the same records and the two code values.
   */
  lemma ModsListRoundTrip(mods: seq<Mod>, e: Envelope.ErrorCode, a: Envelope.ActionCode)
    requires forall i :: 0 <= i < |mods| ==> ModPlain(mods[i])
    ensures ParseModsList(Envelope.GetFullJson(Envelope.Output(ModsMessage(mods), e, a)))
         == Success((mods, JInt(Envelope.ErrorValue(e)), JInt(Envelope.ActionValue(a))))
  {
    var items := ModItems(mods);
    var o := Envelope.Output(ModsMessage(mods), e, a);
    var output := Envelope.GetFullJson(o);
    EnvelopeFields(o);
    MessageDecodes(mods);
    ParseModsOfObjects(mods);
    ParseModsListSteps(output, Loads(output).value, JString(ModsMessage(mods)), JInt(Envelope.ErrorValue(e)),
                       JInt(Envelope.ActionValue(a)), JArray(items), items, mods);
  }

  /** The message of a mods list decodes to the list of encoded records. */
  lemma MessageDecodes(mods: seq<Mod>)
    ensures LoadsValue(JString(ModsMessage(mods))) == Success(JArray(ModItems(mods)))
  {
    assert Plain(JArray(ModItems(mods)));
    LoadsDumps(JArray(ModItems(mods)));
  }

  /** The three fields of an envelope written with `get_full_json`, read back with `json.loads` and subscripts. */
  lemma EnvelopeFields(o: Envelope.Output)
    ensures var out := Envelope.GetFullJson(o);
      && Loads(out).Some?
      && LoadsText(out) == Success(Loads(out).value)
      && Subscript(Loads(out).value, "message") == Success(JString(o.message))
      && Subscript(Loads(out).value, "errorCode") == Success(JInt(Envelope.ErrorValue(o.errorCode)))
      && Subscript(Loads(out).value, "actionCode") == Success(JInt(Envelope.ActionValue(o.actionCode)))
  {
  }

  /** The encoded records of a mods list. */
  function ModItems(mods: seq<Mod>): (r: seq<Json>)
    ensures |r| == |mods| && forall i :: 0 <= i < |mods| ==> r[i] == JString(Dumps(ModObject(mods[i])))
  {
    seq(|mods|, i requires 0 <= i < |mods| => JString(Dumps(ModObject(mods[i]))))
  }

  /** Records encoded one by one parse back into the same list. */
  lemma ParseModsOfObjects(mods: seq<Mod>)
    requires forall i :: 0 <= i < |mods| ==> ModPlain(mods[i])
    ensures ParseMods(ModItems(mods)) == Success(mods)
  {
    var items := ModItems(mods);
    forall i | 0 <= i < |items| ensures ParseMod(items[i]) == Success(mods[i]) {
      ParseModOfObject(mods[i]);
    }
    var r := ParseMods(items);
    assert r.Success?;
    assert r.value == mods;
  }

  /** `__parse_mods_list` when every step succeeds. */
  lemma ParseModsListSteps(output: string, parent: Json, messageRaw: Json, errcode: Json, actioncode: Json,
                           message: Json, items: seq<Json>, mods: seq<Mod>)
    requires LoadsText(output) == Success(parent)
    requires Subscript(parent, "message") == Success(messageRaw)
    requires Subscript(parent, "errorCode") == Success(errcode)
    requires Subscript(parent, "actionCode") == Success(actioncode)
    requires LoadsValue(messageRaw) == Success(message)
    requires Iterate(message) == Success(items)
    requires ParseMods(items) == Success(mods)
    ensures ParseModsList(output) == Success((mods, errcode, actioncode))
  {
  }
}

=== FILE: json.dfy ===
/**
 * Python's `json` module as the GUI uses it: `json.dumps` with its default
 * settings (ASCII-only output, ", " and ": " separators, keys in insertion
 * order) and `json.loads` (the strict C scanner). An object keeps all of its
 * members in document order; dictionary semantics (the last duplicate wins,
 * iteration over distinct keys) are the queries at the end of the module.
 */
module Json {
  import opened Wrappers
  import opened Strings

  /**
   * A JSON value. `JFloat` keeps the text of a number with a fraction or an
   * exponent, or of NaN / Infinity / -Infinity, which Python decodes to a float.
   */
  datatype Json =
    | JNull
    | JBool(b: bool)
    | JInt(i: int)
    | JFloat(lexeme: string)
    | JString(s: string)
    | JArray(items: seq<Json>)
    | JObject(members: seq<(string, Json)>)

  /** No float anywhere in the value. */
  predicate Plain(v: Json)
    decreases v
  {
    match v
    case JFloat(_) => false
    case JArray(items) => forall i :: 0 <= i < |items| ==> Plain(items[i])
    case JObject(ms) => forall i :: 0 <= i < |ms| ==> MemberPlain(ms[i])
    case _ => true
  }

  predicate MemberPlain(m: (string, Json))
    decreases m
  {
    Plain(m.1)
  }

  /** Printable ASCII only: what `ensure_ascii` guarantees of the output. */
  predicate Ascii(s: string)
  {
    forall i :: 0 <= i < |s| ==> ' ' <= s[i] <= '~'
  }

  lemma AsciiConcat(a: string, b: string)
    requires Ascii(a) && Ascii(b)
    ensures Ascii(a + b)
  {
    forall i | 0 <= i < |a + b| ensures ' ' <= (a + b)[i] <= '~' {
      if i >= |a| { assert (a + b)[i] == b[i - |a|]; }
    }
  }

  // ---------------------------------------------------------------------------
  // Encoding: json.dumps
  // ---------------------------------------------------------------------------

  function DigitChar(d: int): (c: char)
    requires 0 <= d < 10
    ensures IsDigit(c) && c as int - '0' as int == d
  {
    ('0' as int + d) as char
  }

  /** Decimal digits of `n`, no leading zero. */
  function NatText(n: nat): (r: string)
    ensures |r| > 0 && AllDigits(r) && DigitsValue(r) == n
    ensures r[0] == '0' ==> n == 0
    decreases n
  {
    if n < 10 then [DigitChar(n)]
    else
      var r := NatText(n / 10) + [DigitChar(n % 10)];
      assert r[..|r| - 1] == NatText(n / 10);
      r
  }

  /** `repr` of a Python int. */
  function IntText(i: int): string
  {
    if i < 0 then "-" + NatText(-i) else NatText(i)
  }

  function HexDigit(d: int): (c: char)
    requires 0 <= d < 16
    ensures IsHexDigit(c) && HexValue(c) == d
  {
    if d < 10 then ('0' as int + d) as char else ('a' as int + d - 10) as char
  }

  /** Four lowercase hex digits of `n`, as the encoder writes a `\u` escape. */
  function Hex4Text(n: int): (r: string)
    requires 0 <= n < 0x1_0000
    ensures |r| == 4 && Ascii(r)
  {
    [HexDigit(n / 0x1000), HexDigit(n % 0x1000 / 0x100), HexDigit(n % 0x100 / 0x10), HexDigit(n % 0x10)]
  }

  /** The escape text `\uXXXX`. */
  function UEscape(n: int): (r: string)
    requires 0 <= n < 0x1_0000
    ensures |r| == 6 && Ascii(r)
  {
    "\\u" + Hex4Text(n)
  }

  /**
   * How the ASCII-only encoder writes one character: the short escapes for
   * the quote, the backslash and five control characters, printable ASCII
   * as itself, any other character of the basic plane as `\uXXXX`, and a
   * character above it as a surrogate pair of `\uXXXX` escapes.
   */
  function EscapeChar(c: char): (r: string)
    ensures |r| > 0 && Ascii(r)
  {
    if c == '"' then "\\\""
    else if c == '\\' then "\\\\"
    else if c == '\n' then "\\n"
    else if c == '\r' then "\\r"
    else if c == '\t' then "\\t"
    else if c == '\U{8}' then "\\b"
    else if c == '\U{C}' then "\\f"
    else if ' ' <= c <= '~' then [c]
    else if (c as int) < 0x1_0000 then UEscape(c as int)
    else
      var u := c as int - 0x1_0000;
      UEscape(0xD800 + u / 0x400) + UEscape(0xDC00 + u % 0x400)
  }

  function Escape(s: string): (r: string)
    ensures Ascii(r)
  {
    if |s| == 0 then ""
    else
      AsciiConcat(EscapeChar(s[0]), Escape(s[1..]));
      EscapeChar(s[0]) + Escape(s[1..])
  }

  /** A JSON string literal for `s`. */
  function Quote(s: string): (r: string)
    ensures |r| >= 2 && r[0] == '"' && Ascii(r)
  {
    AsciiConcat("\"", Escape(s));
    AsciiConcat("\"" + Escape(s), "\"");
    "\"" + Escape(s) + "\""
  }

  /** `json.dumps(v)`; a float is written as the text it was read from. */
  function Dumps(v: Json): string
    decreases v
  {
    match v
    case JNull => "null"
    case JBool(b) => if b then "true" else "false"
    case JInt(i) => IntText(i)
    case JFloat(t) => t
    case JString(s) => Quote(s)
    case JArray(items) => "[" + DumpsItems(items) + "]"
    case JObject(ms) => "{" + DumpsMembers(ms) + "}"
  }

  /** Array elements joined by ", ". */
  function DumpsItems(items: seq<Json>): string
    decreases items
  {
    if |items| == 0 then ""
    else if |items| == 1 then Dumps(items[0])
    else Dumps(items[0]) + ", " + DumpsItems(items[1..])
  }

  /** One object member: the key's literal, ": ", the value. */
  function DumpsMember(m: (string, Json)): string
    decreases m
  {
    Quote(m.0) + ": " + Dumps(m.1)
  }

  /** Object members joined by ", ". */
  function DumpsMembers(ms: seq<(string, Json)>): string
    decreases ms
  {
    if |ms| == 0 then ""
    else
      assert ms[0] in ms;
      if |ms| == 1 then DumpsMember(ms[0])
      else DumpsMember(ms[0]) + ", " + DumpsMembers(ms[1..])
  }

  /** Without floats, the encoder writes printable ASCII only, and never nothing. */
  lemma {:induction false} DumpsAscii(v: Json)
    requires Plain(v)
    ensures |Dumps(v)| > 0 && Ascii(Dumps(v))
    decreases v
  {
    match v
    case JNull =>
    case JBool(b) =>
    case JInt(i) =>
      assert Ascii(NatText(if i < 0 then -i else i));
      if i < 0 { AsciiConcat("-", NatText(-i)); }
    case JFloat(t) =>
    case JString(s) =>
    case JArray(items) =>
      DumpsItemsAscii(items);
      AsciiConcat("[", DumpsItems(items));
      AsciiConcat("[" + DumpsItems(items), "]");
    case JObject(ms) =>
      DumpsMembersAscii(ms);
      AsciiConcat("{", DumpsMembers(ms));
      AsciiConcat("{" + DumpsMembers(ms), "}");
  }

  lemma {:induction false} DumpsItemsAscii(items: seq<Json>)
    requires forall i :: 0 <= i < |items| ==> Plain(items[i])
    ensures Ascii(DumpsItems(items))
    decreases items
  {
    if |items| == 1 {
      DumpsAscii(items[0]);
    } else if |items| > 1 {
      DumpsAscii(items[0]);
      assert forall i :: 0 <= i < |items[1..]| ==> Plain(items[1..][i]) by {
        forall i | 0 <= i < |items[1..]| ensures Plain(items[1..][i]) {
          assert items[1..][i] == items[i + 1];
        }
      }
      DumpsItemsAscii(items[1..]);
      AsciiConcat(Dumps(items[0]), ", ");
      AsciiConcat(Dumps(items[0]) + ", ", DumpsItems(items[1..]));
    }
  }

  lemma {:induction false} DumpsMemberAscii(m: (string, Json))
    requires MemberPlain(m)
    ensures Ascii(DumpsMember(m))
    decreases m
  {
    DumpsAscii(m.1);
    AsciiConcat(Quote(m.0), ": ");
    AsciiConcat(Quote(m.0) + ": ", Dumps(m.1));
  }

  lemma {:induction false} DumpsMembersAscii(ms: seq<(string, Json)>)
    requires forall i :: 0 <= i < |ms| ==> MemberPlain(ms[i])
    ensures Ascii(DumpsMembers(ms))
    decreases ms
  {
    if |ms| > 0 {
      assert ms[0] in ms;
      DumpsMemberAscii(ms[0]);
      if |ms| > 1 {
        assert forall i :: 0 <= i < |ms[1..]| ==> MemberPlain(ms[1..][i]) by {
          forall i | 0 <= i < |ms[1..]| ensures MemberPlain(ms[1..][i]) {
            assert ms[1..][i] == ms[i + 1];
          }
        }
        DumpsMembersAscii(ms[1..]);
        AsciiConcat(DumpsMember(ms[0]), ", ");
        AsciiConcat(DumpsMember(ms[0]) + ", ", DumpsMembers(ms[1..]));
      }
    }
  }

  // ---------------------------------------------------------------------------
  // Decoding: json.loads
  // ---------------------------------------------------------------------------

  predicate IsHexDigit(c: char)
  {
    '0' <= c <= '9' || 'a' <= c <= 'f' || 'A' <= c <= 'F'
  }

  function HexValue(c: char): (d: int)
    requires IsHexDigit(c)
    ensures 0 <= d < 16
  {
    if '0' <= c <= '9' then c as int - '0' as int
    else if 'a' <= c <= 'f' then c as int - 'a' as int + 10
    else c as int - 'A' as int + 10
  }

  /** The four hex digits at the start of `s`, in either case. */
  function ReadHex4(s: string): (r: Option<int>)
    ensures r.Some? ==> 0 <= r.value < 0x1_0000
  {
    if |s| >= 4 && IsHexDigit(s[0]) && IsHexDigit(s[1]) && IsHexDigit(s[2]) && IsHexDigit(s[3]) then
      Some(HexValue(s[0]) * 0x1000 + HexValue(s[1]) * 0x100 + HexValue(s[2]) * 0x10 + HexValue(s[3]))
    else None
  }

  /** JSON insignificant whitespace. */
  predicate IsWs(c: char)
  {
    c == ' ' || c == '\t' || c == '\n' || c == '\r'
  }

  function SkipWs(s: string): (r: string)
    ensures |r| <= |s|
    ensures |r| == 0 || !IsWs(r[0])
  {
    if |s| > 0 && IsWs(s[0]) then SkipWs(s[1..]) else s
  }

  /**
   * One escape after a backslash: the character it stands for and the text
   * after it. A `\u` escape of a surrogate must be the first half of a
   * pair; an unpaired one is refused (Python would build a string holding
   * the lone surrogate, which a Dafny string cannot hold).
   */
  function Unescape(t: string): (r: Option<(char, string)>)
    ensures r.Some? ==> |r.value.1| < |t|
  {
    if |t| == 0 then None
    else if t[0] == '"' then Some(('"', t[1..]))
    else if t[0] == '\\' then Some(('\\', t[1..]))
    else if t[0] == '/' then Some(('/', t[1..]))
    else if t[0] == 'b' then Some(('\U{8}', t[1..]))
    else if t[0] == 'f' then Some(('\U{C}', t[1..]))
    else if t[0] == 'n' then Some(('\n', t[1..]))
    else if t[0] == 'r' then Some(('\r', t[1..]))
    else if t[0] == 't' then Some(('\t', t[1..]))
    else if t[0] != 'u' then None
    else
      match ReadHex4(t[1..])
      case None => None
      case Some(hi) =>
        if 0xDC00 <= hi < 0xE000 then None
        else if hi < 0xD800 || 0xE000 <= hi then Some((hi as char, t[5..]))
        else
          var t2 := t[5..];
          if |t2| >= 2 && t2[0] == '\\' && t2[1] == 'u' then
            match ReadHex4(t2[2..])
            case None => None
            case Some(lo) =>
              if 0xDC00 <= lo < 0xE000 then
                Some(((0x1_0000 + (hi - 0xD800) * 0x400 + (lo - 0xDC00)) as char, t2[6..]))
              else None
          else None
  }

  /**
   * The body of a string literal after its opening quote: the decoded text
   * and what follows the closing quote. A raw control character, an unknown
   * escape or a missing closing quote is a decode error.
   */
  function ParseStringBody(s: string): (r: Option<(string, string)>)
    ensures r.Some? ==> |r.value.1| < |s|
    decreases |s|
  {
    if |s| == 0 then None
    else if s[0] == '"' then Some(("", s[1..]))
    else if s[0] == '\\' then
      match Unescape(s[1..])
      case None => None
      case Some((c, rest)) =>
        match ParseStringBody(rest)
        case None => None
        case Some((body, after)) => Some(([c] + body, after))
    else if s[0] < ' ' then None
    else
      match ParseStringBody(s[1..])
      case None => None
      case Some((body, after)) => Some(([s[0]] + body, after))
  }

  /** The number of digits at the start of `s`. */
  function DigitRun(s: string): (n: nat)
    ensures n <= |s| && AllDigits(s[..n]) && (n == |s| || !IsDigit(s[n]))
  {
    if |s| > 0 && IsDigit(s[0]) then
      var n := 1 + DigitRun(s[1..]);
      assert s[..n] == [s[0]] + s[1..][..n - 1];
      n
    else 0
  }

  /** The length of a fraction part ('.' and at least one digit) at the start of `s`. */
  function FracLength(s: string): (n: nat)
    ensures n <= |s|
  {
    if |s| >= 2 && s[0] == '.' && IsDigit(s[1]) then 1 + DigitRun(s[1..]) else 0
  }

  /** The length of an exponent part ('e' or 'E', an optional sign, at least one digit) at the start of `s`. */
  function ExpLength(s: string): (n: nat)
    ensures n <= |s|
  {
    if |s| >= 2 && (s[0] == 'e' || s[0] == 'E') then
      if IsDigit(s[1]) then 1 + DigitRun(s[1..])
      else if |s| >= 3 && (s[1] == '+' || s[1] == '-') && IsDigit(s[2]) then 2 + DigitRun(s[2..])
      else 0
    else 0
  }

  /**
   * A number without its sign: "0" or a digit run not starting with '0';
   * an integer unless a fraction or exponent part follows.
   */
  function ParseUnsigned(t: string): (r: Option<(Json, string)>)
    ensures r.Some? ==> |r.value.1| < |t| && (r.value.0.JInt? || r.value.0.JFloat?)
    ensures r.Some? && r.value.0.JInt? ==> r.value.0.i >= 0
  {
    if |t| == 0 || !IsDigit(t[0]) then None
    else
      var intLen := if t[0] == '0' then 1 else DigitRun(t);
      var after := t[intLen..];
      var frac := FracLength(after);
      var exp := ExpLength(after[frac..]);
      if frac + exp > 0 then
        var total := intLen + frac + exp;
        Some((JFloat(t[..total]), t[total..]))
      else
        Some((JInt(DigitsValue(t[..intLen])), after))
  }

  /** A number with a leading '-' denotes the negated value; a float keeps the sign in its text. */
  function Negated(v: Json): Json
  {
    match v
    case JInt(i) => JInt(-i)
    case JFloat(x) => JFloat("-" + x)
    case _ => v
  }

  /** A number: an optional '-', then an unsigned number. */
  function ParseNumber(s: string): (r: Option<(Json, string)>)
    ensures r.Some? ==> |r.value.1| < |s|
  {
    if |s| > 0 && s[0] == '-' then
      match ParseUnsigned(s[1..])
      case None => None
      case Some((v, rest)) => Some((Negated(v), rest))
    else ParseUnsigned(s)
  }

  /**
   * A value that is neither a string, an array nor an object: the keywords,
   * the float constants Python accepts, and numbers.
   */
  function ParseScalar(s: string): (r: Option<(Json, string)>)
    ensures r.Some? ==> |r.value.1| < |s|
  {
    if StartsWith(s, "null") then Some((JNull, s[4..]))
    else if StartsWith(s, "true") then Some((JBool(true), s[4..]))
    else if StartsWith(s, "false") then Some((JBool(false), s[5..]))
    else if StartsWith(s, "NaN") then Some((JFloat("NaN"), s[3..]))
    else if StartsWith(s, "Infinity") then Some((JFloat("Infinity"), s[8..]))
    else if StartsWith(s, "-Infinity") then Some((JFloat("-Infinity"), s[9..]))
    else ParseNumber(s)
  }

  /** One value at the very start of `s` (no whitespace skipped) and the text after it. */
  function ParseValue(s: string): (r: Option<(Json, string)>)
    ensures r.Some? ==> |r.value.1| < |s|
    decreases |s|, 0
  {
    if |s| == 0 then None
    else if s[0] == '"' then
      match ParseStringBody(s[1..])
      case None => None
      case Some((body, rest)) => Some((JString(body), rest))
    else if s[0] == '{' then ParseObject(SkipWs(s[1..]))
    else if s[0] == '[' then ParseArray(SkipWs(s[1..]))
    else ParseScalar(s)
  }

  /** What follows an element or a member: the closing bracket, or a comma and the next one. */
  datatype Continuation = Close(after: string) | Comma(next: string) | Stray

  /** The text after an element or member, whitespace allowed before and after the comma. */
  function AfterItem(rest: string, close: char): (r: Continuation)
    ensures r.Close? ==> |r.after| < |rest|
    ensures r.Comma? ==> |r.next| < |rest|
  {
    var t := SkipWs(rest);
    if |t| > 0 && t[0] == close then Close(t[1..])
    else if |t| > 0 && t[0] == ',' then Comma(SkipWs(t[1..]))
    else Stray
  }

  /** An array after its '[' and any whitespace. */
  function ParseArray(s: string): (r: Option<(Json, string)>)
    ensures r.Some? ==> |r.value.1| < |s|
    decreases |s|, 2
  {
    if |s| > 0 && s[0] == ']' then Some((JArray([]), s[1..]))
    else
      match ParseElements(s)
      case None => None
      case Some((items, rest)) => Some((JArray(items), rest))
  }

  /** Elements separated by ',' up to and including the closing ']'. */
  function ParseElements(s: string): (r: Option<(seq<Json>, string)>)
    ensures r.Some? ==> |r.value.1| < |s| && |r.value.0| > 0
    decreases |s|, 1
  {
    match ParseValue(s)
    case None => None
    case Some((v, rest)) =>
      match AfterItem(rest, ']')
      case Close(after) => Some(([v], after))
      case Comma(next) =>
        (match ParseElements(next)
         case None => None
         case Some((vs, after)) => Some(([v] + vs, after)))
      case Stray => None
  }

  /** An object after its '{' and any whitespace. */
  function ParseObject(s: string): (r: Option<(Json, string)>)
    ensures r.Some? ==> |r.value.1| < |s|
    decreases |s|, 3
  {
    if |s| > 0 && s[0] == '}' then Some((JObject([]), s[1..]))
    else
      match ParseMembers(s)
      case None => None
      case Some((ms, rest)) => Some((JObject(ms), rest))
  }

  /** A member's key literal and ':', whitespace allowed around the ':'; the text where its value starts. */
  function ParseKey(s: string): (r: Option<(string, string)>)
    ensures r.Some? ==> |r.value.1| < |s|
  {
    if |s| == 0 || s[0] != '"' then None
    else
      match ParseStringBody(s[1..])
      case None => None
      case Some((key, rest)) =>
        var t := SkipWs(rest);
        if |t| == 0 || t[0] != ':' then None
        else Some((key, SkipWs(t[1..])))
  }

  /** One member `"key": value`. */
  function ParseMember(s: string): (r: Option<((string, Json), string)>)
    ensures r.Some? ==> |r.value.1| < |s|
    decreases |s|, 1
  {
    match ParseKey(s)
    case None => None
    case Some((key, y)) =>
      match ParseValue(y)
      case None => None
      case Some((v, after)) => Some(((key, v), after))
  }

  /** Members separated by ',' up to and including the closing '}'. */
  function ParseMembers(s: string): (r: Option<(seq<(string, Json)>, string)>)
    ensures r.Some? ==> |r.value.1| < |s| && |r.value.0| > 0
    decreases |s|, 2
  {
    match ParseMember(s)
    case None => None
    case Some((m, rest)) =>
      match AfterItem(rest, '}')
      case Close(after) => Some(([m], after))
      case Comma(next) =>
        (match ParseMembers(next)
         case None => None
         case Some((ms, after)) => Some(([m] + ms, after)))
      case Stray => None
  }

  /**
   * `json.loads(s)`, `None` standing for `JSONDecodeError`: a leading byte
   * order mark is refused, whitespace around the one value is skipped, and
   * anything else after it is "Extra data".
   */
  function Loads(s: string): (r: Option<Json>)
    ensures r.Some? ==> |s| > 0 && s[0] != '\U{FEFF}'
  {
    if |s| > 0 && s[0] == '\U{FEFF}' then None
    else
      match ParseValue(SkipWs(s))
      case None => None
      case Some((v, rest)) => if |SkipWs(rest)| == 0 then Some(v) else None
  }

  // ---------------------------------------------------------------------------
  // Decoding what the encoder wrote
  // ---------------------------------------------------------------------------

  /** What may follow a value inside an enclosing array or object, or nothing. */
  predicate Delimited(rest: string)
  {
    |rest| == 0 || rest[0] == ',' || rest[0] == ']' || rest[0] == '}'
  }

  /** A character the encoder can begin a value with. */
  predicate Opener(c: char)
  {
    c == 'n' || c == 't' || c == 'f' || c == '-' || IsDigit(c) || c == '"' || c == '[' || c == '{'
  }

  lemma DumpsStart(v: Json)
    requires Plain(v)
    ensures |Dumps(v)| > 0 && Opener(Dumps(v)[0])
  {
    if v.JInt? && v.i >= 0 {
      assert Dumps(v) == NatText(v.i);
    }
  }

  /** The digits of a number followed by a non-digit run exactly to the non-digit. */
  lemma {:induction false} DigitRunAppend(d: string, rest: string)
    requires AllDigits(d) && (|rest| == 0 || !IsDigit(rest[0]))
    ensures DigitRun(d + rest) == |d|
    decreases |d|
  {
    if |d| > 0 {
      assert (d + rest)[1..] == d[1..] + rest;
      DigitRunAppend(d[1..], rest);
    } else {
      assert d + rest == rest;
    }
  }

  /** The integer part of a number: "0" alone, or digits up to the first non-digit. */
  lemma IntPart(d: string, rest: string)
    requires |d| > 0 && AllDigits(d) && (d[0] == '0' ==> |d| == 1)
    requires |rest| == 0 || !IsDigit(rest[0])
    ensures var t := d + rest;
      && (if t[0] == '0' then 1 else DigitRun(t)) == |d|
      && t[..|d|] == d && t[|d|..] == rest
  {
    var t := d + rest;
    assert t[0] == d[0];
    DigitRunAppend(d, rest);
    assert t[..|d|] == d;
  }

  /** Nothing that may follow a value starts a fraction or an exponent. */
  lemma NoFractionNoExponent(rest: string)
    requires Delimited(rest)
    ensures FracLength(rest) == 0 && ExpLength(rest[0..]) == 0
  {
  }

  /** A run of digits without a superfluous leading zero is read as the integer it denotes. */
  lemma ParseUnsignedDigits(d: string, rest: string)
    requires |d| > 0 && AllDigits(d) && (d[0] == '0' ==> |d| == 1)
    requires Delimited(rest)
    ensures ParseUnsigned(d + rest) == Some((JInt(DigitsValue(d)), rest))
  {
    IntPart(d, rest);
    NoFractionNoExponent(rest);
  }

  lemma ParseNumberMinus(x: string, k: int, rest: string)
    requires ParseUnsigned(x) == Some((JInt(k), rest))
    ensures ParseNumber("-" + x) == Some((JInt(-k), rest))
  {
    assert ("-" + x)[1..] == x;
  }

  lemma ParseNumberPlain(s: string)
    requires |s| > 0 && IsDigit(s[0])
    ensures ParseNumber(s) == ParseUnsigned(s)
  {
  }

  /** The decoder reads back an integer the encoder wrote. */
  lemma ParseNumberIntText(i: int, rest: string)
    requires Delimited(rest)
    ensures ParseNumber(IntText(i) + rest) == Some((JInt(i), rest))
  {
    var d := NatText(if i < 0 then -i else i);
    NatTextLeadingZero(if i < 0 then -i else i);
    if i < 0 {
      assert IntText(i) + rest == "-" + (d + rest);
      ParseNegativeDigits(d, -i, rest);
    } else {
      ParseNonNegativeDigits(d, rest);
    }
  }

  /** Only zero is written with a leading '0'. */
  lemma NatTextLeadingZero(n: nat)
    ensures NatText(n)[0] == '0' ==> |NatText(n)| == 1
  {
    if NatText(n)[0] == '0' { assert NatText(n) == NatText(0); }
  }

  lemma ParseNonNegativeDigits(d: string, rest: string)
    requires |d| > 0 && AllDigits(d) && (d[0] == '0' ==> |d| == 1)
    requires Delimited(rest)
    ensures ParseNumber(d + rest) == Some((JInt(DigitsValue(d)), rest))
  {
    ParseUnsignedDigits(d, rest);
    assert (d + rest)[0] == d[0];
    ParseNumberPlain(d + rest);
  }

  lemma ParseNegativeDigits(d: string, k: int, rest: string)
    requires |d| > 0 && AllDigits(d) && (d[0] == '0' ==> |d| == 1) && k == DigitsValue(d)
    requires Delimited(rest)
    ensures ParseNumber("-" + (d + rest)) == Some((JInt(-k), rest))
  {
    ParseUnsignedDigits(d, rest);
    ParseNumberMinus(d + rest, k, rest);
  }

  lemma ReadHex4Text(n: int, t: string)
    requires 0 <= n < 0x1_0000
    ensures ReadHex4(Hex4Text(n) + t) == Some(n)
  {
    var h := Hex4Text(n);
    ReadHex4Digits(h[0], h[1], h[2], h[3], t);
    assert h == [h[0], h[1], h[2], h[3]];
    HexPlaces(n);
  }

  /** Four hex digits in front of any text read as their value. */
  lemma ReadHex4Digits(a: char, b: char, c: char, d: char, t: string)
    requires IsHexDigit(a) && IsHexDigit(b) && IsHexDigit(c) && IsHexDigit(d)
    ensures ReadHex4([a, b, c, d] + t) == Some(HexValue(a) * 0x1000 + HexValue(b) * 0x100 + HexValue(c) * 0x10 + HexValue(d))
  {
    var s := [a, b, c, d] + t;
    assert s[0] == a && s[1] == b && s[2] == c && s[3] == d;
  }

  /** The four hex places of a 16-bit number add back up to it. */
  lemma HexPlaces(n: int)
    requires 0 <= n < 0x1_0000
    ensures n / 0x1000 * 0x1000 + n % 0x1000 / 0x100 * 0x100 + n % 0x100 / 0x10 * 0x10 + n % 0x10 == n
  {
    var a, r1 := n / 0x1000, n % 0x1000;
    var b, r2 := r1 / 0x100, r1 % 0x100;
    var c, r3 := r2 / 0x10, r2 % 0x10;
    assert n == a * 0x1000 + r1 && 0 <= r1 < 0x1000;
    assert r1 == b * 0x100 + r2 && 0 <= r2 < 0x100;
    assert r2 == c * 0x10 + r3 && 0 <= r3 < 0x10;
    ModUnique256(n, a * 0x10 + b, r2);
    ModUnique16(n, a * 0x100 + b * 0x10 + c, r3);
  }

  /** Euclidean division by 16 has one remainder. */
  lemma ModUnique16(n: int, q: int, r: int)
    requires n == q * 0x10 + r && 0 <= r < 0x10
    ensures n % 0x10 == r
  {
  }

  /** Euclidean division by 256 has one remainder. */
  lemma ModUnique256(n: int, q: int, r: int)
    requires n == q * 0x100 + r && 0 <= r < 0x100
    ensures n % 0x100 == r
  {
  }

  /** A string decode result with `c` put in front of its text. */
  function Prepend(c: char, r: Option<(string, string)>): Option<(string, string)>
  {
    if r.None? then None else Some(([c] + r.value.0, r.value.1))
  }

  /** A plain character of a string body stands for itself. */
  lemma StepPlain(c: char, tail: string)
    requires c != '"' && c != '\\' && c >= ' '
    ensures ParseStringBody([c] + tail) == Prepend(c, ParseStringBody(tail))
  {
    assert ([c] + tail)[1..] == tail;
  }

  /** A backslash and an escape that stands for `c` before `tail`. */
  lemma StepEscape(x: string, c: char, tail: string)
    requires Unescape(x) == Some((c, tail))
    ensures ParseStringBody("\\" + x) == Prepend(c, ParseStringBody(tail))
  {
    assert ("\\" + x)[1..] == x;
  }

  /** The escapes of a single letter after the backslash. */
  lemma UnescapeShort(c: char, tail: string)
    requires ShortEscaped(c)
    ensures |EscapeChar(c)| == 2 && EscapeChar(c)[0] == '\\'
    ensures Unescape(EscapeChar(c)[1..] + tail) == Some((c, tail))
  {
    var x := EscapeChar(c)[1..] + tail;
    assert x[0] == EscapeChar(c)[1] && x[1..] == tail;
  }

  /** A basic-plane character written as `\uXXXX`. */
  lemma UnescapeBmp(c: char, tail: string)
    requires (c as int) < 0x1_0000
    ensures Unescape("u" + Hex4Text(c as int) + tail) == Some((c, tail))
  {
    var x := "u" + Hex4Text(c as int) + tail;
    assert x[1..] == Hex4Text(c as int) + tail;
    ReadHex4Text(c as int, tail);
    assert x[5..] == tail;
  }

  /** The two halves of a surrogate pair and the code point they combine to. */
  lemma SurrogateHalves(n: int)
    requires 0x1_0000 <= n < 0x11_0000
    ensures var u := n - 0x1_0000;
      && 0xD800 <= 0xD800 + u / 0x400 < 0xDC00
      && 0xDC00 <= 0xDC00 + u % 0x400 < 0xE000
      && 0x1_0000 + (0xD800 + u / 0x400 - 0xD800) * 0x400 + (0xDC00 + u % 0x400 - 0xDC00) == n
  {
  }

  /** A `\u` escape of a first surrogate followed by one of a second surrogate. */
  lemma UnescapePair(t: string, hi: int, lo: int)
    requires |t| >= 11 && t[0] == 'u' && t[5] == '\\' && t[6] == 'u'
    requires ReadHex4(t[1..]) == Some(hi) && 0xD800 <= hi < 0xDC00
    requires ReadHex4(t[7..]) == Some(lo) && 0xDC00 <= lo < 0xE000
    ensures Unescape(t) == Some(((0x1_0000 + (hi - 0xD800) * 0x400 + (lo - 0xDC00)) as char, t[11..]))
  {
    var t2 := t[5..];
    assert t2[2..] == t[7..] && t2[6..] == t[11..];
  }

  /** The text of a surrogate pair's two escapes, after the first backslash. */
  lemma UnescapePairText(hi: int, lo: int, tail: string)
    requires 0xD800 <= hi < 0xDC00 && 0xDC00 <= lo < 0xE000
    ensures Unescape("u" + Hex4Text(hi) + UEscape(lo) + tail)
         == Some(((0x1_0000 + (hi - 0xD800) * 0x400 + (lo - 0xDC00)) as char, tail))
  {
    var h, l := Hex4Text(hi), Hex4Text(lo);
    var t := "u" + h + UEscape(lo) + tail;
    assert t == "u" + h + "\\u" + l + tail;
    assert t[1..] == h + ("\\u" + l + tail);
    ReadHex4Text(hi, "\\u" + l + tail);
    assert t[7..] == l + tail;
    ReadHex4Text(lo, tail);
    assert t[11..] == tail;
    UnescapePair(t, hi, lo);
  }

  /** A character above the basic plane written as a surrogate pair. */
  lemma UnescapeAstral(c: char, tail: string)
    requires (c as int) >= 0x1_0000
    ensures var u := c as int - 0x1_0000;
      Unescape("u" + Hex4Text(0xD800 + u / 0x400) + UEscape(0xDC00 + u % 0x400) + tail) == Some((c, tail))
  {
    var u := c as int - 0x1_0000;
    SurrogateHalves(c as int);
    UnescapePairText(0xD800 + u / 0x400, 0xDC00 + u % 0x400, tail);
  }

  predicate ShortEscaped(c: char)
  {
    c == '"' || c == '\\' || c == '\n' || c == '\r' || c == '\t' || c == '\U{8}' || c == '\U{C}'
  }

  lemma ParseEscapeShort(c: char, tail: string)
    requires ShortEscaped(c)
    ensures ParseStringBody(EscapeChar(c) + tail) == Prepend(c, ParseStringBody(tail))
  {
    UnescapeShort(c, tail);
    assert EscapeChar(c) + tail == "\\" + (EscapeChar(c)[1..] + tail);
    StepEscape(EscapeChar(c)[1..] + tail, c, tail);
  }

  lemma ParseEscapeBmp(c: char, tail: string)
    requires !ShortEscaped(c) && !(' ' <= c <= '~') && (c as int) < 0x1_0000
    ensures ParseStringBody(EscapeChar(c) + tail) == Prepend(c, ParseStringBody(tail))
  {
    var x := "u" + Hex4Text(c as int) + tail;
    UnescapeBmp(c, tail);
    EscapeCharBmp(c, tail);
    StepEscape(x, c, tail);
  }

  /** A basic-plane character without a short escape, written out. */
  lemma EscapeCharBmp(c: char, tail: string)
    requires !ShortEscaped(c) && !(' ' <= c <= '~') && (c as int) < 0x1_0000
    ensures EscapeChar(c) + tail == "\\" + ("u" + Hex4Text(c as int) + tail)
  {
    assert EscapeChar(c) == UEscape(c as int);
    EscapeShapeBmp(Hex4Text(c as int), tail);
  }

  lemma ParseEscapeAstral(c: char, tail: string)
    requires (c as int) >= 0x1_0000
    ensures ParseStringBody(EscapeChar(c) + tail) == Prepend(c, ParseStringBody(tail))
  {
    var u := c as int - 0x1_0000;
    var x := "u" + Hex4Text(0xD800 + u / 0x400) + UEscape(0xDC00 + u % 0x400) + tail;
    UnescapeAstral(c, tail);
    EscapeCharAstral(c, tail);
    StepEscape(x, c, tail);
  }

  /** A character above the basic plane, written out as its surrogate pair. */
  lemma EscapeCharAstral(c: char, tail: string)
    requires (c as int) >= 0x1_0000
    ensures var u := c as int - 0x1_0000;
      EscapeChar(c) + tail == "\\" + ("u" + Hex4Text(0xD800 + u / 0x400) + UEscape(0xDC00 + u % 0x400) + tail)
  {
    var u := c as int - 0x1_0000;
    var hi, lo := 0xD800 + u / 0x400, 0xDC00 + u % 0x400;
    EscapeCharPair(c);
    EscapeShape(Hex4Text(hi), UEscape(lo), tail);
  }

  lemma EscapeCharPair(c: char)
    requires (c as int) >= 0x1_0000
    ensures var u := c as int - 0x1_0000;
      EscapeChar(c) == UEscape(0xD800 + u / 0x400) + UEscape(0xDC00 + u % 0x400)
  {
  }

  lemma EscapeShapeBmp(h: string, tail: string)
    ensures "\\u" + h + tail == "\\" + ("u" + h + tail)
  {
  }

  lemma EscapeShape(h: string, e: string, tail: string)
    ensures "\\u" + h + e + tail == "\\" + ("u" + h + e + tail)
  {
  }

  /** The decoder turns one character's escape back into the character. */
  lemma ParseEscapeChar(c: char, tail: string)
    ensures ParseStringBody(EscapeChar(c) + tail) == Prepend(c, ParseStringBody(tail))
  {
    if ShortEscaped(c) {
      ParseEscapeShort(c, tail);
    } else if ' ' <= c <= '~' {
      assert EscapeChar(c) == [c];
      StepPlain(c, tail);
    } else if (c as int) < 0x1_0000 {
      ParseEscapeBmp(c, tail);
    } else {
      ParseEscapeAstral(c, tail);
    }
  }

  /** The decoder reads back the body of a string literal the encoder wrote. */
  lemma {:induction false} ParseEscape(s: string, rest: string)
    ensures ParseStringBody(Escape(s) + "\"" + rest) == Some((s, rest))
    decreases |s|
  {
    if |s| == 0 {
      assert Escape(s) + "\"" + rest == "\"" + rest;
    } else {
      var tail := Escape(s[1..]) + "\"" + rest;
      assert Escape(s) + "\"" + rest == EscapeChar(s[0]) + tail;
      ParseEscapeChar(s[0], tail);
      ParseEscape(s[1..], rest);
      assert [s[0]] + s[1..] == s;
    }
  }

  /** Whitespace skipping leaves a text that starts with a value alone. */
  lemma SkipWsOpener(x: string)
    requires |x| > 0 && !IsWs(x[0])
    ensures SkipWs(x) == x && SkipWs(" " + x) == x
  {
    assert (" " + x)[1..] == x;
  }

  lemma NotStartsWith(s: string, w: string)
    requires |s| > 0 && |w| > 0 && s[0] != w[0]
    ensures !StartsWith(s, w)
  {
    if |w| <= |s| { assert s[..|w|][0] == s[0]; }
  }

  /** The keyword values: `null`, `true`, `false`. */
  lemma ParseValueKeyword(w: string, v: Json, rest: string)
    requires (w, v) == ("null", JNull) || (w, v) == ("true", JBool(true)) || (w, v) == ("false", JBool(false))
    ensures ParseValue(w + rest) == Some((v, rest))
  {
    var s := w + rest;
    assert s[..|w|] == w && s[|w|..] == rest;
    assert s[0] == w[0];
    if w != "null" { NotStartsWith(s, "null"); }
    if w == "false" { NotStartsWith(s, "true"); }
  }

  /** Text that starts with neither a quote nor a bracket nor a brace holds a scalar. */
  lemma ParseValueScalar(s: string)
    requires |s| > 0 && s[0] != '"' && s[0] != '{' && s[0] != '['
    ensures ParseValue(s) == ParseScalar(s)
  {
  }

  /** Text that starts as a number goes to the number reader. */
  lemma ParseScalarNumber(s: string)
    requires |s| > 0 && (IsDigit(s[0]) || (s[0] == '-' && |s| > 1 && IsDigit(s[1])))
    ensures ParseScalar(s) == ParseNumber(s)
  {
    assert !StartsWith(s, "null") && !StartsWith(s, "true") && !StartsWith(s, "false") by {
      NotStartsWith(s, "null");
      NotStartsWith(s, "true");
      NotStartsWith(s, "false");
    }
    assert !StartsWith(s, "NaN") && !StartsWith(s, "Infinity") && !StartsWith(s, "-Infinity") by {
      NotStartsWith(s, "NaN");
      NotStartsWith(s, "Infinity");
      if s[0] == '-' {
        NotStartsWithSecond(s, "-Infinity");
      } else {
        NotStartsWith(s, "-Infinity");
      }
    }
  }

  lemma NotStartsWithSecond(s: string, w: string)
    requires |s| > 1 && |w| > 1 && s[1] != w[1]
    ensures !StartsWith(s, w)
  {
    if |w| <= |s| { assert s[..|w|][1] == s[1]; }
  }

  /** The decoder reads back an integer value the encoder wrote. */
  lemma ParseDumpsInt(i: int, rest: string)
    requires Delimited(rest)
    ensures ParseValue(IntText(i) + rest) == Some((JInt(i), rest))
  {
    var s := IntText(i) + rest;
    var d := NatText(if i < 0 then -i else i);
    if i < 0 {
      assert s == "-" + (d + rest);
      assert s[1] == d[0];
    } else {
      assert s[0] == d[0];
    }
    ParseValueScalar(s);
    ParseScalarNumber(s);
    ParseNumberIntText(i, rest);
  }

  // Single steps of the decoder, each on the text shape the encoder writes.

  lemma ParseValueQuote(x: string, str: string, rest: string)
    requires ParseStringBody(x) == Some((str, rest))
    ensures ParseValue("\"" + x) == Some((JString(str), rest))
  {
    assert ("\"" + x)[1..] == x;
  }

  /** `[]` and `{}`, as the encoder writes them. */
  lemma ParseEmptyContainer(v: Json, rest: string)
    requires v == JArray([]) || v == JObject([])
    ensures ParseValue(Dumps(v) + rest) == Some((v, rest))
  {
    var close := if v.JArray? then ']' else '}';
    var x := [close] + rest;
    assert Dumps(v) + rest == [Dumps(v)[0]] + x;
    assert x[1..] == rest;
    SkipWsOpener(x);
  }

  lemma ParseValueBracket(x: string)
    ensures ParseValue("[" + x) == ParseArray(SkipWs(x))
  {
    assert ("[" + x)[1..] == x;
  }

  lemma ParseValueBrace(x: string)
    ensures ParseValue("{" + x) == ParseObject(SkipWs(x))
  {
    assert ("{" + x)[1..] == x;
  }

  lemma ParseArrayItems(s: string, items: seq<Json>, rest: string)
    requires |s| > 0 && s[0] != ']' && ParseElements(s) == Some((items, rest))
    ensures ParseArray(s) == Some((JArray(items), rest))
  {
  }

  lemma ParseObjectMembers(s: string, ms: seq<(string, Json)>, rest: string)
    requires |s| > 0 && s[0] != '}' && ParseMembers(s) == Some((ms, rest))
    ensures ParseObject(s) == Some((JObject(ms), rest))
  {
  }

  /** An array whose elements the decoder reads from the text after the '['. */
  lemma ParseArrayStep(x: string, items: seq<Json>, rest: string)
    requires |x| > 0 && !IsWs(x[0]) && x[0] != ']' && ParseElements(x) == Some((items, rest))
    ensures ParseValue("[" + x) == Some((JArray(items), rest))
  {
    ParseValueBracket(x);
    SkipWsOpener(x);
    ParseArrayItems(x, items, rest);
  }

  /** An object whose members the decoder reads from the text after the '{'. */
  lemma ParseObjectStep(x: string, ms: seq<(string, Json)>, rest: string)
    requires |x| > 0 && x[0] == '"' && ParseMembers(x) == Some((ms, rest))
    ensures ParseValue("{" + x) == Some((JObject(ms), rest))
  {
    ParseValueBrace(x);
    SkipWsOpener(x);
    ParseObjectMembers(x, ms, rest);
  }

  lemma AfterItemClose(rest: string, close: char)
    requires close == ']' || close == '}'
    ensures AfterItem([close] + rest, close) == Close(rest)
  {
    SkipWsOpener([close] + rest);
    assert ([close] + rest)[1..] == rest;
  }

  lemma AfterItemComma(next: string, close: char)
    requires close == ']' || close == '}'
    requires |next| > 0 && Opener(next[0])
    ensures AfterItem(", " + next, close) == Comma(next)
  {
    SkipWsOpener(", " + next);
    assert (", " + next)[1..] == " " + next;
    SkipWsOpener(next);
  }

  /** A member's key: the literal body, then ": " and the value's first character. */
  lemma ParseKeyStep(x: string, key: string, y: string)
    requires |y| > 0 && Opener(y[0])
    requires ParseStringBody(x) == Some((key, ": " + y))
    ensures ParseKey("\"" + x) == Some((key, y))
  {
    assert ("\"" + x)[1..] == x;
    SkipWsOpener(": " + y);
    assert (": " + y)[1..] == " " + y;
    SkipWsOpener(y);
  }

  /**
   * The decoder reads back, from the start of the text, any float-free value
   * the encoder wrote, whatever delimiter follows it.
   */
  lemma {:induction false} ParseDumps(v: Json, rest: string)
    requires Plain(v) && Delimited(rest)
    ensures ParseValue(Dumps(v) + rest) == Some((v, rest))
    decreases v, 0
  {
    match v
    case JNull => ParseValueKeyword("null", v, rest);
    case JBool(b) => ParseValueKeyword(if b then "true" else "false", v, rest);
    case JInt(i) => ParseDumpsInt(i, rest);
    case JString(str) => ParseDumpsString(str, rest);
    case JArray(items) => ParseDumpsArray(items, rest);
    case JObject(ms) => ParseDumpsObject(ms, rest);
  }

  /** The decoder reads back a string literal the encoder wrote. */
  lemma ParseDumpsString(str: string, rest: string)
    ensures ParseValue(Dumps(JString(str)) + rest) == Some((JString(str), rest))
  {
    var x := Escape(str) + "\"" + rest;
    assert Dumps(JString(str)) + rest == "\"" + x;
    ParseEscape(str, rest);
    ParseValueQuote(x, str, rest);
  }

  lemma {:induction false} ParseDumpsArray(items: seq<Json>, rest: string)
    requires forall i :: 0 <= i < |items| ==> Plain(items[i])
    requires Delimited(rest)
    ensures ParseValue(Dumps(JArray(items)) + rest) == Some((JArray(items), rest))
    decreases items, 1
  {
    if |items| == 0 {
      ParseEmptyContainer(JArray(items), rest);
    } else {
      var x := DumpsItems(items) + "]" + rest;
      assert Dumps(JArray(items)) + rest == "[" + x;
      DumpsItemsStart(items);
      ParseDumpsItems(items, rest);
      ParseArrayStep(x, items, rest);
    }
  }

  lemma {:induction false} ParseDumpsObject(ms: seq<(string, Json)>, rest: string)
    requires forall i :: 0 <= i < |ms| ==> MemberPlain(ms[i])
    requires Delimited(rest)
    ensures ParseValue(Dumps(JObject(ms)) + rest) == Some((JObject(ms), rest))
    decreases ms, 2
  {
    if |ms| == 0 {
      ParseEmptyContainer(JObject(ms), rest);
    } else {
      var x := DumpsMembers(ms) + "}" + rest;
      assert Dumps(JObject(ms)) + rest == "{" + x;
      DumpsMembersStart(ms);
      ParseDumpsMembers(ms, rest);
      ParseObjectStep(x, ms, rest);
    }
  }

  lemma AllPlainTail(items: seq<Json>)
    requires |items| > 0 && forall i :: 0 <= i < |items| ==> Plain(items[i])
    ensures forall i :: 0 <= i < |items[1..]| ==> Plain(items[1..][i])
  {
    forall i | 0 <= i < |items[1..]| ensures Plain(items[1..][i]) {
      assert items[1..][i] == items[i + 1];
    }
  }

  lemma AllMemberPlainTail(ms: seq<(string, Json)>)
    requires |ms| > 0 && forall i :: 0 <= i < |ms| ==> MemberPlain(ms[i])
    ensures forall i :: 0 <= i < |ms[1..]| ==> MemberPlain(ms[1..][i])
  {
    forall i | 0 <= i < |ms[1..]| ensures MemberPlain(ms[1..][i]) {
      assert ms[1..][i] == ms[i + 1];
    }
  }

  /** A non-empty element list begins as its first element does. */
  lemma DumpsItemsStart(items: seq<Json>)
    requires |items| > 0 && Plain(items[0])
    ensures |DumpsItems(items)| > 0 && Opener(DumpsItems(items)[0])
  {
    DumpsStart(items[0]);
  }

  /** A non-empty member list begins with the quote of its first key. */
  lemma DumpsMembersStart(ms: seq<(string, Json)>)
    requires |ms| > 0
    ensures |DumpsMembers(ms)| > 0 && DumpsMembers(ms)[0] == '"'
  {
    assert DumpsMember(ms[0])[0] == '"';
  }

  lemma {:induction false} ParseDumpsItems(items: seq<Json>, rest: string)
    requires |items| > 0 && forall i :: 0 <= i < |items| ==> Plain(items[i])
    ensures ParseElements(DumpsItems(items) + "]" + rest) == Some((items, rest))
    decreases items, 0
  {
    ItemsText(items, rest);
    if |items| == 1 {
      var s := Dumps(items[0]) + ("]" + rest);
      assert ParseElements(s) == Some(([items[0]], rest)) by {
        ParseDumps(items[0], "]" + rest);
        ParseElementsLast(s, items[0], rest);
      }
      assert [items[0]] == items;
    } else {
      var next := DumpsItems(items[1..]) + "]" + rest;
      var s := Dumps(items[0]) + (", " + next);
      assert ParseElements(next) == Some((items[1..], rest)) && |next| > 0 && Opener(next[0]) by {
        AllPlainTail(items);
        DumpsItemsStart(items[1..]);
        ParseDumpsItems(items[1..], rest);
      }
      assert ParseElements(s) == Some(([items[0]] + items[1..], rest)) by {
        ParseDumps(items[0], ", " + next);
        ParseElementsCons(s, items[0], next, items[1..], rest);
      }
      assert [items[0]] + items[1..] == items;
    }
  }

  /** The text of a non-empty element list and its ']', split after the first element. */
  lemma ItemsText(items: seq<Json>, rest: string)
    requires |items| > 0
    ensures |items| == 1 ==> DumpsItems(items) + "]" + rest == Dumps(items[0]) + ("]" + rest)
    ensures |items| > 1 ==> DumpsItems(items) + "]" + rest
                            == Dumps(items[0]) + (", " + (DumpsItems(items[1..]) + "]" + rest))
  {
    if |items| == 1 {
      assert DumpsItems(items) == Dumps(items[0]);
      CloseShape(Dumps(items[0]), "]", rest);
    } else {
      assert DumpsItems(items) == Dumps(items[0]) + ", " + DumpsItems(items[1..]);
      JoinShape(Dumps(items[0]), DumpsItems(items[1..]), "]", rest);
    }
  }

  lemma CloseShape(a: string, c: string, rest: string)
    ensures a + c + rest == a + (c + rest)
  {
  }

  lemma JoinShape(a: string, b: string, c: string, rest: string)
    ensures a + ", " + b + c + rest == a + (", " + (b + c + rest))
  {
  }

  /** The last element of an array, followed by its ']'. */
  lemma ParseElementsLast(s: string, v: Json, rest: string)
    requires ParseValue(s) == Some((v, "]" + rest))
    ensures ParseElements(s) == Some(([v], rest))
  {
    AfterItemClose(rest, ']');
    assert [']'] + rest == "]" + rest;
  }

  /** An element followed by a comma and the remaining elements. */
  lemma ParseElementsCons(s: string, v: Json, next: string, vs: seq<Json>, rest: string)
    requires ParseValue(s) == Some((v, ", " + next))
    requires |next| > 0 && Opener(next[0])
    requires ParseElements(next) == Some((vs, rest))
    ensures ParseElements(s) == Some(([v] + vs, rest))
  {
    AfterItemComma(next, ']');
  }

  lemma {:induction false} ParseDumpsMember(m: (string, Json), tail: string)
    requires MemberPlain(m) && |tail| > 0 && (tail[0] == ',' || tail[0] == '}')
    ensures ParseMember(DumpsMember(m) + tail) == Some((m, tail))
    decreases m, 0
  {
    var y := Dumps(m.1) + tail;
    var x := Escape(m.0) + "\"" + (": " + y);
    MemberText(Quote(m.0), Escape(m.0), Dumps(m.1), tail);
    ParseEscape(m.0, ": " + y);
    DumpsStart(m.1);
    ParseKeyStep(x, m.0, y);
    ParseDumps(m.1, tail);
    ParseMemberStep(DumpsMember(m) + tail, m.0, y, m.1, tail);
  }

  lemma MemberText(q: string, e: string, d: string, tail: string)
    requires q == "\"" + e + "\""
    ensures q + ": " + d + tail == "\"" + (e + "\"" + (": " + (d + tail)))
  {
  }

  /** A member: its key, then its value. */
  lemma ParseMemberStep(s: string, key: string, y: string, v: Json, after: string)
    requires ParseKey(s) == Some((key, y)) && ParseValue(y) == Some((v, after))
    ensures ParseMember(s) == Some(((key, v), after))
  {
  }

  lemma {:induction false} ParseDumpsMembers(ms: seq<(string, Json)>, rest: string)
    requires |ms| > 0 && forall i :: 0 <= i < |ms| ==> MemberPlain(ms[i])
    ensures ParseMembers(DumpsMembers(ms) + "}" + rest) == Some((ms, rest))
    decreases ms, 1
  {
    if |ms| == 1 {
      assert DumpsMembers(ms) + "}" + rest == DumpsMember(ms[0]) + ("}" + rest);
      ParseDumpsMember(ms[0], "}" + rest);
      ParseMembersLast(DumpsMember(ms[0]) + ("}" + rest), ms[0], rest);
      assert [ms[0]] == ms;
    } else {
      ParseDumpsMembersCons(ms, rest);
    }
  }

  lemma {:induction false} ParseDumpsMembersCons(ms: seq<(string, Json)>, rest: string)
    requires |ms| > 1 && forall i :: 0 <= i < |ms| ==> MemberPlain(ms[i])
    ensures ParseMembers(DumpsMembers(ms) + "}" + rest) == Some((ms, rest))
    decreases ms, 0
  {
    var next := DumpsMembers(ms[1..]) + "}" + rest;
    assert DumpsMembers(ms) + "}" + rest == DumpsMember(ms[0]) + (", " + next);
    ParseDumpsMember(ms[0], ", " + next);
    AllMemberPlainTail(ms);
    DumpsMembersStart(ms[1..]);
    ParseDumpsMembers(ms[1..], rest);
    ParseMembersMore(DumpsMember(ms[0]) + (", " + next), ms[0], next, ms[1..], rest);
    assert [ms[0]] + ms[1..] == ms;
  }

  /** The last member, followed by the closing brace. */
  lemma ParseMembersLast(s: string, m: (string, Json), rest: string)
    requires ParseMember(s) == Some((m, "}" + rest))
    ensures ParseMembers(s) == Some(([m], rest))
  {
    AfterItemClose(rest, '}');
  }

  /** A member followed by ", " and the remaining members. */
  lemma ParseMembersMore(s: string, m: (string, Json), next: string, ms: seq<(string, Json)>, rest: string)
    requires |next| > 0 && next[0] == '"'
    requires ParseMember(s) == Some((m, ", " + next)) && ParseMembers(next) == Some((ms, rest))
    ensures ParseMembers(s) == Some(([m] + ms, rest))
  {
    AfterItemComma(next, '}');
  }

  /** `json.loads(json.dumps(v)) == v` for every float-free value. */
  lemma LoadsDumps(v: Json)
    requires Plain(v)
    ensures Loads(Dumps(v)) == Some(v)
  {
    DumpsStart(v);
    SkipWsOpener(Dumps(v));
    ParseDumps(v, "");
    assert Dumps(v) + "" == Dumps(v);
  }

  // ---------------------------------------------------------------------------
  // A decoded object as a Python dict
  // ---------------------------------------------------------------------------

  /** Some member of the object has this key. */
  predicate KeyIn(ms: seq<(string, Json)>, k: string)
  {
    exists i :: 0 <= i < |ms| && ms[i].0 == k
  }

  /**
   * `d[key]` on the dict `json.loads` builds from the members: a later
   * duplicate key overwrites the value of an earlier one.
   */
  function Get(ms: seq<(string, Json)>, key: string): (r: Option<Json>)
    ensures r.None? <==> !KeyIn(ms, key)
    ensures r.Some? ==> exists i :: 0 <= i < |ms| && ms[i] == (key, r.value) && !KeyIn(ms[i + 1..], key)
  {
    if |ms| == 0 then None
    else
      var n := |ms| - 1;
      if ms[n].0 == key then
        assert ms[n + 1..] == [];
        Some(ms[n].1)
      else
        var r := Get(ms[..n], key);
        assert forall i :: 0 <= i < n ==> ms[..n][i] == ms[i];
        if r.Some? then
          var i :| 0 <= i < n && ms[..n][i] == (key, r.value) && !KeyIn(ms[..n][i + 1..], key);
          assert ms[i + 1..] == ms[..n][i + 1..] + [ms[n]];
          r
        else
          r
  }

  /** `k1` occurs before the first occurrence of `k2`. */
  predicate Precedes(ms: seq<(string, Json)>, k1: string, k2: string)
  {
    exists a :: 0 <= a < |ms| && ms[a].0 == k1 && !KeyIn(ms[..a], k2)
  }

  /**
   * Iterating over that dict: each distinct key once, in the order of its
   * first occurrence (a duplicate updates the value but keeps the position).
   */
  function Keys(ms: seq<(string, Json)>): (r: seq<string>)
    ensures forall k :: k in r <==> KeyIn(ms, k)
    ensures forall i, j :: 0 <= i < j < |r| ==> r[i] != r[j]
    ensures forall i, j :: 0 <= i < j < |r| ==> Precedes(ms, r[i], r[j])
    ensures |r| <= |ms|
  {
    if |ms| == 0 then []
    else
      var n := |ms| - 1;
      var init := ms[..n];
      var ks := Keys(init);
      KeyInSnoc(init, ms[n]);
      assert init + [ms[n]] == ms;
      forall i, j | 0 <= i < j < |ks| ensures Precedes(ms, ks[i], ks[j]) {
        PrecedesSnoc(init, ms[n], ks[i], ks[j]);
      }
      if ms[n].0 in ks then ks
      else
        var r := ks + [ms[n].0];
        forall i | 0 <= i < |ks| ensures Precedes(ms, ks[i], ms[n].0) {
          PrecedesNew(init, ms[n], ks[i]);
        }
        r
  }

  lemma KeyInSnoc(init: seq<(string, Json)>, m: (string, Json))
    ensures forall k :: KeyIn(init + [m], k) <==> KeyIn(init, k) || m.0 == k
  {
    forall k ensures KeyIn(init + [m], k) <==> KeyIn(init, k) || m.0 == k {
      if KeyIn(init, k) {
        var i :| 0 <= i < |init| && init[i].0 == k;
        assert (init + [m])[i] == init[i];
      }
      if KeyIn(init + [m], k) && !KeyIn(init, k) {
        var i :| 0 <= i < |init + [m]| && (init + [m])[i].0 == k;
        if i < |init| { assert init[i].0 == k; }
      }
      assert (init + [m])[|init|] == m;
    }
  }

  /** Appending a member keeps every earlier precedence. */
  lemma PrecedesSnoc(init: seq<(string, Json)>, m: (string, Json), k1: string, k2: string)
    requires Precedes(init, k1, k2)
    ensures Precedes(init + [m], k1, k2)
  {
    var a :| 0 <= a < |init| && init[a].0 == k1 && !KeyIn(init[..a], k2);
    assert (init + [m])[..a] == init[..a];
    assert (init + [m])[a] == init[a];
  }

  /** A key not seen before is preceded by every key already present. */
  lemma PrecedesNew(init: seq<(string, Json)>, m: (string, Json), k1: string)
    requires KeyIn(init, k1) && !KeyIn(init, m.0)
    ensures Precedes(init + [m], k1, m.0)
  {
    var a :| 0 <= a < |init| && init[a].0 == k1;
    assert (init + [m])[..a] == init[..a];
    assert (init + [m])[a] == init[a];
  }

  /** When no other member shares its key, a member's value is what the dict holds for it. */
  lemma GetUnique(ms: seq<(string, Json)>, i: int)
    requires 0 <= i < |ms|
    requires forall j :: 0 <= j < |ms| && j != i ==> ms[j].0 != ms[i].0
    ensures Get(ms, ms[i].0) == Some(ms[i].1)
  {
    var r := Get(ms, ms[i].0);
    assert KeyIn(ms, ms[i].0);
    var j :| 0 <= j < |ms| && ms[j] == (ms[i].0, r.value) && !KeyIn(ms[j + 1..], ms[i].0);
  }
}

=== FILE: modmanager.dfy ===
/**
 * The core's package store over an abstract snapshot of the mods root: the
 * version-folder index, the listing of a version folder, and the decision
 * `InstallMod` takes about a package file.
 */
module ModManager {
  import opened Wrappers
  import opened Strings
  import opened Xml
  import opened ModMeta
  import Json

  // ---------------------------------------------------------------------------
  // Version-folder index
  // ---------------------------------------------------------------------------

  /** A subdirectory path kept by the index: neither "config" nor "temp" occurs anywhere in it. */
  predicate IsVersionFolder(path: string)
  {
    !Contains(path, "config") && !Contains(path, "temp")
  }

  /** The enumeration loop: the kept subdirectories, in enumeration order. */
  function KeepVersionFolders(subdirs: seq<string>): (r: seq<string>)
    ensures forall x :: x in r <==> x in subdirs && IsVersionFolder(x)
    ensures forall x :: multiset(r)[x] == if IsVersionFolder(x) then multiset(subdirs)[x] else 0
  {
    if |subdirs| == 0 then []
    else
      var rest := KeepVersionFolders(subdirs[1..]);
      assert subdirs == [subdirs[0]] + subdirs[1..];
      if IsVersionFolder(subdirs[0]) then [subdirs[0]] + rest else rest
  }

  /**
   * `GetGameVersionFoldersSorted`: the kept subdirectory paths, ascending in
   * ordinal order; the result is the one ascending permutation of them.
   */
  function VersionFoldersSorted(subdirs: seq<string>): (r: seq<string>)
    ensures Sorted(r)
    ensures forall x :: multiset(r)[x] == if IsVersionFolder(x) then multiset(subdirs)[x] else 0
    ensures forall x :: x in r <==> x in subdirs && IsVersionFolder(x)
  {
    var kept := KeepVersionFolders(subdirs);
    var r := Sort(kept);
    assert forall x :: x in r <==> x in multiset(kept);
    r
  }

  /** `items[items.Count - 1]` on an empty list: `ArgumentOutOfRangeException`. */
  datatype FolderError = NoVersionFolder

  /**
   * `GetNewestGameVersionFolder`: the last, hence greatest, kept folder;
   * an error when no subdirectory is kept.
   */
  function NewestVersionFolder(subdirs: seq<string>): (r: Result<string, FolderError>)
    ensures r.Failure? <==> forall x :: x in subdirs ==> !IsVersionFolder(x)
    ensures r.Success? ==> r.value in subdirs && IsVersionFolder(r.value)
    ensures r.Success? ==> forall x :: x in subdirs && IsVersionFolder(x) ==> StrLe(x, r.value)
  {
    var items := VersionFoldersSorted(subdirs);
    if |items| == 0 then
      Failure(NoVersionFolder)
    else
      LastIsMaximum(items);
      Success(items[|items| - 1])
  }

  /**
   * Ordinal order, not version order: of "1.9.0" and "1.10.0" the index
   * calls "1.9.0" the newest, and a "config" folder never takes part.
   */
  lemma NewestIsOrdinalNotNumeric()
    ensures NewestVersionFolder(["mods/1.9.0", "mods/1.10.0", "mods/config"]) == Success("mods/1.9.0")
  {
    var subdirs := ["mods/1.9.0", "mods/1.10.0", "mods/config"];
    ExampleFolders();
    var r := NewestVersionFolder(subdirs);
    assert IsVersionFolder(subdirs[0]);
    assert StrLe(subdirs[0], r.value);
  }

  /** The three folders of the example above: which are kept, and how the kept two compare. */
  lemma ExampleFolders()
    ensures IsVersionFolder("mods/1.9.0") && IsVersionFolder("mods/1.10.0") && !IsVersionFolder("mods/config")
    ensures !StrLe("mods/1.9.0", "mods/1.10.0")
  {
    var a, b := "mods/1.9.0", "mods/1.10.0";
    assert OccursAt("mods/config", "config", 5);
    NotContains(a, "config");
    NotContains(a, "temp");
    NotContains(b, "config");
    NotContains(b, "temp");
    StrLeCommonPrefix("mods/1.", "9.0", "10.0");
    assert a == "mods/1." + "9.0" && b == "mods/1." + "10.0";
  }

  /** A word whose first character never occurs in `s` does not occur in `s`. */
  lemma NotContains(s: string, w: string)
    requires |w| > 0 && w[0] !in s
    ensures !Contains(s, w)
  {
    forall i | 0 <= i <= |s| - |w| ensures !OccursAt(s, w, i) {
      assert s[i..i + |w|][0] == s[i];
    }
  }

  /**
   * The exclusion tests the whole path: a game directory whose path
   * contains "temp" (as in "contemporary") hides every version folder.
   */
  lemma WholePathIsTested()
    ensures !IsVersionFolder("/games/contemporary/mods/1.26.0")
  {
    assert OccursAt("/games/contemporary/mods/1.26.0", "temp", 10);
  }

  // ---------------------------------------------------------------------------
  // Package files and the listing of a version folder
  // ---------------------------------------------------------------------------

  /**
   * A package archive after extraction: every entry path with the parse of
   * its text. The readers only ever open the top-level `meta.xml`.
   */
  datatype Archive = Archive(entries: map<string, XmlDoc>)

  const MetaPath: string := "meta.xml"

  /** `File.Exists(extractFolder + "/meta.xml")`: only the top level counts. */
  predicate HasTopLevelMeta(a: Archive)
  {
    MetaPath in a.entries
  }

  /** One file of a version folder: its name and its archive. */
  datatype PackageFile = PackageFile(name: string, archive: Archive)

  const EnabledSuffix: string := ".wotmod"
  const DisabledSuffix: string := ".wotmod.disabled"

  /** `Directory.EnumerateFiles(folder, "*" + suffix)`, in enumeration order. */
  function FilesEndingWith(files: seq<PackageFile>, suffix: string): (r: seq<PackageFile>)
    ensures forall f :: f in r <==> f in files && EndsWith(f.name, suffix)
    ensures |r| <= |files|
  {
    if |files| == 0 then []
    else
      var rest := FilesEndingWith(files[1..], suffix);
      assert files == [files[0]] + files[1..];
      if EndsWith(files[0].name, suffix) then [files[0]] + rest else rest
  }

  /** No file name is both an enabled and a disabled package. */
  lemma SuffixesDisjoint(name: string)
    ensures !(EndsWith(name, EnabledSuffix) && EndsWith(name, DisabledSuffix))
  {
    if EndsWith(name, DisabledSuffix) {
      assert name[|name| - 16..][9] == name[|name| - 7];
    }
  }

  /** The record the listing builds for a package without a top-level `meta.xml`. */
  function Fallback(name: string, enabledPass: bool): ModInfo
  {
    if enabledPass then Make6(name, "unknown", name, "0.0.0", "No description available", name)
    else Make7(name, "unknown", name, "0.0.0", "No description available", name, false)
  }

  /**
   * One iteration of either listing loop: the filename-derived fallback when
   * the archive has no top-level `meta.xml`, the XML constructor otherwise
   * (whose exceptions nothing catches). The disabled loop forces `IsEnabled`
   * off; the enabled loop's fallback uses the six-argument constructor,
   * which leaves it off too.
   */
  function Describe(f: PackageFile, enabledPass: bool): (r: Result<ModInfo, MetaError>)
    ensures r.Success? ==> r.value.localFileName == Some(f.name)
    ensures r.Success? ==> (r.value.isEnabled <==> enabledPass && HasTopLevelMeta(f.archive))
    ensures !HasTopLevelMeta(f.archive) ==>
      r == Success(ModInfo(f.name, "unknown", f.name, "0.0.0", "No description available", Some(f.name), false))
    ensures r.Failure? ==> HasTopLevelMeta(f.archive)
  {
    if !HasTopLevelMeta(f.archive) then Success(Fallback(f.name, enabledPass))
    else
      var m :- FromXml(f.archive.entries[MetaPath], enabledPass, f.name);
      Success(if enabledPass then m else m.(isEnabled := false))
  }

  /**
   * With a top-level `meta.xml`, the record is the XML constructor's, read
   * with the pass's flag, and its failure is the constructor's exception.
   */
  lemma DescribeReadsMeta(f: PackageFile, enabledPass: bool)
    requires HasTopLevelMeta(f.archive)
    ensures var c := FromXml(f.archive.entries[MetaPath], enabledPass, f.name);
      && (Describe(f, enabledPass).Success? <==> c.Success?)
      && (c.Success? ==> Describe(f, enabledPass).value == c.value.(isEnabled := enabledPass))
      && (c.Failure? ==> Describe(f, enabledPass).error == c.error)
  {
  }

  /** The listing can build a record for `f`. */
  predicate Readable(f: PackageFile, enabledPass: bool)
  {
    Describe(f, enabledPass).Success?
  }

  predicate AllReadable(files: seq<PackageFile>, enabledPass: bool)
  {
    forall i :: 0 <= i < |files| ==> Readable(files[i], enabledPass)
  }

  /** `f` is the first file of `files` the listing cannot build a record for. */
  predicate IsFirstUnreadable(files: seq<PackageFile>, enabledPass: bool, i: int)
  {
    0 <= i < |files| && !Readable(files[i], enabledPass)
    && forall k :: 0 <= k < i ==> Readable(files[k], enabledPass)
  }

  /** `m` is a record of `f` as the pass lists it: its file name, and enabled only from the enabled pass with `meta.xml`. */
  predicate ListedAs(m: ModInfo, f: PackageFile, enabledPass: bool)
  {
    m.localFileName == Some(f.name) && (m.isEnabled <==> enabledPass && HasTopLevelMeta(f.archive))
  }

  /** Every file of `files` described in order; the first failure propagates. */
  function DescribeAll(files: seq<PackageFile>, enabledPass: bool): (r: Result<seq<ModInfo>, MetaError>)
    ensures r.Success? <==> AllReadable(files, enabledPass)
    ensures r.Success? ==> |r.value| == |files|
    ensures r.Success? ==> forall i :: 0 <= i < |files| ==>
      r.value[i] == Describe(files[i], enabledPass).value && ListedAs(r.value[i], files[i], enabledPass)
    ensures r.Failure? ==>
      exists i :: IsFirstUnreadable(files, enabledPass, i) && r.error == Describe(files[i], enabledPass).error
  {
    if |files| == 0 then Success([])
    else
      var first := Describe(files[0], enabledPass);
      var rest := DescribeAll(files[1..], enabledPass);
      if first.Failure? then
        assert IsFirstUnreadable(files, enabledPass, 0);
        Failure(first.error)
      else if rest.Failure? then
        var i :| IsFirstUnreadable(files[1..], enabledPass, i) && rest.error == Describe(files[1..][i], enabledPass).error;
        FirstUnreadableShift(files, enabledPass, i);
        Failure(rest.error)
      else
        assert forall i :: 0 < i < |files| ==> files[i] == files[1..][i - 1];
        Success([first.value] + rest.value)
  }

  /** Behind a readable first file, the first unreadable one of the rest is the first of all. */
  lemma FirstUnreadableShift(files: seq<PackageFile>, enabledPass: bool, i: int)
    requires |files| > 0 && Readable(files[0], enabledPass)
    requires IsFirstUnreadable(files[1..], enabledPass, i)
    ensures IsFirstUnreadable(files, enabledPass, i + 1) && files[i + 1] == files[1..][i]
  {
    assert forall k :: 0 < k <= i ==> files[k] == files[1..][k - 1];
  }

  /**
   * `GetInstalledMods(folder)`: one record per `*.wotmod` file, then one per
   * `*.wotmod.disabled` file, each in enumeration order. A record is enabled
   * only when it comes from an enabled file with a top-level `meta.xml`;
   * every record carries its file name; a descriptor the XML constructor
   * rejects aborts the whole listing.
   */
  function GetInstalledMods(files: seq<PackageFile>): (r: Result<seq<ModInfo>, MetaError>)
    ensures var en, dis := FilesEndingWith(files, EnabledSuffix), FilesEndingWith(files, DisabledSuffix);
      && (r.Success? <==> AllReadable(en, true) && AllReadable(dis, false))
      && (r.Success? ==> |r.value| == |en| + |dis|)
      && (r.Success? ==> forall i :: 0 <= i < |en| ==>
            r.value[i] == Describe(en[i], true).value && ListedAs(r.value[i], en[i], true))
      && (r.Success? ==> forall i :: 0 <= i < |dis| ==>
            r.value[|en| + i] == Describe(dis[i], false).value && ListedAs(r.value[|en| + i], dis[i], false))
      && (r.Failure? && !AllReadable(en, true) ==> FailsFirstAt(en, true, r.error))
      && (r.Failure? && AllReadable(en, true) ==> FailsFirstAt(dis, false, r.error))
  {
    var en, dis := FilesEndingWith(files, EnabledSuffix), FilesEndingWith(files, DisabledSuffix);
    BothPasses(en, dis);
    ThenDisabled(DescribeAll(en, true), DescribeAll(dis, false))
  }

  /** The enabled pass's records followed by the disabled pass's; the first failure aborts. */
  function ThenDisabled(enabled: Result<seq<ModInfo>, MetaError>, disabled: Result<seq<ModInfo>, MetaError>)
    : (r: Result<seq<ModInfo>, MetaError>)
    ensures r.Success? <==> enabled.Success? && disabled.Success?
    ensures r.Success? ==> r.value == enabled.value + disabled.value
    ensures r.Failure? ==> r.error == (if enabled.Failure? then enabled.error else disabled.error)
  {
    match enabled
    case Failure(e) => Failure(e)
    case Success(xs) =>
      match disabled
      case Failure(e) => Failure(e)
      case Success(ys) => Success(xs + ys)
  }

  /** `e` is the error of the first file of `files` the pass cannot build a record for. */
  predicate FailsFirstAt(files: seq<PackageFile>, enabledPass: bool, e: MetaError)
  {
    exists i :: 0 <= i < |files| && IsFirstUnreadable(files, enabledPass, i) && e == Describe(files[i], enabledPass).error
  }

  /** Both passes together list every file of each pass, in order, and fail with the first unreadable file. */
  lemma BothPasses(en: seq<PackageFile>, dis: seq<PackageFile>)
    ensures var r := ThenDisabled(DescribeAll(en, true), DescribeAll(dis, false));
      && (r.Success? <==> AllReadable(en, true) && AllReadable(dis, false))
      && (r.Success? ==> |r.value| == |en| + |dis|)
      && (r.Success? ==> forall i :: 0 <= i < |en| ==>
            r.value[i] == Describe(en[i], true).value && ListedAs(r.value[i], en[i], true))
      && (r.Success? ==> forall i :: 0 <= i < |dis| ==>
            r.value[|en| + i] == Describe(dis[i], false).value && ListedAs(r.value[|en| + i], dis[i], false))
      && (r.Failure? && !AllReadable(en, true) ==> FailsFirstAt(en, true, r.error))
      && (r.Failure? && AllReadable(en, true) ==> FailsFirstAt(dis, false, r.error))
  {
    var d, e := DescribeAll(en, true), DescribeAll(dis, false);
    var r := ThenDisabled(d, e);
    if r.Success? {
      var xs, ys := d.value, e.value;
      assert r.value == xs + ys;
      assert forall i :: 0 <= i < |dis| ==> r.value[|en| + i] == ys[i];
    } else if d.Failure? {
      assert FailsFirstAt(en, true, r.error);
    } else {
      assert FailsFirstAt(dis, false, r.error);
    }
  }

  /**
   * An enabled package without `meta.xml` is listed as disabled, with every
   * name field taken from the file name.
   */
  lemma MetaLessEnabledFileListedDisabled(name: string, a: Archive)
    requires EndsWith(name, EnabledSuffix) && !HasTopLevelMeta(a)
    ensures GetInstalledMods([PackageFile(name, a)])
         == Success([ModInfo(name, "unknown", name, "0.0.0", "No description available", Some(name), false)])
  {
    var f := PackageFile(name, a);
    SuffixesDisjoint(name);
    assert FilesEndingWith([f], EnabledSuffix) == [f];
    assert FilesEndingWith([f], DisabledSuffix) == [];
    assert Describe(f, true) == Success(Fallback(name, true));
    var d := DescribeAll([f], true);
    assert d.Success?;
    assert |d.value| == 1 && d.value[0] == Fallback(name, true);
    assert d.value == [Fallback(name, true)];
  }

  // ---------------------------------------------------------------------------
  // Install decision
  // ---------------------------------------------------------------------------

  const Int32Max: int := 2147483647

  /** `int.Parse` on a string of digits; a non-digit, an empty string or an overflow throws. */
  function ParseInt32(s: string): (r: Option<int>)
    ensures r.Some? <==> |s| > 0 && AllDigits(s) && DigitsValue(s) <= Int32Max
    ensures r.Some? ==> 0 <= r.value <= Int32Max && r.value == DigitsValue(s)
  {
    if |s| > 0 && AllDigits(s) && DigitsValue(s) <= Int32Max then Some(DigitsValue(s)) else None
  }

  /** `int.Parse(n.ToString()) == n` for every value an Int32 can hold without a sign. */
  lemma ParseInt32OfText(n: nat)
    requires n <= Int32Max
    ensures ParseInt32(Json.NatText(n)) == Some(n)
  {
  }

  /**
   * Leading zeros do not change the parse: a version such as "0.9" becomes
   * "09" once its dots are dropped, and reads as 9.
   */
  lemma ParseInt32LeadingZero(s: string)
    requires |s| > 0
    ensures ParseInt32("0" + s) == ParseInt32(s)
  {
    if AllDigits(s) {
      DigitsValueLeadingZero(s);
    } else {
      var k :| 0 <= k < |s| && !IsDigit(s[k]);
      assert ("0" + s)[k + 1] == s[k];
    }
  }

  /** A leading '0' adds nothing to the value of a digit run. */
  lemma {:induction false} DigitsValueLeadingZero(s: string)
    requires AllDigits(s)
    ensures AllDigits("0" + s) && DigitsValue("0" + s) == DigitsValue(s)
    decreases |s|
  {
    var z := "0" + s;
    assert forall i :: 0 < i < |z| ==> z[i] == s[i - 1];
    if |s| == 0 {
      assert z[..0] == "";
    } else {
      var init := s[..|s| - 1];
      assert AllDigits(init) by {
        assert forall i :: 0 <= i < |init| ==> init[i] == s[i];
      }
      DigitsValueLeadingZero(init);
      assert z[..|z| - 1] == "0" + init;
      assert z[|z| - 1] == s[|s| - 1];
    }
  }

  /** What comparing an installed and a candidate version string decides. */
  datatype VersionVerdict = Upgrade | NoUpgrade | Unreadable

  /**
   * `int.Parse(installed.Replace(".", "")) < int.Parse(candidate.Replace(".", ""))`
   * inside its `try`: a parse failure is caught and means "do not install".
   */
  function CompareVersions(installed: string, candidate: string): (r: VersionVerdict)
    ensures r == Upgrade <==>
      ParseInt32(RemoveChar(installed, '.')).Some? && ParseInt32(RemoveChar(candidate, '.')).Some?
      && ParseInt32(RemoveChar(installed, '.')).value < ParseInt32(RemoveChar(candidate, '.')).value
    ensures r == Unreadable <==>
      ParseInt32(RemoveChar(installed, '.')).None? || ParseInt32(RemoveChar(candidate, '.')).None?
  {
    match ParseInt32(RemoveChar(installed, '.'))
    case None => Unreadable
    case Some(was) =>
      match ParseInt32(RemoveChar(candidate, '.'))
      case None => Unreadable
      case Some(now) => if was < now then Upgrade else NoUpgrade
  }

  /** The same version never upgrades. */
  lemma SameVersionNeverUpgrades(v: string)
    ensures CompareVersions(v, v) != Upgrade
  {
  }

  /** Dots are dropped before comparing: "1.9.1" (191) counts as newer than "1.10" (110). */
  lemma DotsDroppedBeforeComparing()
    ensures CompareVersions("1.10", "1.9.1") == Upgrade
  {
    DotsDropped();
    assert DigitsValue("110") == 110 by {
      assert "110"[..2] == "11" && "11"[..1] == "1" && "1"[..0] == "";
    }
    assert DigitsValue("191") == 191 by {
      assert "191"[..2] == "19" && "19"[..1] == "1" && "1"[..0] == "";
    }
  }

  /** The two versions of the example above with their dots removed. */
  lemma DotsDropped()
    ensures RemoveChar("1.10", '.') == "110" && RemoveChar("1.9.1", '.') == "191"
  {
    RemoveCharCons('1', ".10", '.');
    RemoveCharCons('.', "10", '.');
    RemoveCharCons('1', "0", '.');
    RemoveCharCons('0', "", '.');
    RemoveCharCons('1', ".9.1", '.');
    RemoveCharCons('.', "9.1", '.');
    RemoveCharCons('9', ".1", '.');
    RemoveCharCons('.', "1", '.');
    RemoveCharCons('1', "", '.');
  }

  /** `installed[i]` is the first record carrying the name `name`. */
  predicate IsFirstSameName(installed: seq<ModInfo>, name: string, i: int)
  {
    0 <= i < |installed| && installed[i].modName == name
    && forall k :: 0 <= k < i ==> installed[k].modName != name
  }

  /** What the loop over the installed records decides about a candidate. */
  datatype Decision = NoSameName | Compared(verdict: VersionVerdict)

  /**
   * The `foreach` over installed records: the first record with the same
   * `ModName` decides through its version; later records are never looked at.
   */
  function Decide(installed: seq<ModInfo>, candidate: ModInfo): (r: Decision)
    ensures r == NoSameName <==> forall i :: 0 <= i < |installed| ==> installed[i].modName != candidate.modName
    ensures r.Compared? ==>
      exists i :: IsFirstSameName(installed, candidate.modName, i)
        && r.verdict == CompareVersions(installed[i].version, candidate.version)
  {
    if |installed| == 0 then NoSameName
    else if installed[0].modName == candidate.modName then
      assert IsFirstSameName(installed, candidate.modName, 0);
      Compared(CompareVersions(installed[0].version, candidate.version))
    else
      var r := Decide(installed[1..], candidate);
      if r.Compared? then
        var i :| IsFirstSameName(installed[1..], candidate.modName, i)
          && r.verdict == CompareVersions(installed[1..][i].version, candidate.version);
        assert IsFirstSameName(installed, candidate.modName, i + 1);
        r
      else
        assert forall i :: 0 < i < |installed| ==> installed[i] == installed[1..][i - 1];
        r
  }

  /** Records after the first same-name one do not change the decision. */
  lemma {:induction false} OnlyFirstSameNameDecides(installed: seq<ModInfo>, more: seq<ModInfo>, candidate: ModInfo)
    requires exists i :: 0 <= i < |installed| && installed[i].modName == candidate.modName
    ensures Decide(installed + more, candidate) == Decide(installed, candidate)
    decreases |installed|
  {
    if installed[0].modName != candidate.modName {
      assert (installed + more)[1..] == installed[1..] + more;
      var i :| 0 <= i < |installed| && installed[i].modName == candidate.modName;
      assert installed[1..][i - 1] == installed[i];
      OnlyFirstSameNameDecides(installed[1..], more, candidate);
    }
  }

  /** The mods root: its subdirectory paths as enumerated, and the files of each. */
  datatype ModsRoot = ModsRoot(subdirs: seq<string>, folders: map<string, seq<PackageFile>>)

  /** Every enumerated subdirectory can be listed. */
  predicate WellFormed(root: ModsRoot)
  {
    forall d :: d in root.subdirs ==> d in root.folders
  }

  /** Why `InstallMod` answers false before looking at installed mods, or after. */
  datatype Rejection = SourceMissing | NotAPackage | NoMetaXml | NotNewer | VersionUnreadable

  /** `InstallMod`'s answer: false with the reason, or true after moving the file to `destination`. */
  datatype Outcome = Rejected(reason: Rejection) | Moved(destination: string)

  /** The exceptions `InstallMod` lets escape. */
  datatype Fault = DescriptorFault(e: MetaError) | FolderFault(f: FolderError)

  /** Everything is in place for the comparison with installed mods. */
  predicate PassesChecks(modPath: string, source: Option<Archive>)
  {
    source.Some? && EndsWith(modPath, EnabledSuffix) && HasTopLevelMeta(source.value)
  }

  /** The candidate's record, read from its `meta.xml` under the file's own name. */
  function Candidate(modPath: string, a: Archive): Result<ModInfo, MetaError>
    requires HasTopLevelMeta(a)
  {
    FromXml(a.entries[MetaPath], true, FileName(modPath))
  }

  /** `GetInstalledMods(GetNewestGameVersionFolder())`, with either call's exception. */
  function NewestListing(root: ModsRoot): (r: Result<seq<ModInfo>, Fault>)
    requires WellFormed(root)
    ensures r.Success? <==>
      (NewestVersionFolder(root.subdirs).Success?
       && GetInstalledMods(root.folders[NewestVersionFolder(root.subdirs).value]).Success?)
  {
    match NewestVersionFolder(root.subdirs)
    case Failure(f) => Failure(FolderFault(f))
    case Success(newest) =>
      match GetInstalledMods(root.folders[newest])
      case Failure(e) => Failure(DescriptorFault(e))
      case Success(installed) => Success(installed)
  }

  /**
   * The loop's verdict, stated without the loop: no installed record has the
   * candidate's name, or the first that has it is older by the integer
   * comparison.
   */
  predicate ShouldInstall(installed: seq<ModInfo>, candidate: ModInfo)
  {
    (forall i :: 0 <= i < |installed| ==> installed[i].modName != candidate.modName)
    || (exists i :: 0 <= i < |installed| && IsFirstSameName(installed, candidate.modName, i)
          && CompareVersions(installed[i].version, candidate.version) == Upgrade)
  }

  /** The loop moves the file exactly when `ShouldInstall` holds. */
  lemma DecideMatchesShouldInstall(installed: seq<ModInfo>, candidate: ModInfo)
    ensures var d := Decide(installed, candidate);
      (d == NoSameName || d == Compared(Upgrade)) <==> ShouldInstall(installed, candidate)
  {
    var d := Decide(installed, candidate);
    if d.Compared? {
      var i :| IsFirstSameName(installed, candidate.modName, i)
        && d.verdict == CompareVersions(installed[i].version, candidate.version);
      forall j | IsFirstSameName(installed, candidate.modName, j) ensures j == i {
        assert !(j < i) && !(i < j);
      }
    }
  }

  /**
   * `InstallMod(modPath)`, with `source` the package file at `modPath`
   * (`None` when it does not exist). Rejections come first and in the
   * source's order; then the candidate's descriptor is read (the file is
   * named by `Path.GetFileName`), the newest folder's mods are listed, and
   * the file is moved into that folder unless the first same-name mod is
   * not older or its version does not parse.
   */
  function InstallMod(modPath: string, source: Option<Archive>, root: ModsRoot): (r: Result<Outcome, Fault>)
    requires WellFormed(root)
    ensures source.None? ==> r == Success(Rejected(SourceMissing))
    ensures source.Some? && !EndsWith(modPath, EnabledSuffix) ==> r == Success(Rejected(NotAPackage))
    ensures source.Some? && EndsWith(modPath, EnabledSuffix) && !HasTopLevelMeta(source.value) ==>
      r == Success(Rejected(NoMetaXml))
    ensures PassesChecks(modPath, source) ==>
      (r.Success? <==> Candidate(modPath, source.value).Success? && NewestListing(root).Success?)
    ensures PassesChecks(modPath, source) && r.Success? ==>
      (r.value.Moved? <==> ShouldInstall(NewestListing(root).value, Candidate(modPath, source.value).value))
    ensures r.Success? && r.value.Moved? ==>
      PassesChecks(modPath, source)
        && NewestVersionFolder(root.subdirs).Success?
        && r.value.destination == NewestVersionFolder(root.subdirs).value + "/" + FileName(modPath)
    ensures r == Success(Rejected(VersionUnreadable)) ==>
      PassesChecks(modPath, source)
        && Decide(NewestListing(root).value, Candidate(modPath, source.value).value) == Compared(Unreadable)
  {
    if source.None? then Success(Rejected(SourceMissing))
    else if !EndsWith(modPath, EnabledSuffix) then Success(Rejected(NotAPackage))
    else if !HasTopLevelMeta(source.value) then Success(Rejected(NoMetaXml))
    else
      match Candidate(modPath, source.value)
      case Failure(e) => Failure(DescriptorFault(e))
      case Success(candidate) =>
        match NewestListing(root)
        case Failure(f) => Failure(f)
        case Success(installed) =>
          var destination := NewestVersionFolder(root.subdirs).value + "/" + FileName(modPath);
          DecideMatchesShouldInstall(installed, candidate);
          match Decide(installed, candidate)
          case NoSameName => Success(Moved(destination))
          case Compared(Upgrade) => Success(Moved(destination))
          case Compared(NoUpgrade) => Success(Rejected(NotNewer))
          case Compared(Unreadable) => Success(Rejected(VersionUnreadable))
  }

  /** `InstallMod`'s boolean: true exactly when the file was moved. */
  function Installed(r: Result<Outcome, Fault>): bool
  {
    r.Success? && r.value.Moved?
  }

  /**
   * After a successful install the newest folder holds the package under its
   * file name, and listing that folder shows it enabled under its name.
   */
  lemma InstalledPackageIsListed(modPath: string, a: Archive, root: ModsRoot)
    requires WellFormed(root)
    requires Installed(InstallMod(modPath, Some(a), root))
    ensures HasTopLevelMeta(a) && Candidate(modPath, a).Success? && NewestVersionFolder(root.subdirs).Success?
    ensures var after := root.folders[NewestVersionFolder(root.subdirs).value] + [PackageFile(FileName(modPath), a)];
      && GetInstalledMods(after).Success?
      && Candidate(modPath, a).value in GetInstalledMods(after).value
      && Candidate(modPath, a).value.isEnabled
  {
    assert PassesChecks(modPath, Some(a));
    ListingAfterMove(modPath, a, root);
  }

  /**
   * Whenever the checks pass and both reads succeed, the newest folder with
   * the package added under its file name lists the candidate's record.
   */
  lemma ListingAfterMove(modPath: string, a: Archive, root: ModsRoot)
    requires WellFormed(root)
    requires PassesChecks(modPath, Some(a)) && Candidate(modPath, a).Success? && NewestListing(root).Success?
    ensures NewestVersionFolder(root.subdirs).Success?
    ensures var after := root.folders[NewestVersionFolder(root.subdirs).value] + [PackageFile(FileName(modPath), a)];
      && GetInstalledMods(after).Success?
      && Candidate(modPath, a).value in GetInstalledMods(after).value
      && Candidate(modPath, a).value.isEnabled
  {
    var newest := NewestVersionFolder(root.subdirs).value;
    var before := root.folders[newest];
    var name := FileName(modPath);
    var f := PackageFile(name, a);
    assert EndsWith(name, EnabledSuffix) && !EndsWith(name, DisabledSuffix) by {
      EnabledSuffixHasNoSeparator();
      FileNameKeepsSuffix(modPath, EnabledSuffix);
      SuffixesDisjoint(name);
    }
    assert Describe(f, true) == Success(Candidate(modPath, a).value) by {
      DescribeReadsMeta(f, true);
    }
    ListingWithOneMore(before, f);
  }

  /**
   * Listing a folder with one more enabled package at the end of the
   * enumeration: the same records, with the package's record among them.
   */
  lemma {:induction false} ListingWithOneMore(files: seq<PackageFile>, f: PackageFile)
    requires GetInstalledMods(files).Success?
    requires EndsWith(f.name, EnabledSuffix) && !EndsWith(f.name, DisabledSuffix)
    requires Describe(f, true).Success?
    ensures GetInstalledMods(files + [f]).Success?
    ensures Describe(f, true).value in GetInstalledMods(files + [f]).value
  {
    var after := files + [f];
    FilesEndingWithAppend(files, f, EnabledSuffix);
    FilesEndingWithAppend(files, f, DisabledSuffix);
    var en0 := FilesEndingWith(files, EnabledSuffix);
    var en := FilesEndingWith(after, EnabledSuffix);
    var dis := FilesEndingWith(after, DisabledSuffix);
    assert en == en0 + [f];
    assert dis == FilesEndingWith(files, DisabledSuffix);
    var k := |en| - 1;
    assert forall i :: 0 <= i < |en| ==> Describe(en[i], true).Success? by {
      forall i | 0 <= i < |en| ensures Describe(en[i], true).Success? {
        if i < k { assert en[i] == en0[i]; }
      }
    }
    var e := DescribeAll(en, true);
    assert e.Success?;
    var r := GetInstalledMods(after);
    assert r.Success?;
    assert r.value == e.value + DescribeAll(dis, false).value;
    assert r.value[k] == e.value[k] == Describe(f, true).value;
  }

  /** The enumeration of a folder with one more file at its end. */
  lemma {:induction false} FilesEndingWithAppend(files: seq<PackageFile>, f: PackageFile, suffix: string)
    ensures FilesEndingWith(files + [f], suffix)
         == FilesEndingWith(files, suffix) + (if EndsWith(f.name, suffix) then [f] else [])
    decreases |files|
  {
    if |files| == 0 {
      assert files + [f] == [f];
    } else {
      assert (files + [f])[1..] == files[1..] + [f];
      FilesEndingWithAppend(files[1..], f, suffix);
    }
  }

  lemma EnabledSuffixHasNoSeparator()
    ensures '/' !in EnabledSuffix
  {
  }

}

=== FILE: modmeta.dfy ===
/**
 * The C# package record `ModInfo`: its property defaults, its constructors
 * (parameterless, six arguments, seven arguments, and from a `meta.xml`
 * document), the `//key` presence test and `ToString`.
 */
module ModMeta {
  import opened Wrappers
  import opened Xml

  /**
   * One package record. `localFileName` is `None` where the source leaves
   * the reference null; both readers share this shape.
   */
  datatype ModInfo = ModInfo(
    modName: string,
    modId: string,
    packageId: string,
    version: string,
    description: string,
    localFileName: Option<string>,
    isEnabled: bool)

  /** Why the XML constructor throws: `LoadXml` rejects the text, or a key found by `//key` is no direct child. */
  datatype MetaError = MalformedXml | KeyNotFound(key: string)

  /** The record the parameterless constructor leaves: every property at its initialiser. */
  function Default(): ModInfo
  {
    ModInfo("unknown", "unknown", "unknown", "0.0", "", None, false)
  }

  /** The six-argument constructor; the third parameter (named `author`) fills `PackageID`. */
  function Make6(modName: string, modId: string, author: string, version: string,
                 description: string, localFileName: string): ModInfo
  {
    Default().(modName := modName, modId := modId, packageId := author, version := version,
               description := description, localFileName := Some(localFileName))
  }

  /** The seven-argument constructor: as the six-argument one, and `IsEnabled` too. */
  function Make7(modName: string, modId: string, author: string, version: string,
                 description: string, localFileName: string, isEnabled: bool): ModInfo
  {
    Default().(modName := modName, modId := modId, packageId := author, version := version,
               description := description, localFileName := Some(localFileName),
               isEnabled := isEnabled)
  }

  /** The defaults of every property, and the two positional constructors' field assignment. */
  lemma ConstructorFields(a: string, b: string, c: string, d: string, e: string, f: string, on: bool)
    ensures Default().modName == "unknown" && Default().modId == "unknown"
    ensures Default().packageId == "unknown" && Default().version == "0.0"
    ensures Default().description == "" && Default().localFileName.None? && !Default().isEnabled
    ensures Make6(a, b, c, d, e, f) == ModInfo(a, b, c, d, e, Some(f), false)
    ensures Make7(a, b, c, d, e, f, on) == ModInfo(a, b, c, d, e, Some(f), on)
    ensures Make7(a, b, c, d, e, f, false) == Make6(a, b, c, d, e, f)
  {
  }

  /** The four `meta.xml` elements the C# reader consults, in the order it consults them. */
  const CsKeys: seq<string> := ["name", "version", "id", "description"]

  /** `xmlKeyExists`: `SelectSingleNode("//" + key)` finds something. */
  predicate XmlKeyExists(doc: XmlDoc, key: string)
  {
    DescendantExists(doc, key)
  }

  /**
   * One `if (xmlKeyExists(..)) Field = xmlDict[key];` step: keep `current`
   * when `//key` finds nothing, take the dictionary entry otherwise, and
   * throw `KeyNotFoundException` when the key is no direct child.
   */
  function Lookup(doc: XmlDoc, dict: map<string, string>, key: string, current: string): Result<string, MetaError>
  {
    if !XmlKeyExists(doc, key) then Success(current)
    else if key in dict then Success(dict[key])
    else Failure(KeyNotFound(key))
  }

  /**
   * The field read for `key`: the inner text of the last direct child named
   * `key` when there is one; the constructor's default when `//key` finds
   * nothing at all.
   */
  ghost predicate FieldFrom(doc: XmlDoc, key: string, value: string, default: string)
    requires doc.Doc?
  {
    && (HasChildNamed(doc.rootChildren, key) ==>
          exists j :: IsLastNamed(doc.rootChildren, key, j) && value == InnerText(doc.rootChildren[j]))
    && (!XmlKeyExists(doc, key) ==> value == default)
  }

  /** Every consulted key that `//key` finds is also a direct child of the root. */
  predicate KeysResolvable(doc: XmlDoc)
    requires doc.Doc?
  {
    forall i :: 0 <= i < |CsKeys| ==> (XmlKeyExists(doc, CsKeys[i]) ==> HasChildNamed(doc.rootChildren, CsKeys[i]))
  }

  /**
   * `ModInfo(string xmlstr, bool isEnabled, string localFileName)`.
   * A malformed document throws (nothing catches it); `ModID` is never read
   * from the document; duplicates resolve to the last child; a key present
   * only deeper than the root's children (or as the root itself) throws.
   */
  function FromXml(doc: XmlDoc, isEnabled: bool, localFileName: string): (r: Result<ModInfo, MetaError>)
    ensures doc.Malformed? ==> r == Failure(MalformedXml)
    ensures doc.Doc? ==> (r.Success? <==> KeysResolvable(doc))
    ensures r.Failure? && doc.Doc? ==>
      exists i :: 0 <= i < |CsKeys| && r.error == KeyNotFound(CsKeys[i])
        && XmlKeyExists(doc, CsKeys[i]) && !HasChildNamed(doc.rootChildren, CsKeys[i])
        && forall k :: 0 <= k < i ==> (XmlKeyExists(doc, CsKeys[k]) ==> HasChildNamed(doc.rootChildren, CsKeys[k]))
    ensures r.Success? ==> r.value.modId == "unknown"
    ensures r.Success? ==> r.value.isEnabled == isEnabled && r.value.localFileName == Some(localFileName)
    ensures r.Success? ==> FieldFrom(doc, "name", r.value.modName, "unknown")
    ensures r.Success? ==> FieldFrom(doc, "version", r.value.version, "0.0")
    ensures r.Success? ==> FieldFrom(doc, "id", r.value.packageId, "unknown")
    ensures r.Success? ==> FieldFrom(doc, "description", r.value.description, "")
  {
    if doc.Malformed? then Failure(MalformedXml)
    else
      var dict := ChildDict(doc.rootChildren);
      ChildDictLastWins(doc.rootChildren, "name");
      ChildDictLastWins(doc.rootChildren, "version");
      ChildDictLastWins(doc.rootChildren, "id");
      ChildDictLastWins(doc.rootChildren, "description");
      assert CsKeys[0] == "name" && CsKeys[1] == "version" && CsKeys[2] == "id" && CsKeys[3] == "description";
      var d := Default();
      var name :- Lookup(doc, dict, "name", d.modName);
      var version :- Lookup(doc, dict, "version", d.version);
      var id :- Lookup(doc, dict, "id", d.packageId);
      var description :- Lookup(doc, dict, "description", d.description);
      Success(d.(modName := name, version := version, packageId := id, description := description,
                 isEnabled := isEnabled, localFileName := Some(localFileName)))
  }

  /** C# `bool.ToString()`. */
  function BoolText(b: bool): string
  {
    if b then "True" else "False"
  }

  /** The seven "Label: value" lines `ToString` prints, in order (a null file name prints as ""). */
  function Lines(m: ModInfo): seq<string>
  {
    [ "Mod Name: " + m.modName,
      "Mod ID: " + m.modId,
      "Package ID: " + m.packageId,
      "Version: " + m.version,
      "Description: " + m.description,
      "Local File Name: " + (if m.localFileName.Some? then m.localFileName.value else ""),
      "Is Enabled: " + BoolText(m.isEnabled) ]
  }

  /** Each line followed by a newline, concatenated. */
  function JoinLines(ls: seq<string>): (r: string)
    ensures |r| == Sum(ls) + |ls|
    ensures |ls| > 0 ==> |r| > 0 && r[|r| - 1] == '\n'
  {
    if |ls| == 0 then "" else ls[0] + "\n" + JoinLines(ls[1..])
  }

  function Sum(ls: seq<string>): nat
  {
    if |ls| == 0 then 0 else |ls[0]| + Sum(ls[1..])
  }

  /** `ToString`: the record's seven labelled lines, each ending in a newline. */
  function ToString(m: ModInfo): (r: string)
    ensures |r| == Sum(Lines(m)) + 7 && r[|r| - 1] == '\n'
  {
    JoinLines(Lines(m))
  }

  /** The length of the first line of `s`: the index of its first newline, or `|s|` when there is none. */
  function LineEnd(s: string): (i: nat)
    ensures i <= |s|
    ensures forall k :: 0 <= k < i ==> s[k] != '\n'
    ensures i < |s| ==> s[i] == '\n'
  {
    if |s| == 0 || s[0] == '\n' then 0 else 1 + LineEnd(s[1..])
  }

  /** Splits text into newline-terminated lines; an unterminated tail is a last line of its own. */
  function SplitLines(s: string): seq<string>
    decreases |s|
  {
    if |s| == 0 then []
    else
      var i := LineEnd(s);
      if i == |s| then [s] else [s[..i]] + SplitLines(s[i + 1..])
  }

  /** No line contains a newline. */
  predicate SingleLines(ls: seq<string>)
  {
    forall i :: 0 <= i < |ls| ==> '\n' !in ls[i]
  }

  /** The first line of a line, a newline and more text is that line. */
  lemma LineEndOfJoin(line: string, rest: string)
    requires '\n' !in line
    ensures LineEnd(line + "\n" + rest) == |line|
  {
    var s := line + "\n" + rest;
    assert s[|line|] == '\n';
    assert forall k :: 0 <= k < |line| ==> s[k] == line[k];
  }

  /** Splitting joined single lines gives the lines back. */
  lemma {:induction false} SplitJoinLines(ls: seq<string>)
    requires SingleLines(ls)
    ensures SplitLines(JoinLines(ls)) == ls
    decreases |ls|
  {
    if |ls| > 0 {
      var rest := JoinLines(ls[1..]);
      assert JoinLines(ls) == ls[0] + "\n" + rest;
      SingleLinesTail(ls);
      SplitStep(ls[0], rest);
      SplitJoinLines(ls[1..]);
      assert ls == [ls[0]] + ls[1..];
    }
  }

  /** Dropping the first line keeps the rest free of newlines. */
  lemma SingleLinesTail(ls: seq<string>)
    requires SingleLines(ls) && |ls| > 0
    ensures '\n' !in ls[0] && SingleLines(ls[1..])
  {
    forall i | 0 <= i < |ls[1..]| ensures '\n' !in ls[1..][i] {
      assert ls[1..][i] == ls[i + 1];
    }
  }

  /** A line without a newline, a newline and more text split into that line and the split of the rest. */
  lemma SplitStep(line: string, rest: string)
    requires '\n' !in line
    ensures SplitLines(line + "\n" + rest) == [line] + SplitLines(rest)
  {
    var s := line + "\n" + rest;
    LineEndOfJoin(line, rest);
    assert s[..|line|] == line;
    assert s[|line| + 1..] == rest;
  }

  /**
   * When no field holds a newline, the text `ToString` prints splits back
   * into the seven labelled lines, so every field can be read off its line.
   */
  lemma ToStringLines(m: ModInfo)
    requires SingleLines(Lines(m))
    ensures SplitLines(ToString(m)) == Lines(m)
  {
    SplitJoinLines(Lines(m));
  }

  /** Worked instance: a name found only as the document root makes the constructor throw. */
  lemma RootNamedKeyThrows()
    ensures FromXml(Doc("name", [Text("x")]), true, "a.wotmod") == Failure(KeyNotFound("name"))
  {
    var doc := Doc("name", [Text("x")]);
    assert XmlKeyExists(doc, "name");
    assert !HasChildNamed(doc.rootChildren, "name");
  }

  /** Worked instance: of two `<name>` children, the second is the one read. */
  lemma LastDuplicateWins()
    ensures FromXml(Doc("root", [Element("name", [Text("A")]), Element("name", [Text("B")])]), false, "m.wotmod")
         == Success(ModInfo("B", "unknown", "unknown", "0.0", "", Some("m.wotmod"), false))
  {
    var cs := [Element("name", [Text("A")]), Element("name", [Text("B")])];
    var doc := Doc("root", cs);
    assert InnerText(cs[1]) == "B" by {
      assert InnerTexts([Text("B")]) == "B" + InnerTexts([]);
    }
    assert IsLastNamed(cs, "name", 1);
    ChildIsDescendant(doc, "name");
    forall k | k in ["version", "id", "description"] ensures !XmlKeyExists(doc, k) {
      assert !InTree(cs[0], k) by { assert cs[0].children[0].Text?; }
      assert !InTree(cs[1], k) by { assert cs[1].children[0].Text?; }
    }
  }
}

=== FILE: pymod.dfy ===
/**
 * The Python package record (`ModInfo.__init__` in the GUI's `modcore`):
 * keyword defaults, then optional overrides from a `meta.xml` document read
 * with ElementTree, whose parse errors are swallowed.
 */
module PyMod {
  import opened Wrappers
  import opened Xml
  import opened ModMeta

  /**
   * The `meta.xml` elements the Python reader consults, in order, with the
   * record field each overrides.
   */
  const PyKeys: seq<string> := ["name", "version", "id", "description", "wgid"]

  /** `_xml_key_exists`: the root has a child element with this tag. */
  predicate PyKeyExists(root: seq<Node>, key: string)
  {
    Find(root, key).Some?
  }

  /**
   * `if self._xml_key_exists(doc, key): field = doc.findtext(key)`: the
   * leading text of the first child element `key`, or `current` unchanged.
   */
  function Override(root: seq<Node>, key: string, current: string): string
  {
    match Find(root, key)
    case Some(e) => LeadingText(e.children)
    case None => current
  }

  /**
   * The field after the override for `key`: the leading text of the FIRST
   * child element named `key`, or the constructor argument when there is none.
   */
  ghost predicate FirstChildOr(root: seq<Node>, key: string, value: string, argument: string)
  {
    && ((forall i :: 0 <= i < |root| ==> !IsElementNamed(root[i], key)) ==> value == argument)
    && (forall i :: IsFirstElementNamed(root, key, i) ==> value == LeadingText(root[i].children))
  }

  /**
   * `ModInfo(modName="unknown", modID="unknown", packageID="unknown",
   * version="0.0", description="", localFileName=None, isEnabled=False,
   * xmlstr=None)`; `xmlstr` is given already parsed, `Malformed` standing for
   * the text on which `ET.fromstring` raises `ParseError`.
   */
  function PyModInfo(modName: string := "unknown", modId: string := "unknown",
                     packageId: string := "unknown", version: string := "0.0",
                     description: string := "", localFileName: Option<string> := None,
                     isEnabled: bool := false, xmlstr: Option<XmlDoc> := None): (r: ModInfo)
    ensures r.isEnabled == isEnabled && r.localFileName == localFileName
    ensures (xmlstr.None? || xmlstr == Some(Malformed)) ==>
      r == ModInfo(modName, modId, packageId, version, description, localFileName, isEnabled)
    ensures xmlstr.Some? && xmlstr.value.Doc? ==>
      var root := xmlstr.value.rootChildren;
      && FirstChildOr(root, "name", r.modName, modName)
      && FirstChildOr(root, "version", r.version, version)
      && FirstChildOr(root, "id", r.packageId, packageId)
      && FirstChildOr(root, "description", r.description, description)
      && FirstChildOr(root, "wgid", r.modId, modId)
  {
    var base := ModInfo(modName, modId, packageId, version, description, localFileName, isEnabled);
    match xmlstr
    case None => base
    case Some(Malformed) => base
    case Some(Doc(_, root)) =>
      OverrideIsFirstChild(root, "name", modName);
      OverrideIsFirstChild(root, "version", version);
      OverrideIsFirstChild(root, "id", packageId);
      OverrideIsFirstChild(root, "description", description);
      OverrideIsFirstChild(root, "wgid", modId);
      base.(modName := Override(root, "name", modName),
            version := Override(root, "version", version),
            packageId := Override(root, "id", packageId),
            description := Override(root, "description", description),
            modId := Override(root, "wgid", modId))
  }

  lemma OverrideIsFirstChild(root: seq<Node>, key: string, current: string)
    ensures FirstChildOr(root, key, Override(root, key, current), current)
  {
    forall i | IsFirstElementNamed(root, key, i)
      ensures Override(root, key, current) == LeadingText(root[i].children)
    {
      var j :| IsFirstElementNamed(root, key, j) && root[j] == Find(root, key).value;
      FirstElementNamedUnique(root, key, i, j);
    }
  }

  /** Without a document, every field equals its keyword default. */
  lemma DefaultsWithoutXml()
    ensures PyModInfo() == ModInfo("unknown", "unknown", "unknown", "0.0", "", None, false)
  {
  }

  /**
   * The readers disagree on duplicates: the C# reader takes the last
   * `<name>`, the Python reader the first.
   */
  lemma ReadersDisagreeOnDuplicates()
    ensures var doc := Doc("root", [Element("name", [Text("A")]), Element("name", [Text("B")])]);
      && PyModInfo(xmlstr := Some(doc)).modName == "A"
      && FromXml(doc, false, "m.wotmod").Success?
      && FromXml(doc, false, "m.wotmod").value.modName == "B"
  {
    var doc := Doc("root", [Element("name", [Text("A")]), Element("name", [Text("B")])]);
    assert IsFirstElementNamed(doc.rootChildren, "name", 0);
    LastDuplicateWins();
  }

  /** The readers also disagree on `wgid`: only the Python reader fills `ModID` from it. */
  lemma ReadersDisagreeOnWgid()
    ensures var doc := Doc("root", [Element("wgid", [Text("42")])]);
      && PyModInfo(xmlstr := Some(doc)).modId == "42"
      && FromXml(doc, true, "m.wotmod").Success?
      && FromXml(doc, true, "m.wotmod").value.modId == "unknown"
  {
    var doc := Doc("root", [Element("wgid", [Text("42")])]);
    assert IsFirstElementNamed(doc.rootChildren, "wgid", 0);
    forall k | k in CsKeys ensures !XmlKeyExists(doc, k) {
      assert !InTree(doc.rootChildren[0], k) by { assert doc.rootChildren[0].children[0].Text?; }
    }
  }

  /** A malformed document changes nothing, where the C# reader throws. */
  lemma ReadersDisagreeOnMalformed(localFileName: string)
    ensures PyModInfo(localFileName := Some(localFileName), isEnabled := true, xmlstr := Some(Malformed))
         == Default().(localFileName := Some(localFileName), isEnabled := true)
    ensures FromXml(Malformed, true, localFileName).Failure?
  {
  }
}

=== FILE: strings.dfy ===
/**
 * String helpers with the meaning the C# and Python sources give them:
 * substring and suffix tests, removal of a character (`Replace(".", "")`),
 * file names of paths, ordinal string order and sorting under it.
 */
module Strings {

  /** `w` occurs in `s` starting at index `i`. */
  predicate OccursAt(s: string, w: string, i: int)
  {
    0 <= i && i + |w| <= |s| && s[i..i + |w|] == w
  }

  /** `s.Contains(w)` / `w in s`: some occurrence of `w` inside `s`. */
  predicate Contains(s: string, w: string)
  {
    exists i :: 0 <= i <= |s| - |w| && OccursAt(s, w, i)
  }

  /** A string contains its own prefixes. */
  lemma ContainsPrefix(a: string, b: string)
    ensures Contains(a + b, a)
  {
    assert OccursAt(a + b, a, 0);
  }

  /** Prepending text keeps every occurrence. */
  lemma ContainsShift(a: string, b: string, w: string)
    requires Contains(b, w)
    ensures Contains(a + b, w)
  {
    var j :| 0 <= j <= |b| - |w| && OccursAt(b, w, j);
    assert (a + b)[|a| + j..|a| + j + |w|] == b[j..j + |w|];
    assert OccursAt(a + b, w, |a| + j);
  }

  /** `s.EndsWith(w)`. */
  predicate EndsWith(s: string, w: string)
  {
    |w| <= |s| && s[|s| - |w|..] == w
  }

  /** `s.StartsWith(w)`. */
  predicate StartsWith(s: string, w: string)
  {
    |w| <= |s| && s[..|w|] == w
  }

  /**
   * Left-to-right search for the first occurrence of `w` at or after `i`,
   * the scan a regular-expression engine performs for an unanchored match.
   */
  function FindFrom(s: string, w: string, i: nat): (r: int)
    requires i <= |s|
    ensures r == -1 || (i <= r && OccursAt(s, w, r))
    ensures r == -1 <==> forall k :: i <= k ==> !OccursAt(s, w, k)
    ensures r != -1 ==> forall k :: i <= k < r ==> !OccursAt(s, w, k)
    decreases |s| - i
  {
    if OccursAt(s, w, i) then i
    else if i == |s| then
      assert forall k :: i <= k ==> !OccursAt(s, w, k) by {
        forall k | i <= k ensures !OccursAt(s, w, k) {
          if k > i { assert k + |w| > |s|; }
        }
      }
      -1
    else FindFrom(s, w, i + 1)
  }

  /** The search finds an occurrence exactly when `w` is contained in `s`. */
  lemma FindFromZeroIffContains(s: string, w: string)
    ensures FindFrom(s, w, 0) != -1 <==> Contains(s, w)
  {
    if FindFrom(s, w, 0) != -1 {
      assert OccursAt(s, w, FindFrom(s, w, 0));
    }
    if Contains(s, w) {
      var i :| 0 <= i <= |s| - |w| && OccursAt(s, w, i);
      assert !(forall k :: 0 <= k ==> !OccursAt(s, w, k));
    }
  }

  /** `s.Replace(c, "")`: every occurrence of the character `c` removed. */
  function RemoveChar(s: string, c: char): (r: string)
    ensures |r| <= |s|
    ensures c !in r
    ensures forall x :: x != c ==> multiset(r)[x] == multiset(s)[x]
  {
    if |s| == 0 then ""
    else if s[0] == c then
      assert s == [s[0]] + s[1..];
      RemoveChar(s[1..], c)
    else
      assert s == [s[0]] + s[1..];
      [s[0]] + RemoveChar(s[1..], c)
  }

  /** `Replace` keeps the order of what it keeps: one step of `RemoveChar` on a leading character. */
  lemma RemoveCharCons(x: char, s: string, c: char)
    ensures RemoveChar([x] + s, c) == if x == c then RemoveChar(s, c) else [x] + RemoveChar(s, c)
  {
    assert ([x] + s)[1..] == s;
  }

  /** No '/' at or after index `i` of `path`. */
  predicate NoSlashFrom(path: string, i: nat)
  {
    forall k :: i <= k < |path| ==> path[k] != '/'
  }

  /** The index just after the last '/' of `path`, 0 when there is none. */
  function AfterLastSlash(path: string): (r: nat)
    ensures r <= |path|
    ensures r > 0 ==> path[r - 1] == '/'
    ensures NoSlashFrom(path, r)
  {
    if |path| == 0 then 0
    else if path[|path| - 1] == '/' then |path|
    else
      var init := path[..|path| - 1];
      var r := AfterLastSlash(init);
      assert forall k :: 0 <= k < |init| ==> init[k] == path[k];
      assert NoSlashFrom(init, r);
      r
  }

  /**
   * `Path.GetFileName` on a '/'-separated path: the part after the last
   * separator, the whole path when there is none.
   */
  function FileName(path: string): (r: string)
    ensures '/' !in r
    ensures EndsWith(path, r)
    ensures |r| < |path| ==> path[|path| - |r| - 1] == '/'
  {
    var i := AfterLastSlash(path);
    assert NoSlashFrom(path, i);
    assert forall k :: 0 <= k < |path[i..]| ==> path[i..][k] == path[i + k];
    path[i..]
  }

  /** A path ending in a separator-free suffix gives a file name with that suffix. */
  lemma FileNameKeepsSuffix(path: string, suffix: string)
    requires EndsWith(path, suffix) && '/' !in suffix
    ensures EndsWith(FileName(path), suffix)
  {
    SuffixAfterLastSlash(path, suffix);
    TailOfTail(path, AfterLastSlash(path), |suffix|);
  }

  /** Cutting a prefix shorter than `|s| - n` keeps the last `n` elements. */
  lemma TailOfTail(s: string, i: nat, n: nat)
    requires i + n <= |s|
    ensures EndsWith(s, s[|s| - n..]) && EndsWith(s[i..], s[|s| - n..])
  {
  }

  /** The last separator comes before a separator-free suffix. */
  lemma SuffixAfterLastSlash(path: string, suffix: string)
    requires EndsWith(path, suffix) && '/' !in suffix
    ensures AfterLastSlash(path) <= |path| - |suffix|
  {
  }

  predicate IsDigit(c: char)
  {
    '0' <= c <= '9'
  }

  predicate AllDigits(s: string)
  {
    forall i :: 0 <= i < |s| ==> IsDigit(s[i])
  }

  /** The number a run of decimal digits denotes, read left to right. */
  function DigitsValue(s: string): nat
    requires AllDigits(s)
  {
    if |s| == 0 then 0
    else DigitsValue(s[..|s| - 1]) * 10 + (s[|s| - 1] as int - '0' as int)
  }

  // ---------------------------------------------------------------------------
  // Ordinal order and sorting
  // ---------------------------------------------------------------------------

  /** Ordinal (code-point-wise lexicographic) `a <= b`; a proper prefix comes first. */
  predicate StrLe(a: string, b: string)
  {
    |a| == 0 || (|b| > 0 && (a[0] < b[0] || (a[0] == b[0] && StrLe(a[1..], b[1..]))))
  }

  lemma {:induction false} StrLeReflexive(a: string)
    ensures StrLe(a, a)
    decreases |a|
  {
    if |a| > 0 {
      StrLeReflexive(a[1..]);
    }
  }

  lemma {:induction false} StrLeTotal(a: string, b: string)
    ensures StrLe(a, b) || StrLe(b, a)
    decreases |a|
  {
    if |a| > 0 && |b| > 0 && a[0] == b[0] {
      StrLeTotal(a[1..], b[1..]);
    }
  }

  lemma {:induction false} StrLeAntisymmetric(a: string, b: string)
    requires StrLe(a, b) && StrLe(b, a)
    ensures a == b
    decreases |a|
  {
    if |a| > 0 {
      StrLeAntisymmetric(a[1..], b[1..]);
      assert a == [a[0]] + a[1..] && b == [b[0]] + b[1..];
    }
  }

  lemma {:induction false} StrLeTransitive(a: string, b: string, c: string)
    requires StrLe(a, b) && StrLe(b, c)
    ensures StrLe(a, c)
    decreases |a|
  {
    if |a| > 0 && a[0] == b[0] && b[0] == c[0] {
      StrLeTransitive(a[1..], b[1..], c[1..]);
    }
  }

  /** A shared prefix does not influence the order. */
  lemma {:induction false} StrLeCommonPrefix(p: string, a: string, b: string)
    ensures StrLe(p + a, p + b) <==> StrLe(a, b)
    decreases |p|
  {
    if |p| > 0 {
      assert (p + a)[1..] == p[1..] + a;
      assert (p + b)[1..] == p[1..] + b;
      StrLeCommonPrefix(p[1..], a, b);
    } else {
      assert p + a == a && p + b == b;
    }
  }

  /** Ascending under the ordinal order. */
  predicate Sorted(s: seq<string>)
  {
    forall i, j :: 0 <= i < j < |s| ==> StrLe(s[i], s[j])
  }

  /** Inserts `x` in front of the first element it does not exceed. */
  function Insert(x: string, s: seq<string>): (r: seq<string>)
    requires Sorted(s)
    ensures Sorted(r)
    ensures multiset(r) == multiset(s) + multiset{x}
    decreases |s|
  {
    if |s| == 0 then [x]
    else if StrLe(x, s[0]) then
      assert forall j :: 0 < j < |s| ==> StrLe(x, s[j]) by {
        forall j | 0 < j < |s| ensures StrLe(x, s[j]) {
          StrLeTransitive(x, s[0], s[j]);
        }
      }
      [x] + s
    else
      StrLeTotal(x, s[0]);
      var t := Insert(x, s[1..]);
      assert s == [s[0]] + s[1..];
      assert forall y :: y in t ==> StrLe(s[0], y) by {
        forall y | y in t ensures StrLe(s[0], y) {
          assert y in multiset(t);
          if y != x {
            assert y in multiset(s[1..]);
            var j :| 0 <= j < |s[1..]| && s[1..][j] == y;
            assert s[j + 1] == y;
          }
        }
      }
      [s[0]] + t
  }

  /**
   * `List<string>.Sort()`: an insertion sort, so the result is the unique
   * ascending permutation of the input.
   */
  function Sort(s: seq<string>): (r: seq<string>)
    ensures Sorted(r)
    ensures multiset(r) == multiset(s)
    ensures |r| == |s|
  {
    if |s| == 0 then []
    else
      assert s == s[..|s| - 1] + [s[|s| - 1]];
      var r := Insert(s[|s| - 1], Sort(s[..|s| - 1]));
      assert |r| == |multiset(r)|;
      r
  }

  /** The first element of an ascending sequence is its minimum. */
  lemma HeadIsMinimum(s: seq<string>, x: string)
    requires Sorted(s) && x in s
    ensures StrLe(s[0], x)
  {
    var i :| 0 <= i < |s| && s[i] == x;
    if i == 0 { StrLeReflexive(x); }
  }

  /** Two ascending permutations of the same strings are equal. */
  lemma {:induction false} SortedPermutationUnique(a: seq<string>, b: seq<string>)
    requires Sorted(a) && Sorted(b)
    requires multiset(a) == multiset(b)
    ensures a == b
    decreases |a|
  {
    assert |a| == |multiset(a)| == |multiset(b)| == |b|;
    if |a| > 0 {
      assert a[0] in multiset(b) && b[0] in multiset(a);
      HeadIsMinimum(b, a[0]);
      HeadIsMinimum(a, b[0]);
      StrLeAntisymmetric(a[0], b[0]);
      TailMultiset(a);
      TailMultiset(b);
      SortedPermutationUnique(a[1..], b[1..]);
      HeadTail(a);
      HeadTail(b);
    }
  }

  lemma HeadTail(s: seq<string>)
    requires |s| > 0
    ensures s == [s[0]] + s[1..]
  {
  }

  lemma TailMultiset(s: seq<string>)
    requires |s| > 0
    ensures multiset(s[1..]) == multiset(s) - multiset{s[0]}
    ensures Sorted(s) ==> Sorted(s[1..])
  {
    assert s == [s[0]] + s[1..];
  }

  /** The last element of an ascending sequence is its maximum. */
  lemma LastIsMaximum(s: seq<string>)
    requires Sorted(s) && |s| > 0
    ensures forall x :: x in s ==> StrLe(x, s[|s| - 1])
  {
    forall x | x in s ensures StrLe(x, s[|s| - 1]) {
      var i :| 0 <= i < |s| && s[i] == x;
      if i == |s| - 1 { StrLeReflexive(x); }
    }
  }
}

=== FILE: wrappers.dfy ===
/** Failure-carrying result types shared by every module of the model. */
module Wrappers {

  /** A value that may be absent (a C# null, a Python None, a missing key). */
  datatype Option<+T> = None | Some(value: T)

  /**
   * Either a computed value or the error the source raises or returns
   * instead; usable with `:-`, which stops at the first failure the way an
   * uncaught exception does.
   */
  datatype Result<+R, +E> = Success(value: R) | Failure(error: E) {

    predicate IsFailure() {
      Failure?
    }

    function PropagateFailure<U>(): Result<U, E>
      requires Failure?
    {
      Failure(error)
    }

    function Extract(): R
      requires Success?
    {
      value
    }
  }
}

=== FILE: xml.dfy ===
/**
 * An abstract parsed XML document (the result of `XmlDocument.LoadXml` in
 * C# or `ElementTree.fromstring` in Python) and the handful of queries the
 * two descriptor readers make of it.
 */
module Xml {
  import opened Wrappers

  /** A node below the root: an element with its children, or character data. */
  datatype Node = Element(tag: string, children: seq<Node>) | Text(content: string)

  /**
   * The outcome of parsing a `meta.xml` text: either a document, whose root
   * is always an element, or a parse failure.
   */
  datatype XmlDoc = Malformed | Doc(rootTag: string, rootChildren: seq<Node>)

  /** `XmlNode.Name`: the element's tag; character data is named "#text". */
  function NodeName(n: Node): string
  {
    match n
    case Element(tag, _) => tag
    case Text(_) => "#text"
  }

  predicate IsElementNamed(n: Node, key: string)
  {
    n.Element? && n.tag == key
  }

  /** `XmlNode.InnerText`: all character data below `n`, in document order. */
  function InnerText(n: Node): string
    decreases n
  {
    match n
    case Text(s) => s
    case Element(_, cs) => InnerTexts(cs)
  }

  function InnerTexts(ns: seq<Node>): string
    decreases ns
  {
    if |ns| == 0 then "" else InnerText(ns[0]) + InnerTexts(ns[1..])
  }

  /**
   * ElementTree's `.text` of an element with children `ns`, as `findtext`
   * reports it: the character data before the first child element, "" when
   * there is none.
   */
  function LeadingText(ns: seq<Node>): string
  {
    if |ns| == 0 || ns[0].Element? then "" else ns[0].content + LeadingText(ns[1..])
  }

  /** An element named `key` at or below `n`. */
  predicate InTree(n: Node, key: string)
    decreases n
  {
    n.Element? && (n.tag == key || exists i :: 0 <= i < |n.children| && InTree(n.children[i], key))
  }

  /** XPath `//key` finds a node: the root or any element below it is named `key`. */
  predicate DescendantExists(doc: XmlDoc, key: string)
  {
    doc.Doc? && (doc.rootTag == key || exists i :: 0 <= i < |doc.rootChildren| && InTree(doc.rootChildren[i], key))
  }

  /** Some direct child of the root carries the name `key`. */
  predicate HasChildNamed(ns: seq<Node>, key: string)
  {
    exists i :: 0 <= i < |ns| && NodeName(ns[i]) == key
  }

  /** `ns[j]` is the last child named `key`. */
  predicate IsLastNamed(ns: seq<Node>, key: string, j: int)
  {
    0 <= j < |ns| && NodeName(ns[j]) == key && forall k :: j < k < |ns| ==> NodeName(ns[k]) != key
  }

  /** `ns[i]` is the first child element with tag `key`. */
  predicate IsFirstElementNamed(ns: seq<Node>, key: string, i: int)
  {
    0 <= i < |ns| && IsElementNamed(ns[i], key) && forall k :: 0 <= k < i ==> !IsElementNamed(ns[k], key)
  }

  /**
   * The C# reader's dictionary: one pass over the root's child nodes, each
   * assigning `dict[node.Name] = node.InnerText`, so a later child of the
   * same name overwrites an earlier one.
   */
  function ChildDict(ns: seq<Node>): (dict: map<string, string>)
    decreases |ns|
  {
    if |ns| == 0 then map[]
    else ChildDict(ns[..|ns| - 1])[NodeName(ns[|ns| - 1]) := InnerText(ns[|ns| - 1])]
  }

  /**
   * The dictionary holds exactly the names of the root's children, and the
   * entry for a name is the inner text of the LAST child carrying it.
   */
  lemma {:induction false} ChildDictLastWins(ns: seq<Node>, key: string)
    ensures key in ChildDict(ns) <==> HasChildNamed(ns, key)
    ensures key in ChildDict(ns) ==>
      exists j :: IsLastNamed(ns, key, j) && ChildDict(ns)[key] == InnerText(ns[j])
    decreases |ns|
  {
    if |ns| > 0 {
      var init := ns[..|ns| - 1];
      var last := |ns| - 1;
      ChildDictLastWins(init, key);
      if NodeName(ns[last]) == key {
        assert IsLastNamed(ns, key, last);
      } else {
        assert ChildDict(ns) == ChildDict(init)[NodeName(ns[last]) := InnerText(ns[last])];
        NamedInInit(ns, key);
        if key in ChildDict(init) {
          var j :| IsLastNamed(init, key, j) && ChildDict(init)[key] == InnerText(init[j]);
          LastNamedInInit(ns, key, j);
        }
      }
    }
  }

  /** When the last child has another name, the earlier children decide whether `key` occurs. */
  lemma NamedInInit(ns: seq<Node>, key: string)
    requires |ns| > 0 && NodeName(ns[|ns| - 1]) != key
    ensures HasChildNamed(ns, key) <==> HasChildNamed(ns[..|ns| - 1], key)
  {
    var init := ns[..|ns| - 1];
    if HasChildNamed(ns, key) {
      var i :| 0 <= i < |ns| && NodeName(ns[i]) == key;
      assert init[i] == ns[i];
    }
    if HasChildNamed(init, key) {
      var i :| 0 <= i < |init| && NodeName(init[i]) == key;
      assert init[i] == ns[i];
    }
  }

  /** The last child named `key` among the earlier children stays the last one. */
  lemma LastNamedInInit(ns: seq<Node>, key: string, j: int)
    requires |ns| > 0 && NodeName(ns[|ns| - 1]) != key
    requires IsLastNamed(ns[..|ns| - 1], key, j)
    ensures IsLastNamed(ns, key, j) && ns[..|ns| - 1][j] == ns[j]
  {
    var init := ns[..|ns| - 1];
    forall k | j < k < |ns| ensures NodeName(ns[k]) != key {
      if k < |ns| - 1 { assert init[k] == ns[k]; }
    }
  }

  /** ElementTree `find(key)`: the first child element with tag `key`. */
  function Find(ns: seq<Node>, key: string): (r: Option<Node>)
    ensures r.None? <==> forall i :: 0 <= i < |ns| ==> !IsElementNamed(ns[i], key)
    ensures r.Some? ==> exists i :: IsFirstElementNamed(ns, key, i) && ns[i] == r.value
    decreases |ns|
  {
    if |ns| == 0 then None
    else if IsElementNamed(ns[0], key) then
      assert IsFirstElementNamed(ns, key, 0);
      Some(ns[0])
    else
      var r := Find(ns[1..], key);
      if r.Some? then
        var i :| IsFirstElementNamed(ns[1..], key, i) && ns[1..][i] == r.value;
        assert IsFirstElementNamed(ns, key, i + 1);
        r
      else
        assert forall i :: 0 <= i < |ns| ==> !IsElementNamed(ns[i], key) by {
          forall i | 0 < i < |ns| ensures !IsElementNamed(ns[i], key) {
            assert ns[i] == ns[1..][i - 1];
          }
        }
        r
  }

  /** Two first-element witnesses are the same index. */
  lemma FirstElementNamedUnique(ns: seq<Node>, key: string, i: int, j: int)
    requires IsFirstElementNamed(ns, key, i) && IsFirstElementNamed(ns, key, j)
    ensures i == j
  {
  }

  /** A direct child named `key` is in particular found by `//key`. */
  lemma ChildIsDescendant(doc: XmlDoc, key: string)
    requires doc.Doc? && key != "#text" && HasChildNamed(doc.rootChildren, key)
    ensures DescendantExists(doc, key)
  {
    var i :| 0 <= i < |doc.rootChildren| && NodeName(doc.rootChildren[i]) == key;
    assert InTree(doc.rootChildren[i], key);
  }
}
